=== FILE: README.md ===
# A verified model of the book-processing core of a chemical-engineering RAG app

The application answers questions from a library of PDF books. This project
models the logic between the PDF library and the vector store, and the logic
behind the exports. It does not model the libraries it calls.

- `Text` (text.dfy): the Python string operations the core relies on.
  These are `str.isspace`, `strip`, `find`, `split`, `join`, `int()`,
  slicing with negative bounds, `replace`, and ASCII `lower`/`upper`.
- `Helpers` (helpers.dfy): utils/helpers.py. It covers `clean_text`,
  `format_citation`, `format_citations_list`, `validate_pdf`, the timestamp
  format, `truncate_text` and `extract_book_name`.
- `Chunker` (chunker.dfy): the `DocumentProcessor` parameters with their
  `or` defaults, and the page markers `load_pdf` writes in front of each page
  before cleaning. It also models `chunk_text`: split the text at
  `'--- Page '`, read the page numbers, and feed the page bodies into a
  buffer. While the buffer holds `4 * chunk_size` characters, emit its stripped
  first window and drop `4 * (chunk_size - chunk_overlap)` characters. Finally
  emit the non-blank rest. Its contracts are stated against an independent
  reference: window `k` of the concatenated page bodies.
- `Tracker` (tracker.dfy): `BookManager`, an insertion-ordered dict from bare
  file name to record. A file carries its MD5 digest as an uninterpreted
  string.
- `Batch` (batch.dfy): `process_new_books` and `process_books_directory`. The
  directory is a listing, or None when it does not exist. PDF extraction is a
  parameter that returns the page texts, or None when opening the file raises.
- `Export` (export.dfy): `_clean_text_for_export` as three left-to-right
  scanners (bold, italic, inline code). It also covers the paragraph and
  citation splitting, the default file names, and the block sequence that
  each export lays out (title, headings, paragraphs, spacers, bullets,
  quotes). Rendering by reportlab and python-docx is not modelled.

## Model

| member | source | states |
|---|---|---|
| Chunker.NewProcessor | src/document_processor.py:20-29 | A given non-zero chunk size and any given overlap, zero included, are kept; a missing one takes the setting (1000 and 200 tokens). This is the corrected constructor. |
| Chunker.ZeroOverlapAsWritten | src/document_processor.py:29 | Asking for chunk size 100 and overlap 0 yields overlap 200, and with those parameters the chunking loop never ends once its buffer holds 400 characters. |
| Chunker.ExplicitOverlapKept | src/document_processor.py:29 | With the corrected constructor, every overlap `0 <= o < size` is kept exactly and the loop terminates. |
| Chunker.LoopProgress | src/document_processor.py:126-139 | The drop `buffer[4*(cs-co):]` shortens every full buffer exactly when `0 < cs`, `co != cs` and `co < 2*cs`; otherwise some buffer never shrinks. |
| Chunker.LoadedSectionsKeepHeader | src/document_processor.py:57-60 | For any page texts, every section parsed from the cleaned `load_pdf` text still begins with its own page number, so its body keeps the `"N --- "` header. Cleaning removes every newline, so the `'---\n'` branch never applies. |
| Chunker.ParseSection | src/document_processor.py:115-120 | A section parses exactly when `int()` accepts the text before the first `' ---'`, and then the page is that number. Without `'---\n'` the body is the whole piece. |
| Chunker.UnparsableSectionSkipped | src/document_processor.py:113-120 | A piece whose page number does not parse is dropped and the other sections are unaffected. |
| Chunker.ParseSectionsConcat | src/document_processor.py:113-120 | Sections are parsed piece by piece: parsing a concatenation of piece lists concatenates the results. |
| Chunker.NoMarkerNoChunks | src/document_processor.py:107-120 | Text without any `'--- Page '` marker yields no chunks. |
| Chunker.ChunkText | src/document_processor.py:87-155 | Chunk ids are 0, 1, 2, ... with no gap. Every chunk copies the book name and file path of the metadata. No chunk is longer than `4 * chunk_size`. Text with no parsed section gives no chunk. |
| Chunker.ChunkTextWindows | src/document_processor.py:103-150 | For `0 <= overlap < size`, chunk `k` is window `k` (`4*size` characters starting at `k*4*(size-overlap)`) of the concatenated page bodies, stripped. Its page is the one whose body completed the window. There is one chunk per window that fits. The rest after the last window becomes one more chunk, with the last parsed page, exactly when it is not blank, and it is shorter than a window. |
| Chunker.WindowsOverlap | src/document_processor.py:127-139 | Consecutive windows share exactly `4 * chunk_overlap` characters. |
| Chunker.StartIsProduct | src/document_processor.py:139 | Window `k` starts at offset `k * stride`. |
| Chunker.WindowCountClosedForm | src/document_processor.py:126-140 | The number of full windows is 0 when the text is shorter than a window, else `(len - width) / stride + 1`. |
| Chunker.WindowCountUnique | src/document_processor.py:126 | The loop-exit condition determines the number of windows uniquely. |
| Text.ParseIntOfIntToString | src/document_processor.py:117 | `int()` reads back every integer that `f"{n}"` writes, so each page number written at line 60 parses to itself. |
| Batch.ProcessBook | src/document_processor.py:158-184 | Processing fails exactly when extraction fails. Otherwise the chunks are numbered from 0 and carry the book name and path of that file. |
| Batch.ProcessNewBooks | src/document_processor.py:234-302 | A missing directory gives zero counts and no chunks, and the tracker is unchanged. Otherwise the new-book names are the new or changed PDFs in listing order, and the skipped names are the processed PDFs in listing order. The two counts add up to the number of PDFs. `new_books_processed` counts detected books even when some fail. The chunk total is the number of chunks. |
| Batch.PartitionExact | src/document_processor.py:265-271 | Every PDF lands in exactly one of new and skipped. |
| Batch.ProcessedOnesAppend | src/document_processor.py:265-267 | The skipped list is a filter over the listing: a split listing gives the concatenation of the two parts' skipped lists. |
| Batch.ProcessedOnesOne | src/document_processor.py:266-267 | A single file is skipped exactly when it is processed. |
| Batch.RunMarks | src/document_processor.py:277-289 | A book whose extraction succeeds ends up with a record holding its chunk count. A book whose extraction fails leaves its entry as it was. |
| Batch.RunFrame | src/document_processor.py:277-289 | Entries for names outside the batch are not touched. |
| Batch.NewChunksFromNewBooks | src/document_processor.py:277-285 | Every new chunk comes from a new book that loaded, and carries that book's name and path. |
| Batch.AllFailed | src/document_processor.py:277-298 | When every new book fails, there are no chunks and the tracker is unchanged, yet `new_books_processed` still counts them all. |
| Batch.RescanFindsOnlyFailures | src/document_processor.py:265-289 | After a run, scanning the same directory again finds exactly the books that were new and failed to load. |
| Batch.ProcessBooksDirectory | src/document_processor.py:187-231 | A missing directory and a directory without PDFs are the two error outcomes, each exactly when it applies. Otherwise successes plus failures equal the number of PDFs. |
| Batch.TallyCountsLoading | src/document_processor.py:218-227 | The success count equals the number of PDFs whose extraction succeeds. |
| Batch.FreshRunMatchesTally | src/document_processor.py:218-222 | Processing a book list with marking yields the same chunks as processing it without marking. |
| Batch.FreshTrackerProcessesAll | src/document_processor.py:187-302 | On an empty tracker, `process_new_books` skips nothing and yields the same chunks as `process_books_directory`. |
| Helpers.CleanText | utils/helpers.py:10-32 | The result has no newline, no leading or trailing whitespace, no two adjacent whitespace characters, and only plain spaces. It is empty exactly when the input is blank. How words are separated is fixed by CleanTextJoin. |
| Helpers.CleanTextJoin | utils/helpers.py:20-30 | For two non-blank texts and any non-empty whitespace gap between them, cleaning the whole gives the cleaned first text, one space, and the cleaned second text: every whitespace run between words becomes exactly one space. |
| Helpers.CleanTextSeparatesWords | utils/helpers.py:20-21 | A single whitespace character between two non-blank texts becomes one plain space, so words are never run together. |
| Helpers.CollapseAppend | utils/helpers.py:21 | Collapsing whitespace works piece by piece across any boundary that is not inside a whitespace run. |
| Helpers.CollapseBlankPrefix | utils/helpers.py:21 | A non-empty whitespace run in front of a word becomes exactly one space. |
| Helpers.CleanTextIdempotent | utils/helpers.py:10-32 | Cleaning twice equals cleaning once. |
| Helpers.CleanTextKeepsContent | utils/helpers.py:20-30 | Cleaning keeps every non-whitespace character, in order. |
| Helpers.CleanTextIsStripOfCollapse | utils/helpers.py:23-27 | The page-number pass and the newline pass never change the collapsed text, so cleaning is `strip` after collapsing. |
| Helpers.FormatCitation | utils/helpers.py:35-48 | The result starts with the bold book name. It has the `" (Page p)"` suffix exactly when the page is truthy, and no suffix otherwise. |
| Helpers.FalsyPagesAgree | utils/helpers.py:46-48 | None, `0` and `""` all give just the bold book name. |
| Helpers.CitationLine | utils/helpers.py:65-68 | Line `i` begins with `"i+1. "`. |
| Helpers.FormatCitationsList | utils/helpers.py:51-70 | The result is empty exactly when there are no sources, and never ends in a newline. |
| Helpers.MissingBookUnknown | utils/helpers.py:66-68 | A source without a book name is listed as the book "Unknown", after its number and ". ". |
| Helpers.CitationsListOne | utils/helpers.py:64-70 | A single source gives the one line "1. " followed by its formatted citation. |
| Helpers.CitationsListSnoc | utils/helpers.py:64-70 | Appending a source appends a newline and its line, numbered one past the earlier sources, and leaves the earlier text unchanged. |
| Helpers.CitationsListLines | utils/helpers.py:61-70 | For citations without newlines, splitting the list at newlines gives back exactly the numbered lines. |
| Helpers.ValidatePdf | utils/helpers.py:73-83 | True exactly when the path ends in `.pdf` in any letter case. |
| Helpers.TimestampLayout | utils/helpers.py:86-93 | `%Y-%m-%d %H:%M:%S` of a valid date and time is 19 characters: digits, with `-`, `-`, ` `, `:`, `:` at positions 4, 7, 10, 13, 16. |
| Helpers.TruncateText | utils/helpers.py:96-109 | Text that fits is returned unchanged. For `max_length >= 3`, longer text becomes its first `max_length - 3` characters plus `"..."`, exactly `max_length` long. |
| Helpers.TruncateIdempotent | utils/helpers.py:96-109 | For `max_length >= 3`, truncating twice equals truncating once. |
| Helpers.TruncateBelowThree | utils/helpers.py:109 | For `max_length < 3` the negative slice bound keeps `len + max_length - 3` characters, so the result is longer than `max_length`. |
| Helpers.ExtractBookName | utils/helpers.py:112-123 | The book name contains no `/`. |
| Helpers.BookNameOfPdfPath | utils/helpers.py:112-123 | The book name of `dir/n.pdf` is `n`. |
| Helpers.FileNameOfPath | src/book_manager.py:88 | The name of `dir/name` is `name`. |
| Helpers.StemOfPdfName | utils/helpers.py:123 | The stem of `n.pdf` is `n`. |
| Tracker.Empty | src/book_manager.py:33-46 | A missing tracker file starts an empty tracker. |
| Tracker.Mark | src/book_manager.py:104-123 | After a mark, the file's name maps to a fresh record with its hash and chunk count. Every other entry is unchanged. A known name keeps its place in the key order and a new name goes last. |
| Tracker.MarkThenProcessed | src/book_manager.py:88-118 | A file just marked is processed. |
| Tracker.MarkSharesName | src/book_manager.py:88-115 | Tracking is keyed by bare file name. After marking `f`, a file with the same name is processed exactly when its digest equals `f`'s. For any other file, `is_processed` is unchanged. |
| Tracker.MarkOverwrites | src/book_manager.py:112-121 | A later mark of the same name replaces the earlier one entirely. |
| Tracker.ProcessedBooks | src/book_manager.py:155-162 | Lists each tracked name exactly once. |
| Tracker.BookInfo | src/book_manager.py:164-174 | Returns the record when the name is tracked, and nothing (the empty dict) otherwise. BookInfoAfterMark, BookInfoAfterRemove, BookInfoAfterClear and BookInfoAgrees relate it to the other operations. |
| Tracker.BookInfoAfterMark | src/book_manager.py:104-123 | After a mark, the marked name reads back exactly the new record, and every other name reads back what it did before. |
| Tracker.BookInfoAfterRemove | src/book_manager.py:176-185 | After a removal, the removed name reads back nothing, and every other name reads back what it did before. |
| Tracker.BookInfoAfterClear | src/book_manager.py:187-192 | After clearing, no name has a record. |
| Tracker.BookInfoAgrees | src/book_manager.py:78-102 | A name has a record exactly when the processed-books list holds it. A file is processed exactly when its name has a record whose stored hash equals the file's digest. |
| Tracker.RemoveBook | src/book_manager.py:176-185 | The name is gone and every other entry is unchanged. An absent name is a no-op. A present name is cut out of the key order. |
| Tracker.ClearAll | src/book_manager.py:187-192 | The tracker is empty. |
| Tracker.GetStats | src/book_manager.py:194-210 | The number of books is the number of entries, the names are the keys in insertion order, and the total is the sum of the stored chunk counts over the keys. |
| Tracker.StatsOrderFree | src/book_manager.py:201-207 | Two trackers with the same entries report the same totals, whatever their key order. |
| Tracker.SumOrderFree | src/book_manager.py:201-204 | The chunk sum does not depend on the order in which the keys are listed. |
| Tracker.MissingCountIsZero | src/book_manager.py:202 | A record without `chunk_count` contributes 0 to the total. |
| Tracker.StatsAfterMark | src/book_manager.py:115-121 | Marking a new name adds one book and its chunks. Re-marking a name replaces its old count in the total. |
| Tracker.StatsAfterRemove | src/book_manager.py:183-185 | Removing a tracked name subtracts one book and its count. Removing an absent name changes nothing. |
| Tracker.StatsAfterClear | src/book_manager.py:190 | After `clear_all` the stats report 0 books, 0 chunks and no names. |
| Tracker.PdfFiles | src/book_manager.py:144 | The listed PDFs are exactly the files named `*.pdf`. |
| Tracker.PdfFilesAppend | src/book_manager.py:144 | The PDF filter keeps listing order: a split listing gives the concatenated filters. |
| Tracker.PdfFilesOne | src/book_manager.py:144 | A single file is kept exactly when its name ends in `.pdf`. |
| Tracker.UnprocessedAppend | src/book_manager.py:147-150 | The unprocessed filter keeps listing order and multiplicity. |
| Tracker.UnprocessedOne | src/book_manager.py:147-150 | A single file is kept exactly when it is not processed. |
| Tracker.GetNewBooks | src/book_manager.py:126-153 | A missing directory gives `[]`. Otherwise the result holds exactly the PDFs that are not processed. |
| Tracker.NewBooksAppend | src/book_manager.py:144-150 | New books keep listing order: a split listing gives the concatenation of its parts' new books. |
| Tracker.NewBooksOne | src/book_manager.py:144-150 | A single file is new exactly when it is a PDF that is not processed. |
| Export.CleanDeletesMarkup | src/export_handler.py:35-54 | The cleaned text is the input with some `*` and backtick characters deleted and nothing else changed, so it is never longer. |
| Export.CleanNoop | src/export_handler.py:46-52 | Text without `*` and backtick is unchanged. |
| Export.CleanLines | src/export_handler.py:46-52 | No pair is removed across a newline: cleaning a text equals cleaning its first line and the rest separately. |
| Export.UnwrapLines | src/export_handler.py:46-52 | Each delimiter pass treats the first line and the rest independently. |
| Export.BoldBeforeItalic | src/export_handler.py:46-49 | `**x**` becomes `x`, not `*x*`. |
| Export.PairAcrossLinesKept | src/export_handler.py:49 | `*x` newline `y*` is left intact, because the delimiters are on different lines. |
| Export.OpeningStarKept | src/export_handler.py:49 | A lone opening `*` is kept. |
| Export.ClosingStarKept | src/export_handler.py:49 | A lone closing `*` is kept. |
| Export.Kept | src/export_handler.py:132-134 | The kept pieces are stripped and non-empty, and there are no more of them than there were pieces. |
| Export.KeptAppend | src/export_handler.py:132-134 | Pieces are filtered one by one, in order. |
| Export.KeptOne | src/export_handler.py:133-134 | A blank piece is dropped and any other piece is kept stripped. |
| Export.ParagraphsOfJoin | src/export_handler.py:129-135 | Plain paragraphs joined with blank lines split back into the same paragraphs. |
| Export.EntriesOfJoin | src/export_handler.py:141-146 | Plain entries joined with newlines split back into the same entries. |
| Export.PdfStoryTexts | src/export_handler.py:112-146 | The PDF's normal paragraphs are the cleaned question, the answer paragraphs, and, only when the citations are non-empty, the entries. The headings are Question, Answer, and References exactly when cited. |
| Export.DocxBodyTexts | src/export_handler.py:190-227 | The DOCX's normal paragraphs are the spacer, the cleaned question and the answer paragraphs. The bullets are the entries exactly when cited. The headings are Question, Answer, and References exactly when cited. |
| Export.ResponseFormatsAgree | src/export_handler.py:128-227 | PDF and DOCX carry the same question, paragraphs and entries in the same order. |
| Export.OutputName | src/export_handler.py:81-85 | A given non-empty name is used as is. A missing or empty one becomes exactly the prefix, then the file stamp, then the extension (DefaultNameLayout, DefaultExportNames). |
| Export.DefaultNameLayout | src/export_handler.py:81-85 | A default name is the prefix, the 19-character stamp and the extension. With a prefix and extension free of colons and spaces, so is the name. |
| Export.DefaultNamesDistinguish | src/export_handler.py:81-85 | Two default names with the same prefix and extension are equal only when their timestamps are equal. |
| Export.DefaultExportNames | src/export_handler.py:81-85 | The four default names (`response_` .pdf/.docx, `chat_history_` .pdf/.docx) are exactly prefix + stamp + extension, have 32, 33, 36 and 37 characters, and contain no colon or space. |
| Export.FileStampLayout | src/export_handler.py:82 | The default-name stamp has 19 characters, with `-`, `-`, `_`, `-`, `-` at the separator positions and digits elsewhere. It contains no `:` or space. |
| Export.FileStampRestores | src/export_handler.py:82 | The file stamp determines the timestamp it came from. |
| Export.FileStampDistinguishes | src/export_handler.py:82 | Equal file stamps mean equal timestamps, so distinct seconds give distinct default names. |
| Export.ExportToPdf | src/export_handler.py:57-152 | The result is a PDF. A given name is kept, and otherwise the name is exactly `"response_" + FileStamp(now) + ".pdf"`: 32 characters with no colon or space (DefaultExportNames). |
| Export.ExportToDocx | src/export_handler.py:159-233 | The result is a DOCX. A given name is kept, and otherwise the name is exactly `"response_" + FileStamp(now) + ".docx"`: 33 characters with no colon or space (DefaultExportNames). |
| Export.ExportChatHistory | src/export_handler.py:239-308 | The result is a PDF exactly when the format is `'pdf'`. A given name is kept, and otherwise the name is exactly `"chat_history_" + FileStamp(now)` plus `.pdf` or `.docx` to match: 36 or 37 characters with no colon or space (DefaultExportNames). |
| Export.HistoryFormatIsExact | src/export_handler.py:258-261 | Format `'PDF'` gives a DOCX: the comparison is case-sensitive. |
| Export.HistoryPdfTexts | src/export_handler.py:284-298 | After the Generated line, the PDF history holds `Q1`, `A1`, `Q2`, ... over the items in input order. The italic blocks are exactly the truthy citations, in order. |
| Export.HistoryDocxNumbering | src/export_handler.py:318-323 | The DOCX headings are `Question 1`, `Answer 1`, `Question 2`, ... in input order. |
| Export.HistoryDocxQuotes | src/export_handler.py:325-326 | The quote blocks are exactly the truthy citations, in order. |
| Export.TwoWordLabel | src/export_handler.py:117 | `mode.replace('_', ' ').title()` on two lower-case words gives both capitalised with a space. |
| Export.ModeLabels | src/export_handler.py:117 | `book_based` is shown as `Book Based` and `general_knowledge` as `General Knowledge`. |
| Export.TitleCaseIdempotent | src/export_handler.py:117 | Title-casing twice equals title-casing once. |

## Left out

- PDF text extraction (PyMuPDF) is the `extract` parameter. The PDF's `title`, `author` and `total_pages` metadata are not modelled; chunks use only the book name and the path.
- Logging and the `log_execution_time` timing wrapper are not modelled.
- Configuration comes in as constants: chunk size 1000 and overlap 200 tokens. The default books directory is not modelled; a directory is a listing or None.
- The MD5 digest is uninterpreted; a file carries it as a string. Exceptions from MD5 hashing, from `stat`, and from the JSON load and save of the tracker are not modelled. The tracker is in memory, a missing file starts it empty, and a failed save is invisible, as in the code.
- A mark inside `process_new_books` always succeeds in the model. In the code, a hashing error after `process_book` would leave those chunks collected but the book unmarked.
- `int()` and `\d` handle ASCII digits only. Non-ASCII decimal digits, which Python accepts, are not modelled.
- Paths are POSIX only, in `FileName` and `Stem`: `/` is the only separator and there are no drive letters.
- `str.lower()`, `str.upper()` and `str.title()` are modelled for ASCII letters only.
- The clock is a parameter. One `now` reading stands for both `get_timestamp()` calls of each export. The pairs are src/export_handler.py:82 and :117, 184 and 200, 266 and 285, and 307 and 315. The code reads the clock twice, and the two readings can differ across a second boundary.
- All marks in one `process_new_books` batch share one `now` string for `processed_date`. The code reads the clock once per book.
- Chunker.ChunkText requires `Terminates(chunk_size, chunk_overlap)`, that is `0 < cs`, `co != cs` and `co < 2*cs`. That is exactly when the inner loop always ends. For `cs < co < 2*cs` the stride is negative, and `buffer[negative:]` keeps only the last characters, so the loop still finishes. The condition is therefore wider than the simpler `chunk_size > chunk_overlap`. Outside it, the source loops forever once the buffer holds `4*cs` characters; for `cs <= 0` that happens as soon as any page section parses. Before that point the source still returns normally. With `cs == co == 100`, a text shorter than 400 characters gives one trailing chunk, and with `cs <= 0` a text with no parsable section gives `[]`. The precondition excludes those short inputs too: for such parameters the model does not describe chunking at all.
- Chunker.ChunkTextWindows requires `0 <= chunkOverlap < chunkSize`. It says nothing about a negative overlap, or about `cs < co < 2*cs`, where windows jump back to the buffer's tail. ChunkText's own contract covers those parameters.
- The timestamp pads the year to four digits, as `datetime.now()` years need. Years below 1000, which some C libraries render unpadded, are not modelled.
- `format_response_metadata` (utils/helpers.py:126-142) only builds a dict from its arguments; it is not modelled.
- The documents are block sequences. Each paragraph keeps its style name (Title, Heading n, Normal, Italic, List Bullet, Intense Quote) and each PDF spacer its height in hundredths of an inch (20, 30, 10, 5). The custom PDF styles' font sizes (18, 14), colours (#003366, #0066CC), space-after values and centred alignment are not modelled. Neither is the DOCX title's centring, nor the rendering by reportlab and python-docx. The export directory is not modelled and its path is not joined to the file name. Exceptions during building or saving are not modelled.
- The `<b>`/`<i>` markup in the PDF history is kept as literal text, because reportlab interprets it only at rendering.
- A history item without `query` or `answer` raises `KeyError` in the code. The model's items always have both.

## Findings

| source | as written | input that shows it | evidently intended | confidence | as-written member | corrected member |
|---|---|---|---|---|---|---|
| src/document_processor.py:29 | `self.chunk_overlap = chunk_overlap or settings.CHUNK_OVERLAP` treats an explicit overlap of 0 as missing | `DocumentProcessor(chunk_size=100, chunk_overlap=0)` gets overlap 200, so `chunk_text` loops forever on any text whose pages fill the buffer to 400 characters (each drop of `buffer[-400:]` keeps the buffer at 400 characters) | an explicit 0 overlap is kept: `chunk_overlap if chunk_overlap is not None else settings.CHUNK_OVERLAP` | not executed; latent, since app.py constructs the processor with its defaults | Chunker.NewProcessorAsWritten, exhibited by Chunker.ZeroOverlapAsWritten | Chunker.NewProcessor, with Chunker.ExplicitOverlapKept |

=== FILE: batch.dfy ===
/**
 Batch processing: turning every PDF of a directory into chunks
 (`process_books_directory`), or only the new and changed ones while keeping
 the tracker up to date (`process_new_books`).

 Reading a PDF is a parameter `extract`: the text of each page, or None when
 opening or reading the file raises, which the batch loops catch and count as
 a failure. A directory is its listing, or None when it does not exist.
 */
module Batch {
  import opened Text
  import opened Helpers
  import opened Chunker
  import opened Tracker

  /** A chunk carries the book name and the path of the file it came from. */
  predicate Produced(c: Chunk, f: DiskFile) {
    c.bookName == ExtractBookName(f.path) && c.source == f.path
  }

  /** `process_book`: load the PDF and chunk its text; None when loading fails. */
  function ProcessBook(p: Processor, f: DiskFile, extract: DiskFile -> Option<seq<string>>): (r: Option<seq<Chunk>>)
    requires Terminates(p.chunkSize, p.chunkOverlap)
    ensures r.None? <==> extract(f).None?
    ensures r.Some? ==> forall i :: 0 <= i < |r.value| ==> r.value[i].chunkId == i && Produced(r.value[i], f)
  {
    match extract(f)
    case None => None
    case Some(pages) =>
      Some(ChunkText(LoadPdfText(pages), Metadata(ExtractBookName(f.path), f.path), p.chunkSize, p.chunkOverlap))
  }

  /** Two listed files with the same name are the same file, as in one directory. */
  predicate NamesIdentify(files: seq<DiskFile>) {
    forall f, g :: f in files && g in files && Name(f) == Name(g) ==> f == g
  }

  /** The names of the files, in order. */
  function Names(files: seq<DiskFile>): seq<string> {
    seq(|files|, i requires 0 <= i < |files| => Name(files[i]))
  }

  /** The files of the list that are processed, in order. */
  function ProcessedOnes(t: Tracker, files: seq<DiskFile>): (r: seq<DiskFile>)
    ensures forall f :: f in r <==> f in files && IsProcessed(t, f)
  {
    if |files| == 0 then []
    else (if IsProcessed(t, files[0]) then [files[0]] else []) + ProcessedOnes(t, files[1..])
  }

  /** The filter of processed files works file by file. */
  lemma {:induction false} ProcessedOnesAppend(t: Tracker, a: seq<DiskFile>, b: seq<DiskFile>)
    ensures ProcessedOnes(t, a + b) == ProcessedOnes(t, a) + ProcessedOnes(t, b)
    decreases |a|
  {
    if |a| > 0 {
      assert (a + b)[0] == a[0];
      assert (a + b)[1..] == a[1..] + b;
      ProcessedOnesAppend(t, a[1..], b);
    } else {
      assert a + b == b;
    }
  }

  /** A single file is kept exactly when it is processed. */
  lemma {:induction false} ProcessedOnesOne(t: Tracker, f: DiskFile)
    ensures ProcessedOnes(t, [f]) == if IsProcessed(t, f) then [f] else []
  {
    assert [f][1..] == [];
  }

  /** Every file goes to exactly one side of the split into new and skipped. */
  lemma {:induction false} PartitionExact(t: Tracker, files: seq<DiskFile>)
    ensures |Unprocessed(t, files)| + |ProcessedOnes(t, files)| == |files|
    decreases |files|
  {
    if |files| > 0 {
      PartitionExact(t, files[1..]);
    }
  }

  // ---------------------------------------------------------------------------
  // The processing loop of process_new_books
  // ---------------------------------------------------------------------------

  datatype Run = Run(tracker: Tracker, chunks: seq<Chunk>)

  /** Process the books in order: a book that loads adds its chunks and is then
      marked with its chunk count; a book that fails is passed over. */
  function RunBooks(p: Processor, t: Tracker, books: seq<DiskFile>, extract: DiskFile -> Option<seq<string>>,
                    now: string): (r: Run)
    requires Valid(t) && Terminates(p.chunkSize, p.chunkOverlap)
    ensures Valid(r.tracker)
    ensures (forall f :: f in books ==> extract(f).None?) ==> r == Run(t, [])
    decreases |books|
  {
    if |books| == 0 then Run(t, [])
    else match ProcessBook(p, books[0], extract)
      case None => RunBooks(p, t, books[1..], extract, now)
      case Some(cs) =>
        var rest := RunBooks(p, Mark(t, books[0], |cs|, now), books[1..], extract, now);
        Run(rest.tracker, cs + rest.chunks)
  }

  /** A name no book of the run carries keeps its entry. */
  lemma {:induction false} RunFrame(p: Processor, t: Tracker, books: seq<DiskFile>,
                                    extract: DiskFile -> Option<seq<string>>, now: string, name: string)
    requires Valid(t) && Terminates(p.chunkSize, p.chunkOverlap)
    requires forall f :: f in books ==> Name(f) != name
    ensures var e := RunBooks(p, t, books, extract, now).tracker.entries;
      (name in e <==> name in t.entries) && (name in t.entries ==> e[name] == t.entries[name])
    decreases |books|
  {
    if |books| > 0 {
      match ProcessBook(p, books[0], extract)
      case None => RunFrame(p, t, books[1..], extract, now, name);
      case Some(cs) => RunFrame(p, Mark(t, books[0], |cs|, now), books[1..], extract, now, name);
    }
  }

  /** Every chunk of the run comes from a book of the run that loaded. */
  lemma {:induction false} RunChunksFromLoadedBooks(p: Processor, t: Tracker, books: seq<DiskFile>,
                                                    extract: DiskFile -> Option<seq<string>>, now: string)
    requires Valid(t) && Terminates(p.chunkSize, p.chunkOverlap)
    ensures forall c :: c in RunBooks(p, t, books, extract, now).chunks ==>
              exists f :: f in books && extract(f).Some? && Produced(c, f)
    decreases |books|
  {
    if |books| > 0 {
      var f0 := books[0];
      match ProcessBook(p, f0, extract)
      case None =>
        RunChunksFromLoadedBooks(p, t, books[1..], extract, now);
        assert RunBooks(p, t, books, extract, now) == RunBooks(p, t, books[1..], extract, now);
        SourcesWiden(RunBooks(p, t, books, extract, now).chunks, books, extract);
      case Some(cs) =>
        var t1 := Mark(t, f0, |cs|, now);
        RunChunksFromLoadedBooks(p, t1, books[1..], extract, now);
        var rest := RunBooks(p, t1, books[1..], extract, now);
        assert RunBooks(p, t, books, extract, now).chunks == cs + rest.chunks;
        SourcesPrepend(cs, rest.chunks, books, extract);
    }
  }

  /** Chunks that come from the later books come from the books. */
  lemma {:induction false} SourcesWiden(chunks: seq<Chunk>, books: seq<DiskFile>,
                                        extract: DiskFile -> Option<seq<string>>)
    requires |books| > 0
    requires forall c :: c in chunks ==> exists f :: f in books[1..] && extract(f).Some? && Produced(c, f)
    ensures forall c :: c in chunks ==> exists f :: f in books && extract(f).Some? && Produced(c, f)
  {
    forall c | c in chunks ensures exists f :: f in books && extract(f).Some? && Produced(c, f) {
      var f :| f in books[1..] && extract(f).Some? && Produced(c, f);
      assert f in books;
    }
  }

  /** The first book's chunks followed by chunks from the later books. */
  lemma {:induction false} SourcesPrepend(cs: seq<Chunk>, rest: seq<Chunk>, books: seq<DiskFile>,
                                          extract: DiskFile -> Option<seq<string>>)
    requires |books| > 0 && extract(books[0]).Some?
    requires forall i :: 0 <= i < |cs| ==> Produced(cs[i], books[0])
    requires forall c :: c in rest ==> exists f :: f in books[1..] && extract(f).Some? && Produced(c, f)
    ensures forall c :: c in cs + rest ==> exists f :: f in books && extract(f).Some? && Produced(c, f)
  {
    SourcesWiden(rest, books, extract);
    forall c | c in cs + rest ensures exists f :: f in books && extract(f).Some? && Produced(c, f) {
      if c in cs {
        var i :| 0 <= i < |cs| && cs[i] == c;
        assert Produced(cs[i], books[0]);
      }
    }
  }

  /** With names identifying files, a book of the run that loads ends up marked
      with its own record, and one that fails keeps whatever entry it had. */
  lemma {:induction false} RunMarks(p: Processor, t: Tracker, books: seq<DiskFile>,
                                    extract: DiskFile -> Option<seq<string>>, now: string, f: DiskFile)
    requires Valid(t) && Terminates(p.chunkSize, p.chunkOverlap)
    requires NamesIdentify(books) && f in books
    ensures var e := RunBooks(p, t, books, extract, now).tracker.entries;
      && (extract(f).Some? ==>
            Name(f) in e && e[Name(f)] == NewRecord(f, |ProcessBook(p, f, extract).value|, now))
      && (extract(f).None? ==>
            (Name(f) in e <==> Name(f) in t.entries) && (Name(f) in t.entries ==> e[Name(f)] == t.entries[Name(f)]))
    decreases |books|
  {
    var rest := books[1..];
    assert NamesIdentify(rest);
    var t1 := match ProcessBook(p, books[0], extract)
      case None => t
      case Some(cs) => Mark(t, books[0], |cs|, now);
    assert RunBooks(p, t, books, extract, now).tracker == RunBooks(p, t1, rest, extract, now).tracker;
    if books[0] == f {
      if f in rest {
        RunMarks(p, t1, rest, extract, now, f);
      } else {
        RunFrame(p, t1, rest, extract, now, Name(f));
      }
    } else {
      assert Name(books[0]) != Name(f);
      RunMarks(p, t1, rest, extract, now, f);
    }
  }

  // ---------------------------------------------------------------------------
  // process_new_books
  // ---------------------------------------------------------------------------

  datatype BookNames = BookNames(newBookNames: seq<string>, skippedBookNames: seq<string>)

  /** The result dict; a missing directory reports no name lists at all. */
  datatype Report = Report(newBooksProcessed: nat, skippedBooks: nat, totalNewChunks: nat,
                           chunks: seq<Chunk>, names: Option<BookNames>)

  datatype Outcome = Outcome(report: Report, tracker: Tracker)

  /** `process_new_books`: split the directory's PDFs into new and already
      processed ones, process the new ones, and report. Every new book is
      counted as processed, whether or not it loaded. */
  function ProcessNewBooks(p: Processor, t: Tracker, dir: Option<seq<DiskFile>>,
                           extract: DiskFile -> Option<seq<string>>, now: string): (o: Outcome)
    requires Valid(t) && Terminates(p.chunkSize, p.chunkOverlap)
    ensures Valid(o.tracker)
    ensures dir.None? ==> o == Outcome(Report(0, 0, 0, [], None), t)
    ensures dir.Some? ==>
      && o.report.names.Some?
      && o.report.newBooksProcessed == |GetNewBooks(t, dir)|
      && o.report.newBooksProcessed + o.report.skippedBooks == |PdfFiles(dir.value)|
      && o.report.names.value.newBookNames == Names(GetNewBooks(t, dir))
      && o.report.names.value.skippedBookNames == Names(ProcessedOnes(t, PdfFiles(dir.value)))
      && |o.report.names.value.skippedBookNames| == o.report.skippedBooks
      && o.report.totalNewChunks == |o.report.chunks|
  {
    match dir
    case None => Outcome(Report(0, 0, 0, [], None), t)
    case Some(files) =>
      var pdfs := PdfFiles(files);
      var newBooks := Unprocessed(t, pdfs);
      var skipped := Names(ProcessedOnes(t, pdfs));
      PartitionExact(t, pdfs);
      var run := RunBooks(p, t, newBooks, extract, now);
      Outcome(Report(|newBooks|, |skipped|, |run.chunks|, run.chunks, Some(BookNames(Names(newBooks), skipped))),
              run.tracker)
  }

  /** When no new book loads, nothing is chunked and the tracker is unchanged,
      yet the new books are still counted as processed. */
  lemma {:induction false} AllFailed(p: Processor, t: Tracker, files: seq<DiskFile>, extract: DiskFile -> Option<seq<string>>, now: string)
    requires Valid(t) && Terminates(p.chunkSize, p.chunkOverlap)
    requires forall f :: f in files ==> extract(f).None?
    ensures var o := ProcessNewBooks(p, t, Some(files), extract, now);
      o.report.chunks == [] && o.tracker == t && o.report.newBooksProcessed == |GetNewBooks(t, Some(files))|
  {
  }

  /** Every reported chunk comes from a new book that loaded. */
  lemma {:induction false} NewChunksFromNewBooks(p: Processor, t: Tracker, dir: Option<seq<DiskFile>>,
                              extract: DiskFile -> Option<seq<string>>, now: string)
    requires Valid(t) && Terminates(p.chunkSize, p.chunkOverlap)
    ensures forall c :: c in ProcessNewBooks(p, t, dir, extract, now).report.chunks ==>
              exists f :: f in GetNewBooks(t, dir) && extract(f).Some? && Produced(c, f)
  {
    if dir.Some? {
      RunChunksFromLoadedBooks(p, t, Unprocessed(t, PdfFiles(dir.value)), extract, now);
    }
  }

  /** Scanning the same directory again after a run finds exactly the new books
      that failed to load: the ones that loaded are now tracked with their
      current digest, and the books skipped before stay skipped. */
  lemma {:induction false} RescanFindsOnlyFailures(p: Processor, t: Tracker, files: seq<DiskFile>,
                                extract: DiskFile -> Option<seq<string>>, now: string)
    requires Valid(t) && Terminates(p.chunkSize, p.chunkOverlap)
    requires NamesIdentify(files)
    ensures var after := ProcessNewBooks(p, t, Some(files), extract, now).tracker;
      forall f :: f in GetNewBooks(after, Some(files)) <==> f in GetNewBooks(t, Some(files)) && extract(f).None?
  {
    var newBooks := Unprocessed(t, PdfFiles(files));
    var after := ProcessNewBooks(p, t, Some(files), extract, now).tracker;
    assert after == RunBooks(p, t, newBooks, extract, now).tracker;
    assert NamesIdentify(newBooks);
    forall f | f in files && IsPdfName(Name(f))
      ensures !IsProcessed(after, f) <==> f in newBooks && extract(f).None?
    {
      if f in newBooks {
        RunMarks(p, t, newBooks, extract, now, f);
      } else {
        forall g | g in newBooks ensures Name(g) != Name(f) {
          assert g in files && g != f;
        }
        RunFrame(p, t, newBooks, extract, now, Name(f));
      }
    }
  }

  // ---------------------------------------------------------------------------
  // process_books_directory
  // ---------------------------------------------------------------------------

  /** `FileNotFoundError`, `ValueError` for an empty listing, or the chunks
      with the counts of books that loaded and that failed. */
  datatype DirectoryOutcome =
    | NotFound
    | NoPdfs
    | Processed(chunks: seq<Chunk>, successful: nat, failed: nat)

  datatype Tally = Tally(chunks: seq<Chunk>, successful: nat, failed: nat)

  /** Process every book, counting successes and failures. */
  function TallyBooks(p: Processor, books: seq<DiskFile>, extract: DiskFile -> Option<seq<string>>): (r: Tally)
    requires Terminates(p.chunkSize, p.chunkOverlap)
    ensures r.successful + r.failed == |books|
    decreases |books|
  {
    if |books| == 0 then Tally([], 0, 0)
    else
      var rest := TallyBooks(p, books[1..], extract);
      match ProcessBook(p, books[0], extract)
      case None => Tally(rest.chunks, rest.successful, rest.failed + 1)
      case Some(cs) => Tally(cs + rest.chunks, rest.successful + 1, rest.failed)
  }

  /** The books that load. */
  function Loading(books: seq<DiskFile>, extract: DiskFile -> Option<seq<string>>): (r: seq<DiskFile>)
    ensures forall f :: f in r <==> f in books && extract(f).Some?
  {
    if |books| == 0 then []
    else (if extract(books[0]).Some? then [books[0]] else []) + Loading(books[1..], extract)
  }

  /** `process_books_directory`. */
  function ProcessBooksDirectory(p: Processor, dir: Option<seq<DiskFile>>,
                                 extract: DiskFile -> Option<seq<string>>): (r: DirectoryOutcome)
    requires Terminates(p.chunkSize, p.chunkOverlap)
    ensures r.NotFound? <==> dir.None?
    ensures r.NoPdfs? <==> dir.Some? && PdfFiles(dir.value) == []
    ensures r.Processed? ==> r.successful + r.failed == |PdfFiles(dir.value)|
  {
    match dir
    case None => NotFound
    case Some(files) =>
      var pdfs := PdfFiles(files);
      if |pdfs| == 0 then NoPdfs
      else
        var tally := TallyBooks(p, pdfs, extract);
        Processed(tally.chunks, tally.successful, tally.failed)
  }

  /** The success count is the number of books that load. */
  lemma {:induction false} TallyCountsLoading(p: Processor, books: seq<DiskFile>, extract: DiskFile -> Option<seq<string>>)
    requires Terminates(p.chunkSize, p.chunkOverlap)
    ensures TallyBooks(p, books, extract).successful == |Loading(books, extract)|
    decreases |books|
  {
    if |books| > 0 {
      TallyCountsLoading(p, books[1..], extract);
    }
  }

  /** With an empty tracker every PDF is new, and the chunks are the ones
      processing the whole directory gives; the run marks exactly the books
      that loaded. */
  lemma {:induction false} FreshRunMatchesTally(p: Processor, t: Tracker, books: seq<DiskFile>,
                                                extract: DiskFile -> Option<seq<string>>, now: string)
    requires Valid(t) && Terminates(p.chunkSize, p.chunkOverlap)
    ensures RunBooks(p, t, books, extract, now).chunks == TallyBooks(p, books, extract).chunks
    decreases |books|
  {
    if |books| > 0 {
      match ProcessBook(p, books[0], extract)
      case None =>
        FreshRunMatchesTally(p, t, books[1..], extract, now);
      case Some(cs) =>
        FreshRunMatchesTally(p, Mark(t, books[0], |cs|, now), books[1..], extract, now);
    }
  }

  /** Nothing is processed in an empty tracker. */
  lemma {:induction false} NothingProcessedWhenEmpty(files: seq<DiskFile>)
    ensures Unprocessed(Empty(), files) == files
    decreases |files|
  {
    if |files| > 0 {
      NothingProcessedWhenEmpty(files[1..]);
      assert !IsProcessed(Empty(), files[0]);
      assert Unprocessed(Empty(), files) == [files[0]] + Unprocessed(Empty(), files[1..]);
      assert files == [files[0]] + files[1..];
    }
  }

  /** On a fresh (empty) tracker, processing only the new books yields the same chunks
      as processing the whole directory. */
  lemma {:induction false} FreshTrackerProcessesAll(p: Processor, files: seq<DiskFile>,
                                 extract: DiskFile -> Option<seq<string>>, now: string)
    requires Terminates(p.chunkSize, p.chunkOverlap)
    requires PdfFiles(files) != []
    ensures var o := ProcessNewBooks(p, Empty(), Some(files), extract, now);
      var d := ProcessBooksDirectory(p, Some(files), extract);
      d.Processed? && o.report.chunks == d.chunks && o.report.skippedBooks == 0
  {
    var pdfs := PdfFiles(files);
    NothingProcessedWhenEmpty(pdfs);
    FreshRunMatchesTally(p, Empty(), pdfs, extract, now);
    PartitionExact(Empty(), pdfs);
  }
}

=== FILE: chunker.dfy ===
/**
 Page-marked text and its division into overlapping fixed-size chunks, as the
 document processor does it.

 `load_pdf` writes every page as `"\n--- Page N ---\n" + page text` and then
 cleans the whole text. `chunk_text` splits the text at `"--- Page "`, reads
 the page number in front of `" ---"`, appends the page bodies to a buffer,
 and whenever the buffer holds at least `4 * chunk_size` characters emits the
 stripped first `4 * chunk_size` characters as a chunk and drops the first
 `4 * (chunk_size - chunk_overlap)` characters. What is left at the end
 becomes one more chunk when it is not blank.
 */
module Chunker {
  import opened Text
  import opened Helpers

  const PageMarker: string := "--- Page "
  const NumberEnd: string := " ---"
  const BodyStart: string := "---\n"

  /** Characters per token in the size approximation. */
  const CharsPerToken: nat := 4

  /** CHUNK_SIZE and CHUNK_OVERLAP of the settings, in tokens. */
  const DefaultChunkSize: int := 1000
  const DefaultChunkOverlap: int := 200

  datatype Metadata = Metadata(bookName: string, filePath: string)

  datatype Chunk = Chunk(text: string, chunkId: nat, bookName: string, page: int, source: string)

  /** A page section whose number parsed: its page number and its body. */
  datatype Section = Section(page: int, body: string)

  // ---------------------------------------------------------------------------
  // The processor's parameters
  // ---------------------------------------------------------------------------

  datatype Processor = Processor(chunkSize: int, chunkOverlap: int)

  /** `arg or default`: a missing argument and a zero both select the default. */
  function OrDefault(arg: Option<int>, default: int): int {
    match arg
    case None => default
    case Some(v) => if v == 0 then default else v
  }

  /** The constructor as written: both parameters use `or`. */
  function NewProcessorAsWritten(chunkSize: Option<int>, chunkOverlap: Option<int>): Processor {
    Processor(OrDefault(chunkSize, DefaultChunkSize), OrDefault(chunkOverlap, DefaultChunkOverlap))
  }

  /** The constructor with the default applied only to a missing overlap, so
      that an explicit overlap of zero is kept. */
  function NewProcessor(chunkSize: Option<int>, chunkOverlap: Option<int>): (p: Processor)
    ensures chunkOverlap.Some? ==> p.chunkOverlap == chunkOverlap.value
    ensures chunkSize.Some? && chunkSize.value != 0 ==> p.chunkSize == chunkSize.value
    ensures chunkSize.None? ==> p.chunkSize == DefaultChunkSize
    ensures chunkOverlap.None? ==> p.chunkOverlap == DefaultChunkOverlap
  {
    Processor(OrDefault(chunkSize, DefaultChunkSize),
              match chunkOverlap case None => DefaultChunkOverlap case Some(v) => v)
  }

  /** The inner loop of `chunk_text` ends for every buffer exactly when the
      window is positive and the step `buffer[stride:]` always shortens a
      buffer that still holds a full window. A negative stride keeps the last
      `-stride` characters, which is shorter than a window when the overlap
      stays below twice the chunk size. */
  predicate Terminates(chunkSize: int, chunkOverlap: int) {
    0 < chunkSize && chunkOverlap != chunkSize && chunkOverlap < 2 * chunkSize
  }

  /** Asking for a zero overlap through the written constructor selects the
      default overlap of 200 tokens, and with a chunk size of 100 tokens the
      chunking loop never finishes once its buffer holds 400 characters. */
  lemma {:induction false} ZeroOverlapAsWritten()
    ensures NewProcessorAsWritten(Some(100), Some(0)) == Processor(100, 200)
    ensures !Terminates(100, 200)
  {
  }

  /** With the corrected constructor any explicit overlap below the chunk size
      is kept as given, and chunking terminates. */
  lemma {:induction false} ExplicitOverlapKept(chunkSize: int, chunkOverlap: int)
    requires 0 <= chunkOverlap < chunkSize
    ensures NewProcessor(Some(chunkSize), Some(chunkOverlap)) == Processor(chunkSize, chunkOverlap)
    ensures Terminates(chunkSize, chunkOverlap)
  {
  }

  /** The step of the inner loop shortens every buffer that holds a full
      window exactly when `Terminates` holds. Otherwise some buffer with a
      full window is a fixed point of the step, and the loop never ends. */
  lemma {:induction false} LoopProgress(chunkSize: int, chunkOverlap: int)
    ensures Terminates(chunkSize, chunkOverlap) <==>
            forall buf: string :: |buf| >= 4 * chunkSize ==>
              |SliceFrom(buf, 4 * chunkSize - 4 * chunkOverlap)| < |buf|
  {
    var w := 4 * chunkSize;
    var stride := 4 * chunkSize - 4 * chunkOverlap;
    if !Terminates(chunkSize, chunkOverlap) {
      var buf: string := seq(if w < 0 then 0 else w, _ => ' ');
      assert SliceFrom(buf, stride) == buf;
    }
  }

  // ---------------------------------------------------------------------------
  // Page markers (load_pdf)
  // ---------------------------------------------------------------------------

  /** The marker `load_pdf` writes in front of page `n` (1-based). */
  function PageHeader(n: nat): string {
    "\n" + PageMarker + NatToString(n) + " ---\n"
  }

  /** The raw concatenation of `load_pdf` for pages `first`, `first + 1`, ... */
  function RawPages(pages: seq<string>, first: nat): string
    decreases |pages|
  {
    if |pages| == 0 then "" else PageHeader(first) + pages[0] + RawPages(pages[1..], first + 1)
  }

  /** The text `load_pdf` returns for the given page texts. */
  function LoadPdfText(pages: seq<string>): string {
    CleanText(RawPages(pages, 1))
  }

  // ---------------------------------------------------------------------------
  // Section parsing (chunk_text, first half)
  // ---------------------------------------------------------------------------

  /** One piece after `'--- Page '`: the page number is what precedes the first
      `' ---'`; the body follows the first `'---\n'`, or is the whole piece
      when there is none. None stands for the `ValueError` that skips it. */
  function ParseSection(part: string): (r: Option<Section>)
    ensures r.Some? ==> ParseInt(Split(part, NumberEnd)[0]) == Some(r.value.page)
    ensures r.Some? && !Contains(part, BodyStart) ==> r.value.body == part
    ensures r.None? <==> ParseInt(Split(part, NumberEnd)[0]).None?
  {
    match ParseInt(Split(part, NumberEnd)[0])
    case None => None
    case Some(n) => Some(Section(n, if Contains(part, BodyStart) then AfterFirst(part, BodyStart) else part))
  }

  /** What one piece contributes: its section, or nothing. */
  function Parsed(part: string): (r: seq<Section>)
    ensures |r| <= 1
  {
    match ParseSection(part) case None => [] case Some(sec) => [sec]
  }

  function ParseSections(parts: seq<string>): (r: seq<Section>)
    ensures |r| <= |parts|
    decreases |parts|
  {
    if |parts| == 0 then [] else Parsed(parts[0]) + ParseSections(parts[1..])
  }

  /** The sections `chunk_text` reads, skipping the text before the first marker. */
  function Sections(text: string): seq<Section> {
    ParseSections(Split(text, PageMarker)[1..])
  }

  lemma {:induction false} ParseSectionsConcat(a: seq<string>, b: seq<string>)
    ensures ParseSections(a + b) == ParseSections(a) + ParseSections(b)
    decreases |a|
  {
    if |a| > 0 {
      assert (a + b)[0] == a[0];
      assert (a + b)[1..] == a[1..] + b;
      ParseSectionsConcat(a[1..], b);
      calc {
        ParseSections(a + b);
        Parsed(a[0]) + ParseSections(a[1..] + b);
        Parsed(a[0]) + (ParseSections(a[1..]) + ParseSections(b));
        (Parsed(a[0]) + ParseSections(a[1..])) + ParseSections(b);
      }
    } else {
      assert a + b == b;
    }
  }

  /** A piece whose page number does not parse is skipped without changing
      what the other pieces contribute. */
  lemma {:induction false} UnparsableSectionSkipped(a: seq<string>, part: string, b: seq<string>)
    requires ParseSection(part).None?
    ensures ParseSections(a + [part] + b) == ParseSections(a + b)
  {
    ParseSectionsConcat(a + [part], b);
    ParseSectionsConcat(a, [part]);
    assert ParseSections([part]) == Parsed(part) + ParseSections([]);
    assert ParseSections(a + [part]) == ParseSections(a);
    ParseSectionsConcat(a, b);
  }

  /** Without a page marker there are no sections. */
  lemma {:induction false} NoMarkerNoSections(text: string)
    requires !Contains(text, PageMarker)
    ensures Sections(text) == []
  {
  }

  /** In a text without newlines, which is what `load_pdf` hands over after
      cleaning, no piece contains `'---\n'`: every body is its whole piece and
      therefore still starts with its own `"N ---"` page header. */
  lemma {:induction false} NoNewlineBodiesKeepHeader(parts: seq<string>)
    requires forall k :: 0 <= k < |parts| ==> '\n' !in parts[k]
    ensures forall sec :: sec in ParseSections(parts) ==>
              ParseInt(Split(sec.body, NumberEnd)[0]) == Some(sec.page)
    decreases |parts|
  {
    if |parts| > 0 {
      NoNewlineBodiesKeepHeader(parts[1..]);
      var p := parts[0];
      assert BodyStart[3] == '\n';
      MissingCharNotContained(p, BodyStart, 3);
    }
  }

  /** The pieces of a newline-free text have no newline either. */
  lemma {:induction false} SplitKeepsNoNewline(text: string, sep: string)
    requires |sep| > 0 && '\n' !in text
    ensures forall k :: 0 <= k < |Split(text, sep)| ==> '\n' !in Split(text, sep)[k]
    decreases |text|
  {
    match IndexOf(text, sep)
    case None =>
    case Some(i) =>
      var rest := text[i + |sep|..];
      SplitKeepsNoNewline(rest, sep);
      assert Split(text, sep) == [text[..i]] + Split(rest, sep);
  }

  /** Every section of the text `load_pdf` produces keeps its page header in
      its body, because cleaning removed every newline and with it every
      `'---\n'`. */
  lemma {:induction false} LoadedSectionsKeepHeader(pages: seq<string>)
    ensures forall sec :: sec in Sections(LoadPdfText(pages)) ==>
              ParseInt(Split(sec.body, NumberEnd)[0]) == Some(sec.page)
  {
    NoNewlineSectionsKeepHeader(LoadPdfText(pages));
  }

  lemma {:induction false} NoNewlineSectionsKeepHeader(text: string)
    requires '\n' !in text
    ensures forall sec :: sec in Sections(text) ==>
              ParseInt(Split(sec.body, NumberEnd)[0]) == Some(sec.page)
  {
    SplitKeepsNoNewline(text, PageMarker);
    var parts := Split(text, PageMarker)[1..];
    assert forall k :: 0 <= k < |parts| ==> parts[k] == Split(text, PageMarker)[k + 1];
    NoNewlineBodiesKeepHeader(parts);
  }

  // ---------------------------------------------------------------------------
  // The chunking loop (chunk_text, second half)
  // ---------------------------------------------------------------------------

  /** The loop state: the buffer, the next chunk id and the chunks emitted. */
  datatype Progress = Progress(buffer: string, nextId: nat, chunks: seq<Chunk>)

  /** Well-formedness of the chunks a loop emitted, starting at id `first`:
      consecutive ids, the book's metadata and full windows as text. */
  predicate Emitted(chunks: seq<Chunk>, first: nat, meta: Metadata, width: nat) {
    forall i :: 0 <= i < |chunks| ==>
      && chunks[i].chunkId == first + i
      && chunks[i].bookName == meta.bookName
      && chunks[i].source == meta.filePath
      && |chunks[i].text| == width
  }

  /** The inner `while` loop: emit windows of `width` characters while the
      buffer holds one, advancing by `buffer[stride:]`. The windows are
      emitted unstripped; `ChunkText` strips each of them, which gives the
      same chunks as stripping at emission. */
  function Drain(buf: string, nextId: nat, page: int, meta: Metadata, width: nat, stride: int): (p: Progress)
    requires width > 0 && stride != 0 && -stride < width
    ensures |p.buffer| < width
    ensures p.nextId == nextId + |p.chunks|
    decreases |buf|
  {
    if |buf| < width then Progress(buf, nextId, [])
    else
      var c := Chunk(buf[..width], nextId, meta.bookName, page, meta.filePath);
      var next := SliceFrom(buf, stride);
      assert |next| < |buf|;
      var rest := Drain(next, nextId + 1, page, meta, width, stride);
      Progress(rest.buffer, rest.nextId, [c] + rest.chunks)
  }

  /** The outer `for` loop over the parsed sections. */
  function Feed(secs: seq<Section>, buf: string, nextId: nat, meta: Metadata, width: nat, stride: int): (p: Progress)
    requires width > 0 && stride != 0 && -stride < width
    requires |buf| < width
    ensures |p.buffer| < width
    ensures p.nextId == nextId + |p.chunks|
    ensures secs == [] ==> p == Progress(buf, nextId, [])
    decreases |secs|
  {
    if |secs| == 0 then Progress(buf, nextId, [])
    else
      var d := Drain(buf + secs[0].body, nextId, secs[0].page, meta, width, stride);
      var rest := Feed(secs[1..], d.buffer, d.nextId, meta, width, stride);
      Progress(rest.buffer, rest.nextId, d.chunks + rest.chunks)
  }

  /** The inner loop emits full windows with consecutive ids, the book's
      metadata and the page of the section being fed. */
  lemma {:induction false} DrainEmitted(buf: string, nextId: nat, page: int, meta: Metadata, width: nat, stride: int)
    requires width > 0 && stride != 0 && -stride < width
    ensures var p := Drain(buf, nextId, page, meta, width, stride);
      && Emitted(p.chunks, nextId, meta, width)
      && forall i :: 0 <= i < |p.chunks| ==> p.chunks[i].page == page
    decreases |buf|
  {
    if |buf| >= width {
      var next := SliceFrom(buf, stride);
      DrainEmitted(next, nextId + 1, page, meta, width, stride);
      var rest := Drain(next, nextId + 1, page, meta, width, stride);
      var p := Drain(buf, nextId, page, meta, width, stride);
      assert p.chunks == [Chunk(buf[..width], nextId, meta.bookName, page, meta.filePath)] + rest.chunks;
      forall i | 0 <= i < |p.chunks|
        ensures p.chunks[i].chunkId == nextId + i && p.chunks[i].page == page
      {
        if i > 0 {
          assert p.chunks[i] == rest.chunks[i - 1];
        }
      }
    }
  }

  /** The outer loop emits full windows with consecutive ids and the book's
      metadata. */
  lemma {:induction false} FeedEmitted(secs: seq<Section>, buf: string, nextId: nat, meta: Metadata, width: nat, stride: int)
    requires width > 0 && stride != 0 && -stride < width
    requires |buf| < width
    ensures Emitted(Feed(secs, buf, nextId, meta, width, stride).chunks, nextId, meta, width)
    decreases |secs|
  {
    if |secs| > 0 {
      var d := Drain(buf + secs[0].body, nextId, secs[0].page, meta, width, stride);
      DrainEmitted(buf + secs[0].body, nextId, secs[0].page, meta, width, stride);
      FeedEmitted(secs[1..], d.buffer, d.nextId, meta, width, stride);
      var rest := Feed(secs[1..], d.buffer, d.nextId, meta, width, stride);
      var p := Feed(secs, buf, nextId, meta, width, stride);
      assert p.chunks == d.chunks + rest.chunks;
      forall i | 0 <= i < |p.chunks|
        ensures p.chunks[i].chunkId == nextId + i
      {
        if i >= |d.chunks| {
          assert p.chunks[i] == rest.chunks[i - |d.chunks|];
        }
      }
    }
  }

  /** `chunk_text(text, metadata)` of a processor with the given parameters. */
  function ChunkText(text: string, meta: Metadata, chunkSize: int, chunkOverlap: int): (r: seq<Chunk>)
    requires Terminates(chunkSize, chunkOverlap)
    ensures forall i :: 0 <= i < |r| ==> r[i].chunkId == i
    ensures forall i :: 0 <= i < |r| ==> r[i].bookName == meta.bookName && r[i].source == meta.filePath
    ensures forall i :: 0 <= i < |r| ==> |r[i].text| <= CharsPerToken * chunkSize
    ensures Sections(text) == [] ==> r == []
  {
    var width := CharsPerToken * chunkSize;
    var stride := CharsPerToken * (chunkSize - chunkOverlap);
    var secs := Sections(text);
    var p := Feed(secs, "", 0, meta, width, stride);
    FeedEmitted(secs, "", 0, meta, width, stride);
    Finish(p, LastPage(secs), meta, width)
  }

  /** The page of the last parsed section, the one the trailing chunk gets.
      Without sections nothing is left over, so the value is never used. */
  function LastPage(secs: seq<Section>): int {
    if |secs| == 0 then 0 else secs[|secs| - 1].page
  }

  /** After the loop: every emitted window stripped, then the stripped rest
      of the buffer as one more chunk when it is not blank. */
  function Finish(p: Progress, lastPage: int, meta: Metadata, width: nat): (r: seq<Chunk>)
    requires |p.buffer| < width
    requires p.nextId == |p.chunks| && Emitted(p.chunks, 0, meta, width)
    ensures forall i :: 0 <= i < |r| ==> r[i].chunkId == i
    ensures forall i :: 0 <= i < |r| ==> r[i].bookName == meta.bookName && r[i].source == meta.filePath
    ensures forall i :: 0 <= i < |r| ==> |r[i].text| <= width
    ensures |r| == if IsBlank(p.buffer) then |p.chunks| else |p.chunks| + 1
  {
    var full := seq(|p.chunks|, i requires 0 <= i < |p.chunks| => Stripped(p.chunks[i]));
    if IsBlank(p.buffer) then full
    else full + [Chunk(Strip(p.buffer), p.nextId, meta.bookName, lastPage, meta.filePath)]
  }

  /** The chunk with its text stripped. */
  function Stripped(c: Chunk): (r: Chunk)
    ensures r.chunkId == c.chunkId && r.bookName == c.bookName && r.page == c.page && r.source == c.source
    ensures |r.text| <= |c.text|
  {
    c.(text := Strip(c.text))
  }

  /** Text without any page marker gives no chunks. */
  lemma {:induction false} NoMarkerNoChunks(text: string, meta: Metadata, chunkSize: int, chunkOverlap: int)
    requires Terminates(chunkSize, chunkOverlap)
    requires !Contains(text, PageMarker)
    ensures ChunkText(text, meta, chunkSize, chunkOverlap) == []
  {
    NoMarkerNoSections(text);
  }

  // ---------------------------------------------------------------------------
  // Reference definition: fixed windows over the concatenated page bodies
  // ---------------------------------------------------------------------------

  /** The page bodies one after the other, as the buffer receives them. */
  function Bodies(secs: seq<Section>): (r: string)
    ensures secs == [] ==> r == ""
    decreases |secs|
  {
    if |secs| == 0 then "" else secs[0].body + Bodies(secs[1..])
  }

  /** Where window `k` starts: `k * stride`, built up one stride at a time. */
  function Start(k: nat, stride: nat): nat {
    if k == 0 then 0 else Start(k - 1, stride) + stride
  }

  lemma {:induction false} StartIsProduct(k: nat, stride: nat)
    ensures Start(k, stride) == k * stride
  {
    if k > 0 {
      StartIsProduct(k - 1, stride);
      assert k * stride == (k - 1) * stride + stride;
    }
  }

  lemma {:induction false} StartMono(a: nat, b: nat, stride: nat)
    requires a <= b
    ensures Start(a, stride) + (b - a) * stride == Start(b, stride)
    ensures a < b ==> Start(a, stride) + stride <= Start(b, stride)
    decreases b
  {
    if a < b {
      StartMono(a, b - 1, stride);
      assert (b - a) * stride == (b - 1 - a) * stride + stride;
    }
  }

  /** `n` is the number of windows of `width` characters, `stride` apart and
      starting at 0, that fit in a text of length `len`. */
  predicate IsWindowCount(len: nat, n: nat, width: nat, stride: nat) {
    (n == 0 || Start(n - 1, stride) + width <= len) && len < Start(n, stride) + width
  }

  lemma {:induction false} WindowCountFits(len: nat, n: nat, width: nat, stride: nat)
    requires stride <= width && IsWindowCount(len, n, width, stride)
    ensures Start(n, stride) <= len
  {
  }

  lemma {:induction false} WindowCountUnique(len: nat, n1: nat, n2: nat, width: nat, stride: nat)
    requires 0 < stride
    requires IsWindowCount(len, n1, width, stride) && IsWindowCount(len, n2, width, stride)
    ensures n1 == n2
  {
    if n1 < n2 {
      StartMono(n1, n2 - 1, stride);
    } else if n2 < n1 {
      StartMono(n2, n1 - 1, stride);
    }
  }

  /** The number of windows from window `k` on. */
  function CountFrom(k: nat, len: nat, width: nat, stride: nat): (n: nat)
    requires 0 < stride <= width
    requires k == 0 || Start(k - 1, stride) + width <= len
    ensures IsWindowCount(len, n, width, stride)
    decreases len - Start(k, stride)
  {
    if Start(k, stride) + width <= len then CountFrom(k + 1, len, width, stride) else k
  }

  /** The number of full windows. */
  function WindowCount(len: nat, width: nat, stride: nat): (n: nat)
    requires 0 < stride <= width
    ensures IsWindowCount(len, n, width, stride)
    ensures Start(n, stride) <= len
  {
    var n := CountFrom(0, len, width, stride);
    WindowCountFits(len, n, width, stride);
    n
  }

  /** The count in closed form: none below one window, else
      `(len - width) / stride + 1`. */
  lemma {:induction false} WindowCountClosedForm(len: nat, width: nat, stride: nat)
    requires 0 < stride <= width
    ensures WindowCount(len, width, stride) == if len < width then 0 else (len - width) / stride + 1
  {
    if len >= width {
      var q := (len - width) / stride;
      StartIsProduct(q, stride);
      StartIsProduct(q + 1, stride);
      assert q * stride + (len - width) % stride == len - width;
      assert (q + 1) * stride == q * stride + stride;
      assert IsWindowCount(len, q + 1, width, stride);
      WindowCountUnique(len, q + 1, WindowCount(len, width, stride), width, stride);
    }
  }

  /** Window `k` of the text. */
  function Window(text: string, k: nat, width: nat, stride: nat): (r: string)
    requires Start(k, stride) + width <= |text|
    ensures |r| == width
  {
    text[Start(k, stride) .. Start(k, stride) + width]
  }

  /** The page of the first section whose body brings the concatenated length
      to `end`: the section whose arrival completes a window ending there. */
  function PageAt(secs: seq<Section>, end: nat): int
    requires 0 < end <= |Bodies(secs)|
    decreases |secs|
  {
    if end <= |secs[0].body| then secs[0].page else PageAt(secs[1..], end - |secs[0].body|)
  }

  /** Consecutive windows share `width - stride` characters, the overlap of
      `4 * chunk_overlap`: the end of window `k` is the start of window `k + 1`. */
  lemma {:induction false} WindowsOverlap(text: string, k: nat, width: nat, stride: nat)
    requires 0 < stride <= width && Start(k + 1, stride) + width <= |text|
    ensures Start(k, stride) + width <= |text|
    ensures Window(text, k, width, stride)[stride..] == Window(text, k + 1, width, stride)[..width - stride]
  {
  }

  lemma {:induction false} WindowOfPrefix(x: string, y: string, k: nat, width: nat, stride: nat)
    requires Start(k, stride) + width <= |x|
    ensures Window(x, k, width, stride) == Window(x + y, k, width, stride)
  {
  }

  /** `chunks` are the windows `m, m + 1, ...` of `x`, all with page `page`. */
  predicate DrainedWindows(x: string, m: nat, chunks: seq<Chunk>, page: int, width: nat, stride: nat) {
    forall k :: m <= k < m + |chunks| ==>
      && Start(k, stride) + width <= |x|
      && chunks[k - m].text == Window(x, k, width, stride)
      && chunks[k - m].page == page
  }

  /** `chunks` are the windows `m, m + 1, ...` of `x`, each with the page of
      the section in `secs` whose body completed it, the bodies of `secs`
      being the text of `x` after its first `fed` characters. */
  predicate FedWindows(x: string, fed: nat, secs: seq<Section>, m: nat, chunks: seq<Chunk>, width: nat, stride: nat)
    requires fed + |Bodies(secs)| == |x|
  {
    forall k :: m <= k < m + |chunks| ==>
      && fed < Start(k, stride) + width <= |x|
      && chunks[k - m].text == Window(x, k, width, stride)
      && chunks[k - m].page == PageAt(secs, Start(k, stride) + width - fed)
  }

  /** The inner loop, started at window `m` of `x` with everything before it
      dropped, emits exactly the windows `m, m + 1, ...` that fit in `x` and
      leaves the text after the last of them. */
  lemma {:induction false} DrainWindows(x: string, m: nat, page: int, meta: Metadata, width: nat, stride: nat)
    requires 0 < stride <= width
    requires m == 0 || Start(m - 1, stride) + width <= |x|
    requires Start(m, stride) <= |x|
    ensures var p := Drain(x[Start(m, stride)..], m, page, meta, width, stride);
      && IsWindowCount(|x|, p.nextId, width, stride)
      && Start(p.nextId, stride) <= |x|
      && p.buffer == x[Start(p.nextId, stride)..]
      && DrainedWindows(x, m, p.chunks, page, width, stride)
  {
    DrainedFrom(x, m, page, meta, width, stride, Drain(x[Start(m, stride)..], m, page, meta, width, stride));
  }

  /** `DrainWindows` for the inner loop's result `p`. */
  lemma {:induction false} DrainedFrom(x: string, m: nat, page: int, meta: Metadata, width: nat, stride: nat, p: Progress)
    requires 0 < stride <= width
    requires m == 0 || Start(m - 1, stride) + width <= |x|
    requires Start(m, stride) <= |x|
    requires p == Drain(x[Start(m, stride)..], m, page, meta, width, stride)
    ensures && IsWindowCount(|x|, p.nextId, width, stride)
            && Start(p.nextId, stride) <= |x|
            && p.buffer == x[Start(p.nextId, stride)..]
            && DrainedWindows(x, m, p.chunks, page, width, stride)
    decreases |x| - Start(m, stride)
  {
    if Start(m, stride) + width <= |x| {
      var rest := Drain(x[Start(m + 1, stride)..], m + 1, page, meta, width, stride);
      var c := Chunk(Window(x, m, width, stride), m, meta.bookName, page, meta.filePath);
      DrainStep(x, m, page, meta, width, stride);
      DrainedFrom(x, m + 1, page, meta, width, stride, rest);
      DrainedCons(x, m, c, rest.chunks, page, width, stride);
    }
  }

  /** One turn of the inner loop emits window `m` and goes on at window `m + 1`. */
  lemma {:induction false} DrainStep(x: string, m: nat, page: int, meta: Metadata, width: nat, stride: nat)
    requires 0 < stride <= width
    requires Start(m, stride) + width <= |x|
    ensures Start(m + 1, stride) <= |x|
    ensures var rest := Drain(x[Start(m + 1, stride)..], m + 1, page, meta, width, stride);
      Drain(x[Start(m, stride)..], m, page, meta, width, stride)
        == Progress(rest.buffer, rest.nextId,
                    [Chunk(Window(x, m, width, stride), m, meta.bookName, page, meta.filePath)] + rest.chunks)
  {
    var buf := x[Start(m, stride)..];
    assert Start(m + 1, stride) == Start(m, stride) + stride;
    assert SliceFrom(buf, stride) == x[Start(m + 1, stride)..];
    assert buf[..width] == Window(x, m, width, stride);
  }

  lemma {:induction false} DrainedCons(x: string, m: nat, c: Chunk, rest: seq<Chunk>, page: int, width: nat, stride: nat)
    requires Start(m, stride) + width <= |x|
    requires c.text == Window(x, m, width, stride) && c.page == page
    requires DrainedWindows(x, m + 1, rest, page, width, stride)
    ensures DrainedWindows(x, m, [c] + rest, page, width, stride)
  {
    forall k | m < k < m + 1 + |rest|
      ensures && Start(k, stride) + width <= |x|
              && ([c] + rest)[k - m].text == Window(x, k, width, stride)
              && ([c] + rest)[k - m].page == page
    {
      assert ([c] + rest)[k - m] == rest[k - (m + 1)];
    }
  }

  lemma {:induction false} PageAtFirst(secs: seq<Section>, end: nat)
    requires |secs| > 0 && 0 < end <= |secs[0].body|
    ensures 0 < end <= |Bodies(secs)| && PageAt(secs, end) == secs[0].page
  {
  }

  lemma {:induction false} PageAtLater(secs: seq<Section>, end: nat)
    requires |secs| > 0 && |secs[0].body| < end <= |Bodies(secs)|
    ensures 0 < end - |secs[0].body| <= |Bodies(secs[1..])|
    ensures PageAt(secs, end) == PageAt(secs[1..], end - |secs[0].body|)
  {
  }

  lemma {:induction false} BodiesLength(done: string, secs: seq<Section>)
    ensures |done| + |Bodies(secs)| == |done + Bodies(secs)|
  {
  }

  /** The outer loop, given the text `done` already fed and its window count
      `m`, emits exactly the windows that the remaining sections complete,
      each with the page of the section that completed it. */
  lemma {:induction false} FeedWindows(secs: seq<Section>, done: string, m: nat, meta: Metadata, width: nat, stride: nat)
    requires 0 < stride <= width
    requires IsWindowCount(|done|, m, width, stride)
    requires Start(m, stride) <= |done|
    ensures var x := done + Bodies(secs);
      var p := Feed(secs, done[Start(m, stride)..], m, meta, width, stride);
      && IsWindowCount(|x|, p.nextId, width, stride)
      && Start(p.nextId, stride) <= |x|
      && p.buffer == x[Start(p.nextId, stride)..]
      && FedWindows(x, |done|, secs, m, p.chunks, width, stride)
    decreases |secs|
  {
    if |secs| > 0 {
      var sec := secs[0];
      var y := done + sec.body;
      var x := done + Bodies(secs);
      BodiesCons(done, secs);
      DropAppend(done, sec.body, Start(m, stride));
      DrainWindows(y, m, sec.page, meta, width, stride);
      var d := Drain(y[Start(m, stride)..], m, sec.page, meta, width, stride);
      FeedWindows(secs[1..], y, d.nextId, meta, width, stride);
      var rest := Feed(secs[1..], d.buffer, d.nextId, meta, width, stride);
      assert Feed(secs, done[Start(m, stride)..], m, meta, width, stride)
          == Progress(rest.buffer, rest.nextId, d.chunks + rest.chunks);
      CombineWindows(secs, done, m, d.chunks, d.nextId, rest, width, stride);
    }
  }

  /** The windows one section completes, followed by those the later sections
      complete, are the windows of the whole text from window `m` on, and the
      later sections' final buffer is the rest of the whole text. */
  lemma {:induction false} CombineWindows(secs: seq<Section>, done: string, m: nat, early: seq<Chunk>, mid: nat,
                       rest: Progress, width: nat, stride: nat)
    requires 0 < stride <= width && |secs| > 0
    requires IsWindowCount(|done|, m, width, stride)
    requires mid == m + |early|
    requires IsWindowCount(|done + secs[0].body|, mid, width, stride)
    requires DrainedWindows(done + secs[0].body, m, early, secs[0].page, width, stride)
    requires var z := done + secs[0].body + Bodies(secs[1..]);
      && IsWindowCount(|z|, rest.nextId, width, stride)
      && Start(rest.nextId, stride) <= |z|
      && rest.buffer == z[Start(rest.nextId, stride)..]
      && FedWindows(z, |done + secs[0].body|, secs[1..], mid, rest.chunks, width, stride)
    ensures var x := done + Bodies(secs);
      && IsWindowCount(|x|, rest.nextId, width, stride)
      && Start(rest.nextId, stride) <= |x|
      && rest.buffer == x[Start(rest.nextId, stride)..]
      && FedWindows(x, |done|, secs, m, early + rest.chunks, width, stride)
  {
    var x := done + Bodies(secs);
    var z := done + secs[0].body + Bodies(secs[1..]);
    BodiesCons(done, secs);
    assert x == z;
    CombineFed(secs, done, m, early, mid, rest.chunks, width, stride);
  }

  lemma {:induction false} CombineFed(secs: seq<Section>, done: string, m: nat, early: seq<Chunk>, mid: nat,
                   later: seq<Chunk>, width: nat, stride: nat)
    requires 0 < stride <= width && |secs| > 0
    requires IsWindowCount(|done|, m, width, stride)
    requires mid == m + |early|
    requires IsWindowCount(|done + secs[0].body|, mid, width, stride)
    requires DrainedWindows(done + secs[0].body, m, early, secs[0].page, width, stride)
    requires FedWindows(done + secs[0].body + Bodies(secs[1..]), |done + secs[0].body|, secs[1..],
                        mid, later, width, stride)
    ensures FedWindows(done + Bodies(secs), |done|, secs, m, early + later, width, stride)
  {
    BodiesCons(done, secs);
    forall k | m <= k < m + |early|
      ensures && |done| < Start(k, stride) + width <= |done + Bodies(secs)|
              && (early + later)[k - m].text == Window(done + Bodies(secs), k, width, stride)
              && (early + later)[k - m].page == PageAt(secs, Start(k, stride) + width - |done|)
    {
      EarlyWindow(secs, done, m, early, later, k, width, stride);
    }
    forall k | mid <= k < mid + |later|
      ensures && |done| < Start(k, stride) + width <= |done + Bodies(secs)|
              && (early + later)[k - m].text == Window(done + Bodies(secs), k, width, stride)
              && (early + later)[k - m].page == PageAt(secs, Start(k, stride) + width - |done|)
    {
      LaterWindow(secs, done, m, early, mid, later, k, width, stride);
    }
  }

  lemma {:induction false} EarlyWindow(secs: seq<Section>, done: string, m: nat, early: seq<Chunk>, later: seq<Chunk>,
                    k: nat, width: nat, stride: nat)
    requires 0 < stride <= width && |secs| > 0
    requires IsWindowCount(|done|, m, width, stride)
    requires DrainedWindows(done + secs[0].body, m, early, secs[0].page, width, stride)
    requires m <= k < m + |early|
    ensures && |done| < Start(k, stride) + width <= |done + Bodies(secs)|
            && (early + later)[k - m].text == Window(done + Bodies(secs), k, width, stride)
            && (early + later)[k - m].page == PageAt(secs, Start(k, stride) + width - |done|)
  {
    BodiesCons(done, secs);
    StartMono(m, k, stride);
    assert (early + later)[k - m] == early[k - m];
    WindowOfPrefix(done + secs[0].body, Bodies(secs[1..]), k, width, stride);
    PageAtFirst(secs, Start(k, stride) + width - |done|);
  }

  lemma {:induction false} LaterWindow(secs: seq<Section>, done: string, m: nat, early: seq<Chunk>, mid: nat,
                    later: seq<Chunk>, k: nat, width: nat, stride: nat)
    requires 0 < stride <= width && |secs| > 0
    requires mid == m + |early|
    requires FedWindows(done + secs[0].body + Bodies(secs[1..]), |done + secs[0].body|, secs[1..],
                        mid, later, width, stride)
    requires mid <= k < mid + |later|
    ensures && |done| < Start(k, stride) + width <= |done + Bodies(secs)|
            && (early + later)[k - m].text == Window(done + Bodies(secs), k, width, stride)
            && (early + later)[k - m].page == PageAt(secs, Start(k, stride) + width - |done|)
  {
    BodiesCons(done, secs);
    assert (early + later)[k - m] == later[k - mid];
    PageAtLater(secs, Start(k, stride) + width - |done|);
  }

  lemma {:induction false} BodiesCons(done: string, secs: seq<Section>)
    requires |secs| > 0
    ensures done + Bodies(secs) == (done + secs[0].body) + Bodies(secs[1..])
  {
  }

  lemma {:induction false} DropAppend(a: string, b: string, i: nat)
    requires i <= |a|
    ensures a[i..] + b == (a + b)[i..]
  {
  }

  /** `c` is window `k` of the concatenated bodies of `secs`, stripped, as
      chunk `k` of the book, with the page of the section that completed it. */
  predicate IsWindowChunk(c: Chunk, secs: seq<Section>, k: nat, meta: Metadata, width: nat, stride: nat) {
    && 0 < width
    && Start(k, stride) + width <= |Bodies(secs)|
    && c == Chunk(Strip(Window(Bodies(secs), k, width, stride)), k, meta.bookName,
                  PageAt(secs, Start(k, stride) + width), meta.filePath)
  }

  /** For an overlap below the chunk size, `chunk_text` returns window `k` of
      the concatenated page bodies, stripped, as chunk `k` with the page that
      completed it, for every window that fits; after them comes the stripped
      rest of the text as one more chunk, with the last page, exactly when
      that rest is not blank. The rest is shorter than a window. */
  lemma {:induction false} ChunkTextWindows(text: string, meta: Metadata, chunkSize: int, chunkOverlap: int)
    requires 0 <= chunkOverlap < chunkSize
    ensures var r := ChunkText(text, meta, chunkSize, chunkOverlap);
      var secs := Sections(text);
      var width := CharsPerToken * chunkSize;
      var stride := CharsPerToken * (chunkSize - chunkOverlap);
      var n := WindowCount(|Bodies(secs)|, width, stride);
      var tail := Bodies(secs)[Start(n, stride)..];
      && |r| == (if IsBlank(tail) then n else n + 1)
      && (forall k :: 0 <= k < n ==> IsWindowChunk(r[k], secs, k, meta, width, stride))
      && (!IsBlank(tail) ==>
            && |secs| > 0
            && r[n] == Chunk(Strip(tail), n, meta.bookName, secs[|secs| - 1].page, meta.filePath)
            && |tail| < width)
  {
    var secs := Sections(text);
    var width := CharsPerToken * chunkSize;
    var stride := CharsPerToken * (chunkSize - chunkOverlap);
    var p := Feed(secs, "", 0, meta, width, stride);
    FeedEmitted(secs, "", 0, meta, width, stride);
    FedChunks(secs, p, ChunkText(text, meta, chunkSize, chunkOverlap), meta, width, stride);
  }

  /** `ChunkTextWindows` for the sections of the text, the loop's progress `p`
      over them and the chunks `r` made of it. */
  lemma {:induction false} FedChunks(secs: seq<Section>, p: Progress, r: seq<Chunk>, meta: Metadata, width: nat, stride: nat)
    requires 0 < stride <= width
    requires p == Feed(secs, "", 0, meta, width, stride)
    requires p.nextId == |p.chunks| && Emitted(p.chunks, 0, meta, width)
    requires r == Finish(p, LastPage(secs), meta, width)
    ensures var n := WindowCount(|Bodies(secs)|, width, stride);
      var tail := Bodies(secs)[Start(n, stride)..];
      && |r| == (if IsBlank(tail) then n else n + 1)
      && (forall k :: 0 <= k < n ==> IsWindowChunk(r[k], secs, k, meta, width, stride))
      && (!IsBlank(tail) ==>
            && |secs| > 0
            && r[n] == Chunk(Strip(tail), n, meta.bookName, secs[|secs| - 1].page, meta.filePath)
            && |tail| < width)
  {
    var body := Bodies(secs);
    assert ""[Start(0, stride)..] == "";
    FeedWindows(secs, "", 0, meta, width, stride);
    assert "" + body == body;
    WindowCountUnique(|body|, p.nextId, WindowCount(|body|, width, stride), width, stride);
    FinishWindows(secs, p, meta, width, stride);
  }

  /** What the loop's windows become after `Finish`. */
  lemma {:induction false} FinishWindows(secs: seq<Section>, p: Progress, meta: Metadata, width: nat, stride: nat)
    requires 0 < stride <= width
    requires |p.buffer| < width
    requires p.nextId == |p.chunks| && Emitted(p.chunks, 0, meta, width)
    requires Start(p.nextId, stride) <= |Bodies(secs)|
    requires p.buffer == Bodies(secs)[Start(p.nextId, stride)..]
    requires FedWindows(Bodies(secs), 0, secs, 0, p.chunks, width, stride)
    ensures var r := Finish(p, LastPage(secs), meta, width);
      var n := p.nextId;
      var tail := Bodies(secs)[Start(n, stride)..];
      && |r| == (if IsBlank(tail) then n else n + 1)
      && (forall k :: 0 <= k < n ==> IsWindowChunk(r[k], secs, k, meta, width, stride))
      && (!IsBlank(tail) ==>
            && |secs| > 0
            && r[n] == Chunk(Strip(tail), n, meta.bookName, secs[|secs| - 1].page, meta.filePath)
            && |tail| < width)
  {
    var r := Finish(p, LastPage(secs), meta, width);
    forall k | 0 <= k < p.nextId
      ensures IsWindowChunk(r[k], secs, k, meta, width, stride)
    {
      FinishWindow(secs, p, meta, width, stride, k);
    }
    if !IsBlank(p.buffer) {
      if |secs| == 0 {
        assert false;
      }
      FinishTail(p, LastPage(secs), meta, width);
    }
  }

  lemma {:induction false} FinishWindow(secs: seq<Section>, p: Progress, meta: Metadata, width: nat, stride: nat, k: nat)
    requires 0 < stride <= width
    requires |p.buffer| < width
    requires p.nextId == |p.chunks| && Emitted(p.chunks, 0, meta, width)
    requires FedWindows(Bodies(secs), 0, secs, 0, p.chunks, width, stride)
    requires k < |p.chunks|
    ensures k < |Finish(p, LastPage(secs), meta, width)|
    ensures IsWindowChunk(Finish(p, LastPage(secs), meta, width)[k], secs, k, meta, width, stride)
  {
    FinishFull(p, LastPage(secs), meta, width, k);
    assert p.chunks[k - 0] == p.chunks[k];
  }

  lemma {:induction false} FinishFull(p: Progress, lastPage: int, meta: Metadata, width: nat, k: nat)
    requires |p.buffer| < width
    requires p.nextId == |p.chunks| && Emitted(p.chunks, 0, meta, width)
    requires k < |p.chunks|
    ensures k < |Finish(p, lastPage, meta, width)|
    ensures Finish(p, lastPage, meta, width)[k]
         == Chunk(Strip(p.chunks[k].text), k, meta.bookName, p.chunks[k].page, meta.filePath)
  {
  }

  lemma {:induction false} FinishTail(p: Progress, lastPage: int, meta: Metadata, width: nat)
    requires |p.buffer| < width
    requires p.nextId == |p.chunks| && Emitted(p.chunks, 0, meta, width)
    requires !IsBlank(p.buffer)
    ensures |p.chunks| < |Finish(p, lastPage, meta, width)|
    ensures Finish(p, lastPage, meta, width)[|p.chunks|]
         == Chunk(Strip(p.buffer), p.nextId, meta.bookName, lastPage, meta.filePath)
  {
  }
}

=== FILE: export.dfy ===
/**
 The export text pipeline: cleaning markdown out of the text, splitting the
 answer into paragraphs and the citations into entries, naming the output
 file, and the sequence of blocks each export lays out.

 The rendered documents are the abstract block sequences; fonts, colours,
 page geometry and the writing of files are not modelled.
 */
module Export {
  import opened Text
  import opened Helpers

  // ---------------------------------------------------------------------------
  // _clean_text_for_export
  // ---------------------------------------------------------------------------

  /** The lazy `(.*?)D` from position `i`: the first place at or after `i`
      where the delimiter occurs, provided no newline comes before it, since
      `.` does not match a newline. */
  function FindClose(s: string, d: string, i: nat): (r: Option<nat>)
    requires |d| > 0
    ensures r.Some? ==> i <= r.value && OccursAt(s, d, r.value) && '\n' !in s[i..r.value]
    ensures r.Some? ==> forall m :: i <= m < r.value ==> !OccursAt(s, d, m)
    decreases |s| - i
  {
    if OccursAt(s, d, i) then Some(i)
    else if i >= |s| || s[i] == '\n' then None
    else
      var r := FindClose(s, d, i + 1);
      assert r.Some? ==> s[i..r.value] == [s[i]] + s[i + 1..r.value];
      r
  }

  /** Where a delimiter at the start of `s` is closed: the position of the
      closing delimiter, or None when the start is not an opening one. */
  function Closing(s: string, d: string): (r: Option<nat>)
    requires |d| > 0
    ensures r.Some? ==> && OccursAt(s, d, 0) && |d| <= r.value && OccursAt(s, d, r.value)
                        && '\n' !in s[|d|..r.value]
  {
    if OccursAt(s, d, 0) then FindClose(s, d, |d|) else None
  }

  /** A closed pair cuts the text into the opening delimiter, the middle, the
      closing delimiter and the rest. */
  lemma {:induction false} ClosingSplit(s: string, d: string, k: nat)
    requires |d| > 0 && OccursAt(s, d, 0) && |d| <= k && OccursAt(s, d, k)
    ensures s == d + s[|d|..k] + d + s[k + |d|..]
  {
    assert s == s[..|d|] + s[|d|..k] + s[k..k + |d|] + s[k + |d|..];
  }

  /** `re.sub(D(.*?)D, r'\1', s)` for a literal delimiter `D`: scanning left to
      right, a delimiter that is closed on the same line is removed together
      with its closing one; every other character is copied and the scan moves
      on by one. */
  function Unwrap(s: string, d: string): (r: string)
    requires |d| > 0
    ensures |r| <= |s|
    decreases |s|
  {
    if |s| == 0 then []
    else match Closing(s, d)
      case Some(k) => s[|d|..k] + Unwrap(s[k + |d|..], d)
      case None => [s[0]] + Unwrap(s[1..], d)
  }

  /** `_clean_text_for_export`: the bold pass, then the italic pass, then the
      inline code pass. */
  function CleanForExport(s: string): string {
    Unwrap(Unwrap(Unwrap(s, "**"), "*"), "`")
  }

  /** The characters the cleaning may delete. */
  const Markup: set<char> := {'*', '`'}

  /** `r` is `s` with some characters drawn from `cut` deleted, and nothing
      else changed. */
  predicate IsDeletion(r: string, s: string, cut: set<char>)
    decreases |s|
  {
    if |s| == 0 then r == []
    else (s[0] in cut && IsDeletion(r, s[1..], cut))
         || (|r| > 0 && r[0] == s[0] && IsDeletion(r[1..], s[1..], cut))
  }

  lemma {:induction false} DeletionShorter(r: string, s: string, cut: set<char>)
    requires IsDeletion(r, s, cut)
    ensures |r| <= |s|
    ensures forall c :: c in r ==> c in s
    decreases |s|
  {
    if |s| > 0 {
      if s[0] in cut && IsDeletion(r, s[1..], cut) {
        DeletionShorter(r, s[1..], cut);
      } else {
        DeletionShorter(r[1..], s[1..], cut);
        assert r == [r[0]] + r[1..];
      }
    }
  }

  /** A common prefix can be kept. */
  lemma {:induction false} DeletionKeep(x: string, r: string, s: string, cut: set<char>)
    requires IsDeletion(r, s, cut)
    ensures IsDeletion(x + r, x + s, cut)
    decreases |x|
  {
    if |x| > 0 {
      DeletionKeep(x[1..], r, s, cut);
      assert (x + r)[1..] == x[1..] + r;
      assert (x + s)[1..] == x[1..] + s;
      assert (x + r)[0] == (x + s)[0];
    } else {
      assert x + r == r && x + s == s;
    }
  }

  /** A prefix made of deletable characters can be deleted. */
  lemma {:induction false} DeletionDrop(x: string, r: string, s: string, cut: set<char>)
    requires forall k :: 0 <= k < |x| ==> x[k] in cut
    requires IsDeletion(r, s, cut)
    ensures IsDeletion(r, x + s, cut)
    decreases |x|
  {
    if |x| > 0 {
      DeletionDrop(x[1..], r, s, cut);
      assert (x + s)[1..] == x[1..] + s;
      assert (x + s)[0] in cut;
    } else {
      assert x + s == s;
    }
  }

  /** Deleting twice is deleting once. */
  lemma {:induction false} DeletionTrans(a: string, b: string, c: string, cut: set<char>)
    requires IsDeletion(a, b, cut) && IsDeletion(b, c, cut)
    ensures IsDeletion(a, c, cut)
    decreases |c|
  {
    if |c| > 0 {
      if c[0] in cut && IsDeletion(b, c[1..], cut) {
        DeletionTrans(a, b, c[1..], cut);
      } else if b[0] in cut && IsDeletion(a, b[1..], cut) {
        DeletionTrans(a, b[1..], c[1..], cut);
      } else {
        DeletionTrans(a[1..], b[1..], c[1..], cut);
      }
    }
  }

  lemma {:induction false} DeletionWiden(r: string, s: string, cut: set<char>, more: set<char>)
    requires cut <= more && IsDeletion(r, s, cut)
    ensures IsDeletion(r, s, more)
    decreases |s|
  {
    if |s| > 0 {
      if s[0] in cut && IsDeletion(r, s[1..], cut) {
        DeletionWiden(r, s[1..], cut, more);
      } else {
        DeletionWiden(r[1..], s[1..], cut, more);
      }
    }
  }

  /** One pass deletes delimiter characters and nothing else. */
  lemma {:induction false} UnwrapDeletes(s: string, d: string, cut: set<char>)
    requires |d| > 0 && forall k :: 0 <= k < |d| ==> d[k] in cut
    ensures IsDeletion(Unwrap(s, d), s, cut)
    decreases |s|
  {
    if |s| > 0 {
      match Closing(s, d)
      case Some(k) =>
        var mid := s[|d|..k];
        var tail := s[k + |d|..];
        var u := Unwrap(tail, d);
        UnwrapDeletes(tail, d, cut);
        PairDeletes(d, mid, tail, u, cut);
        ClosingSplit(s, d, k);
      case None =>
        UnwrapDeletes(s[1..], d, cut);
        DeletionKeep([s[0]], Unwrap(s[1..], d), s[1..], cut);
        assert s == [s[0]] + s[1..];
    }
  }

  lemma {:induction false} PairDeletes(d: string, mid: string, tail: string, u: string, cut: set<char>)
    requires forall k :: 0 <= k < |d| ==> d[k] in cut
    requires IsDeletion(u, tail, cut)
    ensures IsDeletion(mid + u, d + mid + d + tail, cut)
  {
    DeletionDrop(d, u, tail, cut);
    DeletionKeep(mid, u, d + tail, cut);
    DeletionDrop(d, mid + u, mid + (d + tail), cut);
    assert d + (mid + (d + tail)) == d + mid + d + tail;
  }

  /** The cleaned text is the input with some `*` and `` ` `` characters
      deleted and nothing else changed; so it is never longer. */
  lemma {:induction false} CleanDeletesMarkup(s: string)
    ensures IsDeletion(CleanForExport(s), s, Markup)
    ensures |CleanForExport(s)| <= |s|
  {
    var b := Unwrap(s, "**");
    var i := Unwrap(b, "*");
    UnwrapDeletes(s, "**", Markup);
    UnwrapDeletes(b, "*", Markup);
    UnwrapDeletes(i, "`", Markup);
    DeletionTrans(i, b, s, Markup);
    DeletionTrans(CleanForExport(s), i, s, Markup);
    DeletionShorter(CleanForExport(s), s, Markup);
  }

  /** A pass whose delimiter does not start anywhere in the text copies it. */
  lemma {:induction false} UnwrapNoop(s: string, d: string)
    requires |d| > 0 && d[0] !in s
    ensures Unwrap(s, d) == s
    decreases |s|
  {
    if |s| > 0 {
      assert |d| <= |s| ==> s[..|d|][0] == s[0];
      UnwrapNoop(s[1..], d);
      assert s == [s[0]] + s[1..];
    }
  }

  /** Text with neither `*` nor `` ` `` comes out unchanged. */
  lemma {:induction false} CleanNoop(s: string)
    requires '*' !in s && '`' !in s
    ensures CleanForExport(s) == s
  {
    UnwrapNoop(s, "**");
    UnwrapNoop(s, "*");
    UnwrapNoop(s, "`");
  }

  /** The search for a closing delimiter stops at the end of the first line. */
  lemma {:induction false} FindCloseLines(a: string, b: string, d: string, i: nat)
    requires |d| > 0 && '\n' !in a && '\n' !in d && i <= |a|
    ensures FindClose(a + "\n" + b, d, i) == FindClose(a, d, i)
    decreases |a| - i
  {
    var s := a + "\n" + b;
    if i + |d| <= |a| {
      assert s[i..i + |d|] == a[i..i + |d|];
    } else {
      assert !OccursAt(s, d, i) by {
        if i + |d| <= |s| {
          assert s[i..i + |d|][|a| - i] == '\n';
        }
      }
    }
    if i < |a| && !OccursAt(a, d, i) && a[i] != '\n' {
      assert s[i] == a[i];
      FindCloseLines(a, b, d, i + 1);
    }
  }

  /** Where an opening delimiter is closed depends only on its own line. */
  lemma {:induction false} ClosingLines(a: string, b: string, d: string)
    requires |d| > 0 && '\n' !in a && '\n' !in d
    ensures Closing(a + "\n" + b, d) == Closing(a, d)
  {
    var s := a + "\n" + b;
    if |d| <= |a| {
      assert s[..|d|] == a[..|d|];
      FindCloseLines(a, b, d, |d|);
    } else {
      assert !OccursAt(s, d, 0) by {
        if |d| <= |s| {
          assert s[..|d|][|a|] == '\n';
        }
      }
    }
  }

  lemma {:induction false} UnwrapPairStep(s: string, d: string, k: nat)
    requires |d| > 0 && |s| > 0 && Closing(s, d) == Some(k)
    ensures Unwrap(s, d) == s[|d|..k] + Unwrap(s[k + |d|..], d)
  {
  }

  lemma {:induction false} UnwrapCopyStep(s: string, d: string)
    requires |d| > 0 && |s| > 0 && Closing(s, d) == None
    ensures Unwrap(s, d) == [s[0]] + Unwrap(s[1..], d)
  {
  }

  /** A delimiter pair is removed only within a line: the scan of a text with
      a newline is the scans of the two sides joined by that newline. */
  lemma {:induction false} UnwrapLines(a: string, b: string, d: string)
    requires |d| > 0 && '\n' !in a && '\n' !in d
    ensures Unwrap(a + "\n" + b, d) == Unwrap(a, d) + "\n" + Unwrap(b, d)
  {
    UnwrapLinesOf(a, b, d, Unwrap(a + "\n" + b, d), Unwrap(a, d), Unwrap(b, d));
  }

  /** `UnwrapLines` with the three scans named. */
  lemma {:induction false} UnwrapLinesOf(a: string, b: string, d: string, w: string, x: string, y: string)
    requires |d| > 0 && '\n' !in a && '\n' !in d
    requires w == Unwrap(a + "\n" + b, d) && x == Unwrap(a, d) && y == Unwrap(b, d)
    ensures w == x + "\n" + y
    decreases |a|
  {
    var s := a + "\n" + b;
    if |a| == 0 {
      LinesEmpty(b, d);
    } else {
      ClosingLines(a, b, d);
      match Closing(a, d)
      case Some(k) =>
        var t := a[k + |d|..];
        AroundNewline(a, b, |d|, k);
        AroundNewline(a, b, k + |d|, k + |d|);
        UnwrapPairStep(s, d, k);
        UnwrapPairStep(a, d, k);
        UnwrapLinesOf(t, b, d, Unwrap(t + "\n" + b, d), Unwrap(t, d), y);
        Regroup(a[|d|..k], Unwrap(t, d), y);
      case None =>
        var t := a[1..];
        AroundNewline(a, b, 0, 1);
        AroundNewline(a, b, 1, 1);
        UnwrapCopyStep(s, d);
        UnwrapCopyStep(a, d);
        UnwrapLinesOf(t, b, d, Unwrap(t + "\n" + b, d), Unwrap(t, d), y);
        Regroup([a[0]], Unwrap(t, d), y);
    }
  }

  lemma {:induction false} LinesEmpty(b: string, d: string)
    requires |d| > 0 && '\n' !in d
    ensures Unwrap([] + "\n" + b, d) == Unwrap([], d) + "\n" + Unwrap(b, d)
  {
    var s := [] + "\n" + b;
    assert Closing(s, d) == None by {
      assert s[0] == '\n';
      assert |d| <= |s| ==> s[..|d|][0] == '\n';
    }
    UnwrapCopyStep(s, d);
    assert s[0] == '\n' && s[1..] == b;
  }

  /** Slices of `a` inside `a + "\n" + b`. */
  lemma {:induction false} AroundNewline(a: string, b: string, i: nat, j: nat)
    requires i <= j <= |a|
    ensures (a + "\n" + b)[i..j] == a[i..j]
    ensures (a + "\n" + b)[j..] == a[j..] + "\n" + b
  {
  }

  lemma {:induction false} Regroup(x: string, u: string, v: string)
    ensures x + (u + "\n" + v) == (x + u) + "\n" + v
  {
  }

  /** Cleaning works line by line: no pair of markers is removed across a
      newline. */
  lemma {:induction false} CleanLines(a: string, b: string)
    requires '\n' !in a
    ensures CleanForExport(a + "\n" + b) == CleanForExport(a) + "\n" + CleanForExport(b)
  {
    var a1 := Unwrap(a, "**");
    var a2 := Unwrap(a1, "*");
    var b1 := Unwrap(b, "**");
    var b2 := Unwrap(b1, "*");
    UnwrapLines(a, b, "**");
    UnwrapDeletes(a, "**", Markup);
    DeletionShorter(a1, a, Markup);
    UnwrapLines(a1, b1, "*");
    UnwrapDeletes(a1, "*", Markup);
    DeletionShorter(a2, a1, Markup);
    UnwrapLines(a2, b2, "`");
  }

  /** The bold pass runs first, so a bold word loses both its double stars. */
  lemma {:induction false} BoldBeforeItalic()
    ensures CleanForExport("**x**") == "x"
  {
    assert OccursAt("**x**", "**", 0) && OccursAt("**x**", "**", 3);
    assert "**x**"[2..4] == "x*";
    assert !OccursAt("**x**", "**", 2);
    assert Closing("**x**", "**") == Some(3);
    assert Unwrap("**x**", "**") == "x";
    UnwrapNoop("x", "*");
    UnwrapNoop("x", "`");
  }

  /** A star opening a line with nothing to close it stays. */
  lemma {:induction false} OpeningStarKept(x: char)
    requires x != '*' && x != '`'
    ensures CleanForExport(['*', x]) == ['*', x]
  {
    var s := ['*', x];
    assert s[1..] == [x];
    assert !OccursAt(s, "**", 0) by { assert s[..2][1] == x; }
    UnwrapCopyStep(s, "**");
    UnwrapNoop([x], "**");
    assert Unwrap(s, "**") == s;
    assert !OccursAt(s, "*", 1) by { assert s[1..2] == [x]; }
    assert FindClose(s, "*", 2) == None;
    assert FindClose(s, "*", 1) == None;
    UnwrapCopyStep(s, "*");
    UnwrapNoop([x], "*");
    assert Unwrap(s, "*") == s;
    UnwrapNoop(s, "`");
  }

  /** A star closing a line with nothing before it to open stays. */
  lemma {:induction false} ClosingStarKept(y: char)
    requires y != '*' && y != '`'
    ensures CleanForExport([y, '*']) == [y, '*']
  {
    var s := [y, '*'];
    assert s[1..] == ['*'];
    var t: string := ['*'];
    assert t[1..] == [];
    assert !OccursAt(s, "**", 0) by { assert s[..2][0] == y; }
    assert !OccursAt(t, "**", 0);
    UnwrapCopyStep(s, "**");
    UnwrapCopyStep(t, "**");
    assert Unwrap(s, "**") == s;
    assert !OccursAt(s, "*", 0) by { assert s[..1][0] == y; }
    assert OccursAt(t, "*", 0) && FindClose(t, "*", 1) == None;
    UnwrapCopyStep(s, "*");
    UnwrapCopyStep(t, "*");
    assert Unwrap(s, "*") == s;
    UnwrapNoop(s, "`");
  }

  /** A marker pair split by a line break stays in the text. */
  lemma {:induction false} PairAcrossLinesKept(x: char, y: char)
    requires x != '*' && x != '`' && x != '\n'
    requires y != '*' && y != '`'
    ensures CleanForExport(['*', x, '\n', y, '*']) == ['*', x, '\n', y, '*']
  {
    OpeningStarKept(x);
    ClosingStarKept(y);
    LinesKept(['*', x], [y, '*'], ['*', x, '\n', y, '*']);
  }

  /** Two lines that cleaning leaves alone are left alone together. */
  lemma {:induction false} LinesKept(a: string, b: string, s: string)
    requires '\n' !in a && s == a + "\n" + b
    requires CleanForExport(a) == a && CleanForExport(b) == b
    ensures CleanForExport(s) == s
  {
    CleanLines(a, b);
  }

  // ---------------------------------------------------------------------------
  // Paragraphs of the answer, entries of the citations
  // ---------------------------------------------------------------------------

  /** A non-empty text with no whitespace at either end: what `piece.strip()`
      gives for a piece that is not blank. */
  predicate Trimmed(p: string) {
    |p| > 0 && !IsSpace(p[0]) && !IsSpace(p[|p| - 1])
  }

  /** The loop filter `if piece.strip(): add(piece.strip())`: the stripped
      pieces that are not blank, in order. */
  function Kept(pieces: seq<string>): (r: seq<string>)
    ensures |r| <= |pieces|
    ensures forall k :: 0 <= k < |r| ==> Trimmed(r[k])
    decreases |pieces|
  {
    if |pieces| == 0 then []
    else if IsBlank(pieces[0]) then Kept(pieces[1..])
    else
      var p := Strip(pieces[0]);
      var rest := Kept(pieces[1..]);
      assert Trimmed(p);
      ConsTrimmed(p, rest);
      [p] + rest
  }

  lemma {:induction false} ConsTrimmed(p: string, rest: seq<string>)
    requires Trimmed(p) && forall k :: 0 <= k < |rest| ==> Trimmed(rest[k])
    ensures forall k :: 0 <= k < |[p] + rest| ==> Trimmed(([p] + rest)[k])
  {
    forall k | 0 < k < |[p] + rest| ensures Trimmed(([p] + rest)[k]) {
      assert ([p] + rest)[k] == rest[k - 1];
    }
  }

  /** The filter works piece by piece. */
  lemma {:induction false} KeptAppend(a: seq<string>, b: seq<string>)
    ensures Kept(a + b) == Kept(a) + Kept(b)
    decreases |a|
  {
    if |a| > 0 {
      assert (a + b)[1..] == a[1..] + b;
      KeptAppend(a[1..], b);
    } else {
      assert a + b == b;
    }
  }

  /** One piece: dropped when blank, stripped otherwise. */
  lemma {:induction false} KeptOne(p: string)
    ensures Kept([p]) == if IsBlank(p) then [] else [Strip(p)]
  {
    assert [p][1..] == [];
  }

  /** A character no piece holds is in no kept piece. */
  lemma {:induction false} KeptLacks(pieces: seq<string>, c: char)
    requires forall k :: 0 <= k < |pieces| ==> c !in pieces[k]
    ensures forall k :: 0 <= k < |Kept(pieces)| ==> c !in Kept(pieces)[k]
  {
    KeptLacksOf(pieces, c, Kept(pieces));
  }

  /** `KeptLacks` for the kept pieces `r`. */
  lemma {:induction false} KeptLacksOf(pieces: seq<string>, c: char, r: seq<string>)
    requires forall k :: 0 <= k < |pieces| ==> c !in pieces[k]
    requires r == Kept(pieces)
    ensures forall k :: 0 <= k < |r| ==> c !in r[k]
    decreases |pieces|
  {
    if |pieces| > 0 {
      var p := pieces[0];
      var rest := Kept(pieces[1..]);
      KeptLacksOf(pieces[1..], c, rest);
      if !IsBlank(p) {
        var q := Strip(p);
        assert c !in p;
        LacksInSlice(p, StripStart(p), StripStart(p) + |q|, c);
        assert c !in q;
        assert r == [q] + rest;
        forall k | 0 < k < |r| ensures c !in r[k] {
          assert r[k] == rest[k - 1];
        }
      } else {
        assert r == rest;
      }
    }
  }

  /** Pieces that are already trimmed all survive the filter unchanged. */
  lemma {:induction false} KeptTrimmed(pieces: seq<string>)
    requires forall k :: 0 <= k < |pieces| ==> Trimmed(pieces[k])
    ensures Kept(pieces) == pieces
  {
    KeptTrimmedOf(pieces, Kept(pieces));
  }

  /** `KeptTrimmed` for the kept pieces `r`. */
  lemma {:induction false} KeptTrimmedOf(pieces: seq<string>, r: seq<string>)
    requires forall k :: 0 <= k < |pieces| ==> Trimmed(pieces[k])
    requires r == Kept(pieces)
    ensures r == pieces
    decreases |pieces|
  {
    if |pieces| > 0 {
      var p := pieces[0];
      assert !IsBlank(p) by { assert !IsSpace(p[0]); }
      StripNoop(p);
      KeptTrimmedOf(pieces[1..], Kept(pieces[1..]));
      assert r == [p] + pieces[1..];
      assert pieces == [p] + pieces[1..];
    }
  }

  /** Blank pieces all disappear. */
  lemma {:induction false} KeptBlank(pieces: seq<string>)
    requires forall k :: 0 <= k < |pieces| ==> IsBlank(pieces[k])
    ensures Kept(pieces) == []
    decreases |pieces|
  {
    if |pieces| > 0 {
      KeptBlank(pieces[1..]);
    }
  }

  /** The answer's paragraphs: the cleaned answer split at blank-line breaks
      `\n\n`, each stripped, blank ones dropped. */
  function Paragraphs(answer: string): (r: seq<string>)
    ensures forall k :: 0 <= k < |r| ==> Trimmed(r[k])
  {
    Kept(Split(CleanForExport(answer), "\n\n"))
  }

  /** The citation entries: the cleaned citations split at newlines, each
      stripped, blank ones dropped. */
  function Entries(citations: string): (r: seq<string>)
    ensures forall k :: 0 <= k < |r| ==> Trimmed(r[k]) && '\n' !in r[k]
  {
    var lines := Split(CleanForExport(citations), "\n");
    forall k | 0 <= k < |lines| ensures '\n' !in lines[k] {
      CharOccurs(lines[k], '\n');
    }
    KeptLacks(lines, '\n');
    Kept(lines)
  }

  lemma {:induction false} LacksInSlice(s: string, i: nat, j: nat, c: char)
    requires i <= j <= |s| && c !in s
    ensures c !in s[i..j]
  {
    forall k | 0 <= k < j - i ensures s[i..j][k] != c {
      assert s[i..j][k] == s[i + k];
    }
  }

  /** A character in neither the parts nor the separator is not in the join. */
  lemma {:induction false} JoinLacks(parts: seq<string>, sep: string, c: char)
    requires c !in sep && forall k :: 0 <= k < |parts| ==> c !in parts[k]
    ensures c !in Join(parts, sep)
    decreases |parts|
  {
    if |parts| > 1 {
      JoinLacks(parts[1..], sep, c);
    }
  }

  /** A piece that fits the paragraph splitting: trimmed, free of markup, and
      without a blank-line break of its own. */
  predicate PlainParagraph(p: string) {
    Trimmed(p) && '*' !in p && '`' !in p && !Contains(p, "\n\n")
  }

  /** Paragraphs joined with blank lines are split back into the same paragraphs. */
  lemma {:induction false} ParagraphsOfJoin(ps: seq<string>)
    requires |ps| > 0 && forall k :: 0 <= k < |ps| ==> PlainParagraph(ps[k])
    ensures Paragraphs(Join(ps, "\n\n")) == ps
  {
    var s := Join(ps, "\n\n");
    JoinLacks(ps, "\n\n", '*');
    JoinLacks(ps, "\n\n", '`');
    CleanNoop(s);
    SplitParagraphJoin(ps);
    KeptTrimmed(ps);
  }

  lemma {:induction false} SplitParagraphJoin(ps: seq<string>)
    requires |ps| > 0 && forall k :: 0 <= k < |ps| ==> PlainParagraph(ps[k])
    ensures Split(Join(ps, "\n\n"), "\n\n") == ps
    decreases |ps|
  {
    var sep := "\n\n";
    var p := ps[0];
    if |ps| == 1 {
      assert Join(ps, sep) == p;
    } else {
      var rest := Join(ps[1..], sep);
      assert Join(ps, sep) == p + sep + rest;
      FirstBreakAfter(p, rest);
      SplitAtFirst(p, sep, rest);
      SplitParagraphJoin(ps[1..]);
      assert ps == [p] + ps[1..];
    }
  }

  /** In `p + "\n\n" + rest` with `p` a plain paragraph, the first break is
      the one right after `p`. */
  lemma {:induction false} FirstBreakAfter(p: string, rest: string)
    requires PlainParagraph(p)
    ensures IndexOf(p + "\n\n" + rest, "\n\n") == Some(|p|)
  {
    var sep := "\n\n";
    var s := p + sep + rest;
    assert OccursAt(s, sep, |p|) by { assert s[|p|..|p| + 2] == sep; }
    forall j | 0 <= j < |p| ensures !OccursAt(s, sep, j) {
      if j + 2 <= |p| {
        assert s[j..j + 2] == p[j..j + 2];
        assert !OccursAt(p, sep, j);
      } else {
        assert s[j] == p[|p| - 1];
        assert s[j..j + 2][0] == s[j];
      }
    }
  }

  /** Entries joined with newlines are split back into the same entries. */
  lemma {:induction false} EntriesOfJoin(es: seq<string>)
    requires |es| > 0
    requires forall k :: 0 <= k < |es| ==> Trimmed(es[k]) && '\n' !in es[k] && '*' !in es[k] && '`' !in es[k]
    ensures Entries(Join(es, "\n")) == es
  {
    var s := Join(es, "\n");
    JoinLacks(es, "\n", '*');
    JoinLacks(es, "\n", '`');
    CleanNoop(s);
    SplitJoin(es, '\n');
    KeptTrimmed(es);
  }

  // ---------------------------------------------------------------------------
  // The laid-out documents
  // ---------------------------------------------------------------------------

  /** Paragraph styles: the PDF's custom title and heading styles are `Title`
      and `Heading(2)` (the heading style derives from Heading2); a DOCX
      heading of level 0 is `Title`, of level n > 0 is `Heading(n)`. */
  datatype Style = Title | Heading(level: nat) | Normal | Italic | ListBullet | IntenseQuote

  /** One element of a PDF story or a DOCX body. `Meta` is the generated-at and
      mode line, set in bold labels; a `Spacer` is a vertical gap in
      hundredths of an inch. */
  datatype Block =
    | Paragraph(style: Style, text: string)
    | Meta(generated: string, mode: string)
    | Spacer(hundredths: nat)

  /** The text of a block when it is a paragraph in the given style. */
  function TextIn(b: Block, style: Style): seq<string> {
    if b.Paragraph? && b.style == style then [b.text] else []
  }

  /** The texts of the paragraphs in a given style, in order. */
  function TextsIn(blocks: seq<Block>, style: Style): (r: seq<string>)
    ensures |r| <= |blocks|
    decreases |blocks|
  {
    if |blocks| == 0 then [] else TextIn(blocks[0], style) + TextsIn(blocks[1..], style)
  }

  /** The texts of the blocks from position `k` on: those of block `k`, then
      those after it. */
  lemma {:induction false} TextsInFrom(bs: seq<Block>, style: Style, k: nat)
    requires k < |bs|
    ensures TextsIn(bs[k..], style) == TextIn(bs[k], style) + TextsIn(bs[k + 1..], style)
  {
    assert bs[k..][1..] == bs[k + 1..];
  }

  lemma {:induction false} TextsInAppend(a: seq<Block>, b: seq<Block>, style: Style)
    ensures TextsIn(a + b, style) == TextsIn(a, style) + TextsIn(b, style)
    decreases |a|
  {
    if |a| > 0 {
      assert (a + b)[1..] == a[1..] + b;
      TextsInAppend(a[1..], b, style);
    } else {
      assert a + b == b;
    }
  }

  /** Short lists, block by block: the texts of each block in turn, nested
      the way the recursion of `TextsIn` produces them. */
  lemma {:induction false} TextsOfOne(bs: seq<Block>, style: Style)
    requires |bs| == 1
    ensures TextsIn(bs, style) == TextIn(bs[0], style)
  {
    assert bs[1..] == [];
  }

  lemma {:induction false} TextsOfTwo(bs: seq<Block>, style: Style)
    requires |bs| == 2
    ensures TextsIn(bs, style) == TextIn(bs[0], style) + TextIn(bs[1], style)
  {
    assert bs[0..] == bs && bs[2..] == [];
    TextsInFrom(bs, style, 0); TextsInFrom(bs, style, 1);
    assert TextIn(bs[1], style) + TextsIn(bs[2..], style) == TextIn(bs[1], style);
  }

  lemma {:induction false} TextsOfThree(bs: seq<Block>, style: Style)
    requires |bs| == 3
    ensures TextsIn(bs, style) == TextIn(bs[0], style) + (TextIn(bs[1], style) + TextIn(bs[2], style))
  {
    assert bs[0..] == bs && bs[3..] == [];
    TextsInFrom(bs, style, 0); TextsInFrom(bs, style, 1); TextsInFrom(bs, style, 2);
    assert TextIn(bs[2], style) + TextsIn(bs[3..], style) == TextIn(bs[2], style);
  }

  lemma {:induction false} TextsOfFour(bs: seq<Block>, style: Style)
    requires |bs| == 4
    ensures TextsIn(bs, style)
            == TextIn(bs[0], style) + (TextIn(bs[1], style) + (TextIn(bs[2], style) + TextIn(bs[3], style)))
  {
    assert bs[0..] == bs && bs[4..] == [];
    TextsInFrom(bs, style, 0); TextsInFrom(bs, style, 1); TextsInFrom(bs, style, 2); TextsInFrom(bs, style, 3);
    assert TextIn(bs[3], style) + TextsIn(bs[4..], style) == TextIn(bs[3], style);
  }

  lemma {:induction false} TextsOfSix(bs: seq<Block>, style: Style)
    requires |bs| == 6
    ensures TextsIn(bs, style)
            == TextIn(bs[0], style) + (TextIn(bs[1], style) + (TextIn(bs[2], style) + (TextIn(bs[3], style)
               + (TextIn(bs[4], style) + TextIn(bs[5], style)))))
  {
    assert bs[0..] == bs && bs[6..] == [];
    TextsInFrom(bs, style, 0); TextsInFrom(bs, style, 1); TextsInFrom(bs, style, 2);
    TextsInFrom(bs, style, 3); TextsInFrom(bs, style, 4); TextsInFrom(bs, style, 5);
    assert TextIn(bs[5], style) + TextsIn(bs[6..], style) == TextIn(bs[5], style);
  }

  lemma {:induction false} TextsOfEight(bs: seq<Block>, style: Style)
    requires |bs| == 8
    ensures TextsIn(bs, style)
            == TextIn(bs[0], style) + (TextIn(bs[1], style) + (TextIn(bs[2], style) + (TextIn(bs[3], style)
               + (TextIn(bs[4], style) + (TextIn(bs[5], style) + (TextIn(bs[6], style) + TextIn(bs[7], style)))))))
  {
    assert bs[0..] == bs && bs[8..] == [];
    TextsInFrom(bs, style, 0); TextsInFrom(bs, style, 1); TextsInFrom(bs, style, 2); TextsInFrom(bs, style, 3);
    TextsInFrom(bs, style, 4); TextsInFrom(bs, style, 5); TextsInFrom(bs, style, 6); TextsInFrom(bs, style, 7);
    assert TextIn(bs[7], style) + TextsIn(bs[8..], style) == TextIn(bs[7], style);
  }

  /** The mode label: `mode.replace('_', ' ').title()`. */
  function ModeLabel(mode: string): string {
    TitleCase(ReplaceChar(mode, '_', ' '))
  }

  /** `s.title()` on ASCII: a letter is upper-cased when it starts a word (no
      letter before it) and lower-cased otherwise; other characters stay. */
  function TitleCase(s: string): (r: string)
    ensures |r| == |s|
    ensures forall k :: 0 <= k < |s| ==> (IsLetter(r[k]) <==> IsLetter(s[k]))
  {
    seq(|s|, k requires 0 <= k < |s| =>
      if !IsLetter(s[k]) then s[k]
      else if k > 0 && IsLetter(s[k - 1]) then LowerChar(s[k])
      else UpperChar(s[k]))
  }

  /** Title-casing twice is title-casing once. */
  lemma {:induction false} TitleCaseIdempotent(s: string)
    ensures TitleCase(TitleCase(s)) == TitleCase(s)
  {
    var t := TitleCase(s);
    forall k | 0 <= k < |s| ensures TitleCase(t)[k] == t[k] {
      assert IsLetter(t[k]) <==> IsLetter(s[k]);
      if k > 0 {
        assert IsLetter(t[k - 1]) <==> IsLetter(s[k - 1]);
      }
    }
  }

  /** The two modes of the system get their display labels. */
  lemma {:induction false} ModeLabels()
    ensures ModeLabel("book_based") == "Book Based"
    ensures ModeLabel("general_knowledge") == "General Knowledge"
  {
    BookBasedLabel();
    GeneralKnowledgeLabel();
  }

  lemma {:induction false} BookBasedLabel()
    ensures ModeLabel("book_based") == "Book Based"
  {
    LabelOf("book", "based", "book_based", "Book Based");
  }

  lemma {:induction false} GeneralKnowledgeLabel()
    ensures ModeLabel("general_knowledge") == "General Knowledge"
  {
    LabelOf("general", "knowledge", "general_knowledge", "General Knowledge");
  }

  lemma {:induction false} LabelOf(a: string, b: string, mode: string, shown: string)
    requires IsLowerWord(a) && IsLowerWord(b)
    requires mode == a + "_" + b
    requires shown == [UpperChar(a[0])] + a[1..] + " " + [UpperChar(b[0])] + b[1..]
    ensures ModeLabel(mode) == shown
  {
    TwoWordLabel(a, b);
  }

  /** A lower-case word. */
  predicate IsLowerWord(w: string) {
    |w| > 0 && forall k :: 0 <= k < |w| ==> 'a' <= w[k] <= 'z'
  }

  /** A mode made of two lower-case words joined by an underscore is shown as
      the two words capitalised, separated by a space. */
  lemma {:induction false} TwoWordLabel(a: string, b: string)
    requires IsLowerWord(a) && IsLowerWord(b)
    ensures ModeLabel(a + "_" + b) == [UpperChar(a[0])] + a[1..] + " " + [UpperChar(b[0])] + b[1..]
  {
    var spaced := a + " " + b;
    assert ReplaceChar(a + "_" + b, '_', ' ') == spaced;
    var t := TitleCase(spaced);
    var want := [UpperChar(a[0])] + a[1..] + " " + [UpperChar(b[0])] + b[1..];
    assert |want| == |t|;
    forall k | 0 <= k < |t| ensures t[k] == want[k] {
      if k < |a| {
        assert spaced[k] == a[k];
        if k > 0 {
          assert spaced[k - 1] == a[k - 1];
          assert want[k] == a[1..][k - 1];
        }
      } else if k == |a| {
      } else {
        assert spaced[k] == b[k - |a| - 1];
        if k > |a| + 1 {
          assert spaced[k - 1] == b[k - |a| - 2];
          assert want[k] == b[1..][k - |a| - 2];
        }
      }
    }
  }

  /** Each text as a paragraph of the given style followed by a gap. */
  function Spaced(texts: seq<string>, style: Style, gap: nat): (r: seq<Block>)
    ensures |r| == 2 * |texts|
    ensures forall k :: 0 <= k < |texts| ==> r[2 * k] == Paragraph(style, texts[k]) && r[2 * k + 1] == Spacer(gap)
    decreases |texts|
  {
    if |texts| == 0 then []
    else [Paragraph(style, texts[0]), Spacer(gap)] + Spaced(texts[1..], style, gap)
  }

  /** Each text as a paragraph of the given style. */
  function Plain(texts: seq<string>, style: Style): (r: seq<Block>)
    ensures |r| == |texts|
    ensures forall k :: 0 <= k < |texts| ==> r[k] == Paragraph(style, texts[k])
    decreases |texts|
  {
    if |texts| == 0 then [] else [Paragraph(style, texts[0])] + Plain(texts[1..], style)
  }

  /** The texts of a spaced list in its own style are the list; other styles
      find nothing in it. */
  lemma {:induction false} TextsInSpaced(texts: seq<string>, style: Style, gap: nat)
    ensures TextsIn(Spaced(texts, style, gap), style) == texts
    decreases |texts|
  {
    if |texts| > 0 {
      SpacedSteps(texts, style, gap, style);
      TextsInSpaced(texts[1..], style, gap);
      ConsAgain(texts, TextIn(Paragraph(style, texts[0]), style), TextIn(Spacer(gap), style));
    }
  }

  /** A list is its first element before an empty part and the rest. */
  lemma {:induction false} ConsAgain<T>(xs: seq<T>, first: seq<T>, none: seq<T>)
    requires |xs| > 0 && first == [xs[0]] && none == []
    ensures first + (none + xs[1..]) == xs
  {
    assert none + xs[1..] == xs[1..];
  }

  lemma {:induction false} TextsInSpacedOther(texts: seq<string>, style: Style, gap: nat, other: Style)
    requires other != style
    ensures TextsIn(Spaced(texts, style, gap), other) == []
    decreases |texts|
  {
    if |texts| > 0 {
      SpacedSteps(texts, style, gap, other);
      TextsInSpacedOther(texts[1..], style, gap, other);
    }
  }

  /** A spaced list opens with its first text's paragraph and gap, then
      the spaced rest. */
  lemma {:induction false} SpacedSteps(texts: seq<string>, style: Style, gap: nat, other: Style)
    requires |texts| > 0
    ensures TextsIn(Spaced(texts, style, gap), other)
            == TextIn(Paragraph(style, texts[0]), other) + (TextIn(Spacer(gap), other)
               + TextsIn(Spaced(texts[1..], style, gap), other))
  {
    var s := Spaced(texts, style, gap);
    assert s[2..] == Spaced(texts[1..], style, gap);
    assert s[1..][1..] == s[2..];
  }

  lemma {:induction false} TextsInPlain(texts: seq<string>, style: Style)
    ensures TextsIn(Plain(texts, style), style) == texts
    decreases |texts|
  {
    if |texts| > 0 {
      TextsInPlain(texts[1..], style);
      assert texts == [texts[0]] + texts[1..];
    }
  }

  lemma {:induction false} TextsInPlainOther(texts: seq<string>, style: Style, other: Style)
    requires other != style
    ensures TextsIn(Plain(texts, style), other) == []
    decreases |texts|
  {
    if |texts| > 0 {
      TextsInPlainOther(texts[1..], style, other);
    }
  }

  const ResponseTitle := "Chemical Engineering RAG System"
  const HistoryTitle := "Chemical Engineering RAG - Chat History"

  /** The PDF story of one response: title, metadata, the cleaned question,
      the answer paragraphs each followed by a 0.1 inch gap, and, when the
      citations are not empty, a References section of entries each followed
      by a 0.05 inch gap. */
  function PdfStory(query: string, answer: string, citations: string, mode: string, stamp: string): seq<Block> {
    PdfLayout(CleanForExport(query), ModeLabel(mode), stamp, Paragraphs(answer), citations != "", Entries(citations))
  }

  /** The PDF layout of the cleaned pieces; `cited` is the truth of the
      citations argument. */
  function PdfLayout(question: string, modeLabel: string, stamp: string, paras: seq<string>,
                     cited: bool, entries: seq<string>): seq<Block> {
    PdfHead(question, modeLabel, stamp) + Spaced(paras, Normal, 10) + PdfReferences(cited, entries)
  }

  function PdfHead(question: string, modeLabel: string, stamp: string): seq<Block> {
    [ Paragraph(Title, ResponseTitle), Spacer(20),
      Meta(stamp, modeLabel), Spacer(30),
      Paragraph(Heading(2), "Question"), Paragraph(Normal, question), Spacer(20),
      Paragraph(Heading(2), "Answer") ]
  }

  function PdfReferences(cited: bool, entries: seq<string>): seq<Block> {
    if !cited then []
    else [Spacer(20), Paragraph(Heading(2), "References")] + Spaced(entries, Normal, 5)
  }

  /** The DOCX body of one response: title, metadata, an empty paragraph, the
      cleaned question, the answer paragraphs, and, when the citations are
      not empty, a References heading with the entries as bullets. */
  function DocxBody(query: string, answer: string, citations: string, mode: string, stamp: string): seq<Block> {
    DocxLayout(CleanForExport(query), ModeLabel(mode), stamp, Paragraphs(answer), citations != "", Entries(citations))
  }

  function DocxLayout(question: string, modeLabel: string, stamp: string, paras: seq<string>,
                      cited: bool, entries: seq<string>): seq<Block> {
    DocxHead(question, modeLabel, stamp) + Plain(paras, Normal) + DocxReferences(cited, entries)
  }

  function DocxHead(question: string, modeLabel: string, stamp: string): seq<Block> {
    [ Paragraph(Title, ResponseTitle), Meta(stamp, modeLabel), Paragraph(Normal, ""),
      Paragraph(Heading(1), "Question"), Paragraph(Normal, question),
      Paragraph(Heading(1), "Answer") ]
  }

  function DocxReferences(cited: bool, entries: seq<string>): seq<Block> {
    if !cited then []
    else [Paragraph(Heading(1), "References")] + Plain(entries, ListBullet)
  }

  /** The fixed head of the PDF story holds the question as its one normal
      paragraph, and the Question and Answer headings. */
  lemma {:induction false} PdfHeadTexts(question: string, modeLabel: string, stamp: string)
    ensures TextsIn(PdfHead(question, modeLabel, stamp), Normal) == [question]
    ensures TextsIn(PdfHead(question, modeLabel, stamp), Heading(2)) == ["Question", "Answer"]
  {
    var h := PdfHead(question, modeLabel, stamp);
    TextsOfEight(h, Normal);
    TextsOfEight(h, Heading(2));
  }

  /** The references of a PDF story, by style. */
  lemma {:induction false} PdfReferencesTexts(cited: bool, entries: seq<string>)
    ensures TextsIn(PdfReferences(cited, entries), Normal) == (if cited then entries else [])
    ensures TextsIn(PdfReferences(cited, entries), Heading(2)) == (if cited then ["References"] else [])
  {
    if cited {
      var head: seq<Block> := [Spacer(20), Paragraph(Heading(2), "References")];
      var body := Spaced(entries, Normal, 5);
      TextsInAppend(head, body, Normal);
      TextsInAppend(head, body, Heading(2));
      TextsInSpaced(entries, Normal, 5);
      TextsInSpacedOther(entries, Normal, 5, Heading(2));
      TextsOfTwo(head, Normal);
      TextsOfTwo(head, Heading(2));
    }
  }

  /** By style, the PDF layout holds the question, the paragraphs and, when
      cited, the entries as normal paragraphs, and the Question, Answer and,
      when cited, References headings. */
  lemma {:induction false} PdfLayoutTexts(question: string, modeLabel: string, stamp: string, paras: seq<string>,
                                          cited: bool, entries: seq<string>)
    ensures TextsIn(PdfLayout(question, modeLabel, stamp, paras, cited, entries), Normal)
            == [question] + paras + (if cited then entries else [])
    ensures TextsIn(PdfLayout(question, modeLabel, stamp, paras, cited, entries), Heading(2))
            == ["Question", "Answer"] + (if cited then ["References"] else [])
  {
    var head := PdfHead(question, modeLabel, stamp);
    var body := Spaced(paras, Normal, 10);
    var refs := PdfReferences(cited, entries);
    assert PdfLayout(question, modeLabel, stamp, paras, cited, entries) == head + body + refs;
    TextsInSpaced(paras, Normal, 10);
    TextsInSpacedOther(paras, Normal, 10, Heading(2));
    PdfReferencesTexts(cited, entries);
    PdfHeadTexts(question, modeLabel, stamp);
    TextsInThree(head, body, refs, Normal, [question], paras, if cited then entries else []);
    TextsInThree(head, body, refs, Heading(2), ["Question", "Answer"], [], if cited then ["References"] else []);
  }

  /** The normal paragraphs of the PDF story are the cleaned question, the
      answer paragraphs, and the citation entries when there are citations;
      its headings are Question, Answer, and References exactly when the
      citations are not empty. */
  lemma {:induction false} PdfStoryTexts(query: string, answer: string, citations: string, mode: string, stamp: string)
    ensures TextsIn(PdfStory(query, answer, citations, mode, stamp), Normal)
            == [CleanForExport(query)] + Paragraphs(answer) + (if citations == "" then [] else Entries(citations))
    ensures TextsIn(PdfStory(query, answer, citations, mode, stamp), Heading(2))
            == ["Question", "Answer"] + (if citations == "" then [] else ["References"])
  {
    PdfLayoutTexts(CleanForExport(query), ModeLabel(mode), stamp, Paragraphs(answer), citations != "", Entries(citations));
  }

  /** The fixed head of the DOCX body holds the empty spacer paragraph and the
      question as its normal paragraphs, no bullets, and the Question and
      Answer headings. */
  lemma {:induction false} DocxHeadTexts(question: string, modeLabel: string, stamp: string)
    ensures TextsIn(DocxHead(question, modeLabel, stamp), Normal) == ["", question]
    ensures TextsIn(DocxHead(question, modeLabel, stamp), ListBullet) == []
    ensures TextsIn(DocxHead(question, modeLabel, stamp), Heading(1)) == ["Question", "Answer"]
  {
    var h := DocxHead(question, modeLabel, stamp);
    TextsOfSix(h, Normal);
    TextsOfSix(h, ListBullet);
    TextsOfSix(h, Heading(1));
  }

  /** The references of a DOCX body, by style. */
  lemma {:induction false} DocxReferencesTexts(cited: bool, entries: seq<string>)
    ensures TextsIn(DocxReferences(cited, entries), ListBullet) == (if cited then entries else [])
    ensures TextsIn(DocxReferences(cited, entries), Heading(1)) == (if cited then ["References"] else [])
    ensures TextsIn(DocxReferences(cited, entries), Normal) == []
  {
    if cited {
      var head: seq<Block> := [Paragraph(Heading(1), "References")];
      var body := Plain(entries, ListBullet);
      TextsInAppend(head, body, ListBullet);
      TextsInAppend(head, body, Heading(1));
      TextsInAppend(head, body, Normal);
      TextsInPlain(entries, ListBullet);
      TextsInPlainOther(entries, ListBullet, Heading(1));
      TextsInPlainOther(entries, ListBullet, Normal);
      assert head[0..] == head && head[1..] == [];
      TextsInFrom(head, ListBullet, 0); TextsInFrom(head, Heading(1), 0); TextsInFrom(head, Normal, 0);
    }
  }

  /** By style, the DOCX layout holds the empty spacer paragraph, the
      question and the paragraphs as normal paragraphs, the entries as
      bullets when cited, and the Question, Answer and, when cited,
      References headings. */
  lemma {:induction false} DocxLayoutTexts(question: string, modeLabel: string, stamp: string, paras: seq<string>,
                                           cited: bool, entries: seq<string>)
    ensures TextsIn(DocxLayout(question, modeLabel, stamp, paras, cited, entries), Normal) == ["", question] + paras
    ensures TextsIn(DocxLayout(question, modeLabel, stamp, paras, cited, entries), ListBullet)
            == (if cited then entries else [])
    ensures TextsIn(DocxLayout(question, modeLabel, stamp, paras, cited, entries), Heading(1))
            == ["Question", "Answer"] + (if cited then ["References"] else [])
  {
    var head := DocxHead(question, modeLabel, stamp);
    var body := Plain(paras, Normal);
    var refs := DocxReferences(cited, entries);
    assert DocxLayout(question, modeLabel, stamp, paras, cited, entries) == head + body + refs;
    DocxReferencesTexts(cited, entries);
    DocxHeadTexts(question, modeLabel, stamp);
    TextsInPlain(paras, Normal);
    TextsInPlainOther(paras, Normal, ListBullet);
    TextsInPlainOther(paras, Normal, Heading(1));
    TextsInThree(head, body, refs, Normal, ["", question], paras, []);
    TextsInThree(head, body, refs, ListBullet, [], [], if cited then entries else []);
    TextsInThree(head, body, refs, Heading(1), ["Question", "Answer"], [], if cited then ["References"] else []);
  }

  /** The texts of three lists laid out one after the other, with the texts
      of each named. */
  lemma {:induction false} TextsInThree(a: seq<Block>, b: seq<Block>, c: seq<Block>, style: Style,
                                        x: seq<string>, y: seq<string>, z: seq<string>)
    requires x == TextsIn(a, style) && y == TextsIn(b, style) && z == TextsIn(c, style)
    ensures TextsIn(a + b + c, style) == x + y + z
    ensures y == [] ==> TextsIn(a + b + c, style) == x + z
    ensures z == [] ==> TextsIn(a + b + c, style) == x + y
  {
    TextsInAppend(a + b, c, style);
    TextsInAppend(a, b, style);
    if y == [] {
      assert x + y == x;
    }
    if z == [] {
      assert x + y + z == x + y;
    }
  }

  /** The normal paragraphs of the DOCX body are the empty spacer paragraph,
      the cleaned question and the answer paragraphs; its bullets are the
      citation entries; its level-1 headings are Question, Answer, and
      References exactly when the citations are not empty. */
  lemma {:induction false} DocxBodyTexts(query: string, answer: string, citations: string, mode: string, stamp: string)
    ensures TextsIn(DocxBody(query, answer, citations, mode, stamp), Normal)
            == ["", CleanForExport(query)] + Paragraphs(answer)
    ensures TextsIn(DocxBody(query, answer, citations, mode, stamp), ListBullet)
            == (if citations == "" then [] else Entries(citations))
    ensures TextsIn(DocxBody(query, answer, citations, mode, stamp), Heading(1))
            == ["Question", "Answer"] + (if citations == "" then [] else ["References"])
  {
    DocxLayoutTexts(CleanForExport(query), ModeLabel(mode), stamp, Paragraphs(answer), citations != "", Entries(citations));
  }

  /** Both formats carry the same answer paragraphs and the same entries: the
      PDF's normal paragraphs are the DOCX's normal paragraphs after its empty
      spacer paragraph, followed by its bullets. The story and the body of a
      response are these layouts of the same cleaned pieces. */
  lemma {:induction false} FormatsAgree(question: string, modeLabel: string, stamp: string, paras: seq<string>,
                                        cited: bool, entries: seq<string>)
    ensures [""] + TextsIn(PdfLayout(question, modeLabel, stamp, paras, cited, entries), Normal)
            == TextsIn(DocxLayout(question, modeLabel, stamp, paras, cited, entries), Normal)
               + TextsIn(DocxLayout(question, modeLabel, stamp, paras, cited, entries), ListBullet)
  {
    PdfLayoutTexts(question, modeLabel, stamp, paras, cited, entries);
    DocxLayoutTexts(question, modeLabel, stamp, paras, cited, entries);
    ConsRegroup("", question, paras, if cited then entries else []);
  }

  lemma {:induction false} ConsRegroup(a: string, b: string, ps: seq<string>, es: seq<string>)
    ensures [a] + ([b] + ps + es) == ([a, b] + ps) + es
  {
    assert [a] + [b] == [a, b];
  }

  /** The two exports of one response carry the same answer paragraphs and
      the same citation entries. */
  lemma {:induction false} ResponseFormatsAgree(query: string, answer: string, citations: string, mode: string,
                                                stamp: string)
    ensures [""] + TextsIn(PdfStory(query, answer, citations, mode, stamp), Normal)
            == TextsIn(DocxBody(query, answer, citations, mode, stamp), Normal)
               + TextsIn(DocxBody(query, answer, citations, mode, stamp), ListBullet)
  {
    FormatsAgree(CleanForExport(query), ModeLabel(mode), stamp, Paragraphs(answer), citations != "", Entries(citations));
  }

  // ---------------------------------------------------------------------------
  // Output file names
  // ---------------------------------------------------------------------------

  /** The timestamp as the default file names carry it:
      `get_timestamp().replace(':', '-').replace(' ', '_')`. */
  function FileStamp(now: DateTime): string {
    ReplaceChar(ReplaceChar(Timestamp(now), ':', '-'), ' ', '_')
  }

  /** `if not filename: filename = f"{prefix}{stamp}{ext}"`: a missing or empty
      name is replaced by the default one; any other name is used as given. */
  function OutputName(filename: Option<string>, prefix: string, ext: string, now: DateTime): (r: string)
    ensures filename.Some? && filename.value != "" ==> r == filename.value
    ensures filename.None? || filename.value == "" ==>
              r == prefix + FileStamp(now) + ext
              && |r| >= |prefix| + |ext| && r[..|prefix|] == prefix && EndsWith(r, ext)
  {
    match filename
    case Some(f) => if f != "" then f else prefix + FileStamp(now) + ext
    case None => prefix + FileStamp(now) + ext
  }

  /** The stamp in a file name is 19 characters: digits, with `-` where the
      date and the time had their separators and `_` where the space was, so
      it holds neither a colon nor a space. */
  lemma {:induction false} FileStampLayout(now: DateTime)
    requires ValidDateTime(now)
    ensures var s := FileStamp(now);
            && |s| == 19
            && s[4] == '-' && s[7] == '-' && s[10] == '_' && s[13] == '-' && s[16] == '-'
            && (forall k :: 0 <= k < 19 && k !in {4, 7, 10, 13, 16} ==> IsDigit(s[k]))
            && ':' !in s && ' ' !in s
  {
    TimestampLayout(now);
  }

  /** A default file name is the prefix, the 19-character stamp and the
      extension; with a prefix and an extension free of colons and spaces,
      the name has neither, and the stamp sits right after the prefix. */
  lemma {:induction false} DefaultNameLayout(prefix: string, ext: string, now: DateTime)
    requires ValidDateTime(now)
    ensures var n := OutputName(None, prefix, ext, now);
            && n == prefix + FileStamp(now) + ext
            && |n| == |prefix| + 19 + |ext|
            && n[|prefix|..|prefix| + 19] == FileStamp(now)
            && (':' !in prefix && ':' !in ext ==> ':' !in n)
            && (' ' !in prefix && ' ' !in ext ==> ' ' !in n)
  {
    FileStampLayout(now);
    var n := OutputName(None, prefix, ext, now);
    assert n[|prefix|..|prefix| + 19] == FileStamp(now);
  }

  /** Default names taken at two valid times that differ in their timestamp
      differ: the name is fixed by the second the export ran. */
  lemma {:induction false} DefaultNamesDistinguish(prefix: string, ext: string, a: DateTime, b: DateTime)
    requires ValidDateTime(a) && ValidDateTime(b)
    requires OutputName(None, prefix, ext, a) == OutputName(None, prefix, ext, b)
    ensures Timestamp(a) == Timestamp(b)
  {
    DefaultNameLayout(prefix, ext, a);
    DefaultNameLayout(prefix, ext, b);
    FileStampDistinguishes(a, b);
  }

  /** Every default export name is 32 to 37 characters, without a colon or a
      space, so it is a plain file name on every common file system. */
  lemma {:induction false} DefaultExportNames(now: DateTime)
    requires ValidDateTime(now)
    ensures var n := OutputName(None, "response_", ".pdf", now);
            n == "response_" + FileStamp(now) + ".pdf" && |n| == 32 && ':' !in n && ' ' !in n
    ensures var n := OutputName(None, "response_", ".docx", now);
            n == "response_" + FileStamp(now) + ".docx" && |n| == 33 && ':' !in n && ' ' !in n
    ensures var n := OutputName(None, "chat_history_", ".pdf", now);
            n == "chat_history_" + FileStamp(now) + ".pdf" && |n| == 36 && ':' !in n && ' ' !in n
    ensures var n := OutputName(None, "chat_history_", ".docx", now);
            n == "chat_history_" + FileStamp(now) + ".docx" && |n| == 37 && ':' !in n && ' ' !in n
  {
    PlainName("response_", ".pdf", now, OutputName(None, "response_", ".pdf", now));
    PlainName("response_", ".docx", now, OutputName(None, "response_", ".docx", now));
    PlainName("chat_history_", ".pdf", now, OutputName(None, "chat_history_", ".pdf", now));
    PlainName("chat_history_", ".docx", now, OutputName(None, "chat_history_", ".docx", now));
  }

  lemma {:induction false} PlainName(prefix: string, ext: string, now: DateTime, n: string)
    requires ValidDateTime(now)
    requires ':' !in prefix && ':' !in ext && ' ' !in prefix && ' ' !in ext
    requires n == prefix + FileStamp(now) + ext
    ensures |n| == |prefix| + 19 + |ext| && ':' !in n && ' ' !in n
  {
    FileStampLayout(now);
  }

  /** Put the colons and the space back where the timestamp has them. */
  function RestoreStamp(s: string): (r: string)
    ensures |r| == |s|
  {
    seq(|s|, k requires 0 <= k < |s| => if k == 10 then ' ' else if k == 13 || k == 16 then ':' else s[k])
  }

  /** The file-name stamp loses nothing: the timestamp is recovered from it. */
  lemma {:induction false} FileStampRestores(now: DateTime)
    requires ValidDateTime(now)
    ensures RestoreStamp(FileStamp(now)) == Timestamp(now)
  {
    TimestampLayout(now);
    FileStampLayout(now);
    var t := Timestamp(now);
    var r := RestoreStamp(FileStamp(now));
    forall k | 0 <= k < 19 ensures r[k] == t[k] {
      if k !in {4, 7, 10, 13, 16} {
        assert IsDigit(t[k]);
      }
    }
  }

  /** Two valid times with the same file-name stamp have the same timestamp. */
  lemma {:induction false} FileStampDistinguishes(a: DateTime, b: DateTime)
    requires ValidDateTime(a) && ValidDateTime(b) && FileStamp(a) == FileStamp(b)
    ensures Timestamp(a) == Timestamp(b)
  {
    FileStampRestores(a);
    FileStampRestores(b);
  }

  // ---------------------------------------------------------------------------
  // export_to_pdf, export_to_docx
  // ---------------------------------------------------------------------------

  /** What an export produces: the file name under the export directory and
      the document laid out for it. */
  datatype Document = Pdf(story: seq<Block>) | Docx(body: seq<Block>)
  datatype Exported = Exported(fileName: string, document: Document)

  /** `export_to_pdf` with the clock reading `now`. */
  function ExportToPdf(query: string, answer: string, citations: string, mode: string,
                       filename: Option<string>, now: DateTime): (r: Exported)
    ensures r.document.Pdf?
    ensures filename.Some? && filename.value != "" ==> r.fileName == filename.value
    ensures filename.None? || filename.value == "" ==>
              r.fileName == "response_" + FileStamp(now) + ".pdf"
              && |r.fileName| >= 13 && r.fileName[..9] == "response_" && EndsWith(r.fileName, ".pdf")
  {
    Exported(OutputName(filename, "response_", ".pdf", now),
             Pdf(PdfStory(query, answer, citations, mode, Timestamp(now))))
  }

  /** `export_to_docx` with the clock reading `now`. */
  function ExportToDocx(query: string, answer: string, citations: string, mode: string,
                        filename: Option<string>, now: DateTime): (r: Exported)
    ensures r.document.Docx?
    ensures filename.Some? && filename.value != "" ==> r.fileName == filename.value
    ensures filename.None? || filename.value == "" ==>
              r.fileName == "response_" + FileStamp(now) + ".docx"
              && |r.fileName| >= 14 && r.fileName[..9] == "response_" && EndsWith(r.fileName, ".docx")
  {
    Exported(OutputName(filename, "response_", ".docx", now),
             Docx(DocxBody(query, answer, citations, mode, Timestamp(now))))
  }

  // ---------------------------------------------------------------------------
  // export_chat_history
  // ---------------------------------------------------------------------------

  /** One chat exchange; `citations` is None when the key is missing. */
  datatype Item = Item(query: string, answer: string, citations: Option<string>)

  /** `item.get('citations')` is truthy. */
  predicate Cited(item: Item) {
    item.citations.Some? && item.citations.value != ""
  }

  /** The truthy citations of the history, in order. */
  function CitationsOf(items: seq<Item>): (r: seq<string>)
    ensures |r| <= |items|
    decreases |items|
  {
    if |items| == 0 then []
    else (if Cited(items[0]) then [items[0].citations.value] else []) + CitationsOf(items[1..])
  }

  /** Exchange `i` (counting from 1) of the PDF history: the numbered question
      and answer, the citations in italics when present, and a gap. */
  function HistoryPdfEntry(i: nat, item: Item): seq<Block> {
    [ Paragraph(Normal, "<b>Q" + NatToString(i) + ":</b> " + item.query), Spacer(10),
      Paragraph(Normal, "<b>A" + NatToString(i) + ":</b> " + item.answer) ]
    + (if Cited(item) then [Spacer(5), Paragraph(Italic, "<i>" + item.citations.value + "</i>")] else [])
    + [Spacer(20)]
  }

  function HistoryPdfEntries(items: seq<Item>, i: nat): seq<Block>
    decreases |items|
  {
    if |items| == 0 then [] else HistoryPdfEntry(i, items[0]) + HistoryPdfEntries(items[1..], i + 1)
  }

  /** `_export_history_pdf`: title, generation time, a gap, then the exchanges
      numbered from 1. */
  function HistoryPdf(items: seq<Item>, stamp: string): seq<Block> {
    [Paragraph(Title, HistoryTitle), Paragraph(Normal, "Generated: " + stamp), Spacer(30)]
    + HistoryPdfEntries(items, 1)
  }

  /** Exchange `i` of the DOCX history: numbered Question and Answer headings
      over the texts, the citations as an intense quote when present, and an
      empty paragraph. */
  function HistoryDocxEntry(i: nat, item: Item): seq<Block> {
    [ Paragraph(Heading(2), "Question " + NatToString(i)), Paragraph(Normal, item.query),
      Paragraph(Heading(2), "Answer " + NatToString(i)), Paragraph(Normal, item.answer) ]
    + (if Cited(item) then [Paragraph(IntenseQuote, item.citations.value)] else [])
    + [Paragraph(Normal, "")]
  }

  function HistoryDocxEntries(items: seq<Item>, i: nat): seq<Block>
    decreases |items|
  {
    if |items| == 0 then [] else HistoryDocxEntry(i, items[0]) + HistoryDocxEntries(items[1..], i + 1)
  }

  /** `_export_history_docx`: title, generation time, then the exchanges
      numbered from 1. */
  function HistoryDocx(items: seq<Item>, stamp: string): seq<Block> {
    [Paragraph(Title, HistoryTitle), Paragraph(Normal, "Generated: " + stamp)] + HistoryDocxEntries(items, 1)
  }

  /** `export_chat_history`: exactly the format `'pdf'` gives a PDF; any other
      format string gives a DOCX. */
  function ExportChatHistory(items: seq<Item>, format: string, filename: Option<string>, now: DateTime): (r: Exported)
    ensures r.document.Pdf? <==> format == "pdf"
    ensures filename.Some? && filename.value != "" ==> r.fileName == filename.value
    ensures filename.None? || filename.value == "" ==>
              r.fileName == "chat_history_" + FileStamp(now) + (if format == "pdf" then ".pdf" else ".docx")
              && |r.fileName| >= 13 && r.fileName[..13] == "chat_history_"
              && EndsWith(r.fileName, if format == "pdf" then ".pdf" else ".docx")
  {
    if format == "pdf" then
      Exported(OutputName(filename, "chat_history_", ".pdf", now), Pdf(HistoryPdf(items, Timestamp(now))))
    else
      Exported(OutputName(filename, "chat_history_", ".docx", now), Docx(HistoryDocx(items, Timestamp(now))))
  }

  /** The format test is exact: an upper-case "PDF" exports a DOCX. */
  lemma {:induction false} HistoryFormatIsExact(items: seq<Item>, now: DateTime)
    ensures ExportChatHistory(items, "PDF", None, now).document.Docx?
  {
    assert "PDF" != "pdf" by { assert "PDF"[0] != "pdf"[0]; }
  }

  /** The headings and quotes of one DOCX exchange. */
  lemma {:induction false} DocxEntryTexts(i: nat, item: Item)
    ensures TextsIn(HistoryDocxEntry(i, item), Heading(2)) == ["Question " + NatToString(i), "Answer " + NatToString(i)]
    ensures TextsIn(HistoryDocxEntry(i, item), IntenseQuote) == (if Cited(item) then [item.citations.value] else [])
  {
    var a := [ Paragraph(Heading(2), "Question " + NatToString(i)), Paragraph(Normal, item.query),
               Paragraph(Heading(2), "Answer " + NatToString(i)), Paragraph(Normal, item.answer) ];
    var b := if Cited(item) then [Paragraph(IntenseQuote, item.citations.value)] else [];
    var c := [Paragraph(Normal, "")];
    assert HistoryDocxEntry(i, item) == a + b + c;
    DocxEntryStyle(a, b, c, Heading(2));
    DocxEntryStyle(a, b, c, IntenseQuote);
    if Cited(item) {
      TextsOfOne(b, Heading(2));
      TextsOfOne(b, IntenseQuote);
    }
  }

  lemma {:induction false} DocxEntryStyle(a: seq<Block>, b: seq<Block>, c: seq<Block>, style: Style)
    requires |a| == 4 && |c| == 1
    ensures TextsIn(a + b + c, style)
            == (TextIn(a[0], style) + (TextIn(a[1], style) + (TextIn(a[2], style) + TextIn(a[3], style))))
               + TextsIn(b, style) + TextIn(c[0], style)
  {
    TextsInAppend(a + b, c, style);
    TextsInAppend(a, b, style);
    TextsOfFour(a, style);
    TextsOfOne(c, style);
  }

  /** The heading pairs of `n` exchanges numbered from `i`. */
  function HeadingPairs(n: nat, i: nat): seq<string>
    decreases n
  {
    if n == 0 then [] else ["Question " + NatToString(i), "Answer " + NatToString(i)] + HeadingPairs(n - 1, i + 1)
  }

  /** The heading pairs by position: pair `k` carries the number `i + k`. */
  lemma {:induction false} HeadingPairsAt(n: nat, i: nat)
    ensures var hs := HeadingPairs(n, i);
            && |hs| == 2 * n
            && forall k :: 0 <= k < n ==>
                 hs[2 * k] == "Question " + NatToString(i + k) && hs[2 * k + 1] == "Answer " + NatToString(i + k)
  {
    HeadingPairsLength(n, i);
    forall k | 0 <= k < n
      ensures HeadingPairs(n, i)[2 * k] == "Question " + NatToString(i + k)
      ensures HeadingPairs(n, i)[2 * k + 1] == "Answer " + NatToString(i + k)
    {
      HeadingPairAt(n, i, k);
    }
  }

  lemma {:induction false} HeadingPairsLength(n: nat, i: nat)
    ensures |HeadingPairs(n, i)| == 2 * n
    decreases n
  {
    if n > 0 {
      HeadingPairsLength(n - 1, i + 1);
    }
  }

  lemma {:induction false} HeadingPairAt(n: nat, i: nat, k: nat)
    requires k < n
    ensures |HeadingPairs(n, i)| == 2 * n
    ensures HeadingPairs(n, i)[2 * k] == "Question " + NatToString(i + k)
    ensures HeadingPairs(n, i)[2 * k + 1] == "Answer " + NatToString(i + k)
  {
    HeadingPairsLength(n, i);
    HeadingPairOf(n, i, k, HeadingPairs(n, i));
  }

  /** `HeadingPairAt` for the heading pairs `hs`. */
  lemma {:induction false} HeadingPairOf(n: nat, i: nat, k: nat, hs: seq<string>)
    requires k < n && hs == HeadingPairs(n, i) && |hs| == 2 * n
    ensures hs[2 * k] == "Question " + NatToString(i + k)
    ensures hs[2 * k + 1] == "Answer " + NatToString(i + k)
    decreases k
  {
    var rest := HeadingPairs(n - 1, i + 1);
    assert hs == ["Question " + NatToString(i), "Answer " + NatToString(i)] + rest;
    if k > 0 {
      HeadingPairsLength(n - 1, i + 1);
      HeadingPairOf(n - 1, i + 1, k - 1, rest);
      assert hs[2 * k] == rest[2 * (k - 1)];
      assert hs[2 * k + 1] == rest[2 * (k - 1) + 1];
    }
  }

  /** The headings of the DOCX exchanges from number `i` on. */
  lemma {:induction false} DocxEntriesHeadings(items: seq<Item>, i: nat)
    ensures TextsIn(HistoryDocxEntries(items, i), Heading(2)) == HeadingPairs(|items|, i)
    decreases |items|
  {
    if |items| > 0 {
      TextsInAppend(HistoryDocxEntry(i, items[0]), HistoryDocxEntries(items[1..], i + 1), Heading(2));
      DocxEntryTexts(i, items[0]);
      DocxEntriesHeadings(items[1..], i + 1);
    }
  }

  /** The DOCX history numbers its exchanges from 1, in order. */
  lemma {:induction false} HistoryDocxNumbering(items: seq<Item>, stamp: string)
    ensures var hs := TextsIn(HistoryDocx(items, stamp), Heading(2));
            && |hs| == 2 * |items|
            && forall k :: 0 <= k < |items| ==>
                 hs[2 * k] == "Question " + NatToString(k + 1) && hs[2 * k + 1] == "Answer " + NatToString(k + 1)
  {
    var head: seq<Block> := [Paragraph(Title, HistoryTitle), Paragraph(Normal, "Generated: " + stamp)];
    TextsInAppend(head, HistoryDocxEntries(items, 1), Heading(2));
    TextsOfTwo(head, Heading(2));
    DocxEntriesHeadings(items, 1);
    HeadingPairsAt(|items|, 1);
  }

  /** The quotes of the DOCX exchanges are the truthy citations, in order. */
  lemma {:induction false} DocxEntriesQuotes(items: seq<Item>, i: nat)
    ensures TextsIn(HistoryDocxEntries(items, i), IntenseQuote) == CitationsOf(items)
    decreases |items|
  {
    if |items| > 0 {
      TextsInAppend(HistoryDocxEntry(i, items[0]), HistoryDocxEntries(items[1..], i + 1), IntenseQuote);
      DocxEntryTexts(i, items[0]);
      DocxEntriesQuotes(items[1..], i + 1);
    }
  }

  /** Exactly the exchanges with truthy citations get an intense quote, in order. */
  lemma {:induction false} HistoryDocxQuotes(items: seq<Item>, stamp: string)
    ensures TextsIn(HistoryDocx(items, stamp), IntenseQuote) == CitationsOf(items)
  {
    var head: seq<Block> := [Paragraph(Title, HistoryTitle), Paragraph(Normal, "Generated: " + stamp)];
    TextsInAppend(head, HistoryDocxEntries(items, 1), IntenseQuote);
    TextsOfTwo(head, IntenseQuote);
    DocxEntriesQuotes(items, 1);
  }

  /** Each citation wrapped in italics markup, `f"<i>{citations}</i>"`. */
  function Italicized(cs: seq<string>): (r: seq<string>)
    ensures |r| == |cs|
    decreases |cs|
  {
    if |cs| == 0 then [] else ["<i>" + cs[0] + "</i>"] + Italicized(cs[1..])
  }

  /** The question and answer lines of `items` numbered from `i`. */
  function NumberedLines(items: seq<Item>, i: nat): seq<string>
    decreases |items|
  {
    if |items| == 0 then []
    else ["<b>Q" + NatToString(i) + ":</b> " + items[0].query, "<b>A" + NatToString(i) + ":</b> " + items[0].answer]
         + NumberedLines(items[1..], i + 1)
  }

  /** The normal and italic paragraphs of one PDF exchange. */
  lemma {:induction false} PdfEntryTexts(i: nat, item: Item)
    ensures TextsIn(HistoryPdfEntry(i, item), Normal)
            == ["<b>Q" + NatToString(i) + ":</b> " + item.query, "<b>A" + NatToString(i) + ":</b> " + item.answer]
    ensures TextsIn(HistoryPdfEntry(i, item), Italic)
            == (if Cited(item) then ["<i>" + item.citations.value + "</i>"] else [])
  {
    var a := [ Paragraph(Normal, "<b>Q" + NatToString(i) + ":</b> " + item.query), Spacer(10),
               Paragraph(Normal, "<b>A" + NatToString(i) + ":</b> " + item.answer) ];
    var b := if Cited(item) then [Spacer(5), Paragraph(Italic, "<i>" + item.citations.value + "</i>")] else [];
    var c := [Spacer(20)];
    assert HistoryPdfEntry(i, item) == a + b + c;
    PdfEntryStyle(a, b, c, Normal);
    PdfEntryStyle(a, b, c, Italic);
    if Cited(item) {
      TextsOfTwo(b, Normal);
      TextsOfTwo(b, Italic);
    }
  }

  lemma {:induction false} PdfEntryStyle(a: seq<Block>, b: seq<Block>, c: seq<Block>, style: Style)
    requires |a| == 3 && |c| == 1
    ensures TextsIn(a + b + c, style)
            == (TextIn(a[0], style) + (TextIn(a[1], style) + TextIn(a[2], style))) + TextsIn(b, style) + TextIn(c[0], style)
  {
    TextsInAppend(a + b, c, style);
    TextsInAppend(a, b, style);
    TextsOfThree(a, style);
    TextsOfOne(c, style);
  }

  lemma {:induction false} PdfEntriesTexts(items: seq<Item>, i: nat)
    ensures TextsIn(HistoryPdfEntries(items, i), Normal) == NumberedLines(items, i)
    ensures TextsIn(HistoryPdfEntries(items, i), Italic) == Italicized(CitationsOf(items))
    decreases |items|
  {
    if |items| > 0 {
      var first := HistoryPdfEntry(i, items[0]);
      var rest := HistoryPdfEntries(items[1..], i + 1);
      TextsInAppend(first, rest, Normal);
      TextsInAppend(first, rest, Italic);
      PdfEntryTexts(i, items[0]);
      PdfEntriesTexts(items[1..], i + 1);
      var cs := CitationsOf(items[1..]);
      if Cited(items[0]) {
        var c := items[0].citations.value;
        assert CitationsOf(items) == [c] + cs;
        assert ([c] + cs)[1..] == cs;
        assert Italicized([c] + cs) == ["<i>" + c + "</i>"] + Italicized(cs);
      } else {
        assert CitationsOf(items) == cs;
      }
    }
  }

  /** Line `2k` and `2k + 1` of the numbered lines are the question and the
      answer of exchange `k`, numbered `i + k`. */
  lemma {:induction false} NumberedLineAt(items: seq<Item>, i: nat, k: nat)
    requires k < |items|
    ensures |NumberedLines(items, i)| == 2 * |items|
    ensures NumberedLines(items, i)[2 * k] == "<b>Q" + NatToString(i + k) + ":</b> " + items[k].query
    ensures NumberedLines(items, i)[2 * k + 1] == "<b>A" + NatToString(i + k) + ":</b> " + items[k].answer
  {
    NumberedLinesLength(items, i);
    NumberedLineOf(items, i, k, NumberedLines(items, i));
  }

  /** `NumberedLineAt` for the numbered lines `ls`. */
  lemma {:induction false} NumberedLineOf(items: seq<Item>, i: nat, k: nat, ls: seq<string>)
    requires k < |items| && ls == NumberedLines(items, i) && |ls| == 2 * |items|
    ensures ls[2 * k] == "<b>Q" + NatToString(i + k) + ":</b> " + items[k].query
    ensures ls[2 * k + 1] == "<b>A" + NatToString(i + k) + ":</b> " + items[k].answer
    decreases k
  {
    var rest := NumberedLines(items[1..], i + 1);
    assert ls == ["<b>Q" + NatToString(i) + ":</b> " + items[0].query,
                  "<b>A" + NatToString(i) + ":</b> " + items[0].answer] + rest;
    if k > 0 {
      NumberedLinesLength(items[1..], i + 1);
      NumberedLineOf(items[1..], i + 1, k - 1, rest);
      assert ls[2 * k] == rest[2 * (k - 1)];
      assert ls[2 * k + 1] == rest[2 * (k - 1) + 1];
      assert items[1..][k - 1] == items[k];
    }
  }

  lemma {:induction false} NumberedLinesLength(items: seq<Item>, i: nat)
    ensures |NumberedLines(items, i)| == 2 * |items|
    decreases |items|
  {
    if |items| > 0 {
      NumberedLinesLength(items[1..], i + 1);
    }
  }

  /** The PDF history: after the generation line, its normal paragraphs are
      the questions and answers, exchange `k` numbered `k + 1`; its italic
      paragraphs are the truthy citations in italics markup, in order. */
  lemma {:induction false} HistoryPdfTexts(items: seq<Item>, stamp: string)
    ensures var ns := TextsIn(HistoryPdf(items, stamp), Normal);
            && |ns| == 1 + 2 * |items|
            && ns[0] == "Generated: " + stamp
            && forall k :: 0 <= k < |items| ==>
                 && ns[1 + 2 * k] == "<b>Q" + NatToString(k + 1) + ":</b> " + items[k].query
                 && ns[2 + 2 * k] == "<b>A" + NatToString(k + 1) + ":</b> " + items[k].answer
    ensures TextsIn(HistoryPdf(items, stamp), Italic) == Italicized(CitationsOf(items))
  {
    HistoryPdfParts(items, stamp);
    NumberedLinesLength(items, 1);
    var ns := TextsIn(HistoryPdf(items, stamp), Normal);
    forall k | 0 <= k < |items|
      ensures ns[1 + 2 * k] == "<b>Q" + NatToString(k + 1) + ":</b> " + items[k].query
      ensures ns[2 + 2 * k] == "<b>A" + NatToString(k + 1) + ":</b> " + items[k].answer
    {
      NumberedLineAt(items, 1, k);
    }
  }

  /** The PDF history's texts by style: the generation line, then the
      numbered lines; the italicized citations. */
  lemma {:induction false} HistoryPdfParts(items: seq<Item>, stamp: string)
    ensures TextsIn(HistoryPdf(items, stamp), Normal) == ["Generated: " + stamp] + NumberedLines(items, 1)
    ensures TextsIn(HistoryPdf(items, stamp), Italic) == Italicized(CitationsOf(items))
  {
    var head: seq<Block> := [Paragraph(Title, HistoryTitle), Paragraph(Normal, "Generated: " + stamp), Spacer(30)];
    var body := HistoryPdfEntries(items, 1);
    assert HistoryPdf(items, stamp) == head + body;
    TextsOfThree(head, Normal);
    TextsOfThree(head, Italic);
    assert TextsIn(head, Normal) == ["Generated: " + stamp];
    assert TextsIn(head, Italic) == [];
    PdfEntriesTexts(items, 1);
    TextsInTwo(head, body, Normal, ["Generated: " + stamp], NumberedLines(items, 1));
    TextsInTwo(head, body, Italic, [], Italicized(CitationsOf(items)));
  }

  /** The texts of two lists laid out one after the other, with the texts of
      each named. */
  lemma {:induction false} TextsInTwo(a: seq<Block>, b: seq<Block>, style: Style, x: seq<string>, y: seq<string>)
    requires x == TextsIn(a, style) && y == TextsIn(b, style)
    ensures TextsIn(a + b, style) == x + y
    ensures x == [] ==> TextsIn(a + b, style) == y
  {
    TextsInAppend(a, b, style);
    if x == [] {
      assert x + y == y;
    }
  }
}

=== FILE: helpers.dfy ===
/**
 The string helpers of the application: text cleaning of extracted PDF text,
 citation formatting, the PDF suffix check, the readable timestamp, truncation
 with an ellipsis and the book name of a path.
 */
module Helpers {
  import opened Text

  // ---------------------------------------------------------------------------
  // clean_text
  // ---------------------------------------------------------------------------

  /** Characters `k` and `k + 1` of `s` are both whitespace. */
  predicate SpacePairAt(s: string, k: int) {
    0 <= k && k + 1 < |s| && IsSpace(s[k]) && IsSpace(s[k + 1])
  }

  /** No two neighbouring characters are both whitespace. */
  predicate NoAdjacentSpace(s: string) {
    forall k :: 0 <= k < |s| ==> !SpacePairAt(s, k)
  }

  /** Every whitespace character is a plain space. */
  predicate OnlyPlainSpaces(s: string) {
    forall k :: 0 <= k < |s| ==> IsSpace(s[k]) ==> s[k] == ' '
  }

  /** The non-whitespace characters of `s`, in order. */
  function NonSpace(s: string): string
    decreases |s|
  {
    if |s| == 0 then [] else (if IsSpace(s[0]) then [] else [s[0]]) + NonSpace(s[1..])
  }

  /** `re.sub(r'\s+', ' ', s)`: every maximal whitespace run becomes one space. */
  function CollapseWhitespace(s: string): (r: string)
    ensures OnlyPlainSpaces(r)
    ensures NoAdjacentSpace(r)
    ensures |r| > 0 <==> |s| > 0
    ensures |r| > 0 ==> (IsSpace(r[0]) <==> IsSpace(s[0]))
    decreases |s|
  {
    if |s| == 0 then []
    else if IsSpace(s[0]) then
      StripLeftShorter(s);
      var rest := StripLeft(s);
      var c := CollapseWhitespace(rest);
      ConsKeepsShape(' ', c);
      " " + c
    else
      var c := CollapseWhitespace(s[1..]);
      ConsKeepsShape(s[0], c);
      [s[0]] + c
  }

  /** Putting one character in front of a collapsed text keeps it collapsed,
      unless it makes a new pair of whitespace characters. */
  lemma {:induction false} ConsKeepsShape(h: char, c: string)
    requires NoAdjacentSpace(c) && OnlyPlainSpaces(c)
    requires IsSpace(h) ==> h == ' ' && (c == [] || !IsSpace(c[0]))
    ensures NoAdjacentSpace([h] + c) && OnlyPlainSpaces([h] + c)
  {
    var t := [h] + c;
    forall k | 0 <= k < |t| ensures !SpacePairAt(t, k) {
      if k > 0 {
        assert t[k] == c[k - 1];
        assert !SpacePairAt(c, k - 1);
      }
    }
  }

  /** Leading decimal digits of `s`. */
  function DigitRun(s: string): (n: nat)
    ensures n <= |s|
    ensures forall k :: 0 <= k < n ==> IsDigit(s[k])
    ensures n == |s| || !IsDigit(s[n])
    decreases |s|
  {
    if |s| > 0 && IsDigit(s[0]) then 1 + DigitRun(s[1..]) else 0
  }

  /** `re.sub(r'\n\d+\n', '\n', s)`, scanning left to right. */
  function DropPageNumbers(s: string): string
    decreases |s|
  {
    if |s| == 0 then s
    else if s[0] == '\n' then
      var n := DigitRun(s[1..]);
      if n > 0 && n + 1 < |s| && s[n + 1] == '\n' then "\n" + DropPageNumbers(s[n + 2..])
      else [s[0]] + DropPageNumbers(s[1..])
    else [s[0]] + DropPageNumbers(s[1..])
  }

  /** Leading newlines of `s`. */
  function NewlineRun(s: string): (n: nat)
    ensures n <= |s|
    ensures forall k :: 0 <= k < n ==> s[k] == '\n'
    ensures n == |s| || s[n] != '\n'
    decreases |s|
  {
    if |s| > 0 && s[0] == '\n' then 1 + NewlineRun(s[1..]) else 0
  }

  /** `re.sub(r'\n{3,}', '\n\n', s)`: runs of three or more newlines become two. */
  function SqueezeNewlines(s: string): string
    decreases |s|
  {
    if |s| == 0 then s
    else if s[0] == '\n' then
      var n := NewlineRun(s);
      (if n >= 3 then "\n\n" else s[..n]) + SqueezeNewlines(s[n..])
    else [s[0]] + SqueezeNewlines(s[1..])
  }

  /** `clean_text`: the four passes of utils/helpers.py in order. */
  function CleanText(s: string): (r: string)
    ensures '\n' !in r
    ensures r == [] || (!IsSpace(r[0]) && !IsSpace(r[|r| - 1]))
    ensures NoAdjacentSpace(r) && OnlyPlainSpaces(r)
    ensures r == [] <==> IsBlank(s)
  {
    var c := CollapseWhitespace(s);
    var d := SqueezeNewlines(DropPageNumbers(c));
    var r := Strip(d);
    CleanFacts(s, c, d, r);
    r
  }

  /** What the passes of `clean_text` guarantee, with the intermediate texts
      named. */
  lemma {:induction false} CleanFacts(s: string, c: string, d: string, r: string)
    requires c == CollapseWhitespace(s)
    requires d == SqueezeNewlines(DropPageNumbers(c))
    requires r == Strip(d)
    ensures d == c
    ensures '\n' !in r
    ensures r == [] || (!IsSpace(r[0]) && !IsSpace(r[|r| - 1]))
    ensures NoAdjacentSpace(r) && OnlyPlainSpaces(r)
    ensures r == [] <==> IsBlank(s)
  {
    NewlinePassesFixed(c, d);
    CollapsedBlank(s);
    StripKeepsShape(c, r);
    StripResult(c, r);
  }

  /** The newline passes leave a text with plain spaces alone. */
  lemma {:induction false} NewlinePassesFixed(c: string, d: string)
    requires OnlyPlainSpaces(c)
    requires d == SqueezeNewlines(DropPageNumbers(c))
    ensures d == c && '\n' !in c
  {
    NoNewlineWhenPlain(c);
    NewlinePassesNoop(c);
  }

  /** The facts of `Strip` for a named result. */
  lemma {:induction false} StripResult(c: string, r: string)
    requires r == Strip(c)
    ensures r == [] || (!IsSpace(r[0]) && !IsSpace(r[|r| - 1]))
    ensures r == [] <==> IsBlank(c)
  {
  }

  /** A text whose whitespace is plain spaces has no newline. */
  lemma {:induction false} NoNewlineWhenPlain(c: string)
    requires OnlyPlainSpaces(c)
    ensures '\n' !in c
  {
    assert IsSpace('\n');
    forall k | 0 <= k < |c| ensures c[k] != '\n' {
      assert IsSpace(c[k]) ==> c[k] == ' ';
    }
  }

  /** A text without newlines is left alone by both newline passes. */
  lemma {:induction false} NewlinePassesNoop(s: string)
    requires '\n' !in s
    ensures DropPageNumbers(s) == s
    ensures SqueezeNewlines(s) == s
    decreases |s|
  {
    if |s| > 0 {
      NewlinePassesNoop(s[1..]);
    }
  }

  /** After whitespace collapsing there is no newline left, so the page-number
      pass and the newline-squeezing pass of `clean_text` never match. */
  lemma {:induction false} PageNumberPassesInert(s: string)
    ensures '\n' !in CollapseWhitespace(s)
    ensures DropPageNumbers(CollapseWhitespace(s)) == CollapseWhitespace(s)
    ensures SqueezeNewlines(CollapseWhitespace(s)) == CollapseWhitespace(s)
  {
    var c := CollapseWhitespace(s);
    NoNewlineWhenPlain(c);
    NewlinePassesNoop(c);
  }

  lemma {:induction false} BlankCons(x: char, c: string)
    ensures IsBlank([x] + c) <==> IsSpace(x) && IsBlank(c)
  {
    if IsBlank([x] + c) {
      assert ([x] + c)[0] == x;
      forall k | 0 <= k < |c| ensures IsSpace(c[k]) {
        assert c[k] == ([x] + c)[k + 1];
      }
    }
    if IsSpace(x) && IsBlank(c) {
      forall k | 0 <= k < |[x] + c| ensures IsSpace(([x] + c)[k]) {
        if k > 0 { assert ([x] + c)[k] == c[k - 1]; }
      }
    }
  }

  /** Collapsing keeps a text blank exactly when it was blank. */
  lemma {:induction false} CollapsedBlank(s: string)
    ensures IsBlank(CollapseWhitespace(s)) <==> IsBlank(s)
    decreases |s|
  {
    if |s| > 0 {
      if IsSpace(s[0]) {
        StripLeftShorter(s);
        var rest := StripLeft(s);
        CollapsedBlank(rest);
        var c := CollapseWhitespace(rest);
        assert CollapseWhitespace(s) == " " + c;
        assert IsBlank(s) <==> rest == [];
        assert IsBlank(rest) <==> rest == [];
        BlankCons(' ', c);
      } else {
        assert !IsSpace(CollapseWhitespace(s)[0]);
      }
    }
  }

  /** Stripping a collapsed text keeps it collapsed. */
  lemma {:induction false} StripKeepsShape(c: string, r: string)
    requires NoAdjacentSpace(c) && OnlyPlainSpaces(c)
    requires r == Strip(c)
    ensures NoAdjacentSpace(r) && OnlyPlainSpaces(r)
    ensures '\n' !in c ==> '\n' !in r
  {
    var i := StripStart(c);
    SliceKeepsShape(c, i, i + |r|, r);
  }

  /** A slice of a collapsed text is still collapsed. */
  lemma {:induction false} SliceKeepsShape(c: string, i: nat, j: nat, r: string)
    requires i <= j <= |c| && r == c[i..j]
    requires NoAdjacentSpace(c) && OnlyPlainSpaces(c)
    ensures NoAdjacentSpace(r) && OnlyPlainSpaces(r)
    ensures '\n' !in c ==> '\n' !in r
  {
    forall k | 0 <= k < |r| ensures !SpacePairAt(r, k) && (IsSpace(r[k]) ==> r[k] == ' ') {
      assert r[k] == c[i + k];
      if k + 1 < |r| {
        assert r[k + 1] == c[i + k + 1];
        assert !SpacePairAt(c, i + k);
      }
    }
    forall k | 0 <= k < |r| ensures r[k] != '\n' || '\n' in c {
      assert r[k] == c[i + k];
    }
  }

  /** `clean_text` is idempotent. */
  lemma {:induction false} CleanTextIdempotent(s: string)
    ensures CleanText(CleanText(s)) == CleanText(s)
  {
    CleanedIsFixed(s, CleanText(s));
  }

  lemma {:induction false} CleanedIsFixed(s: string, t: string)
    requires t == CleanText(s)
    ensures CleanText(t) == t
  {
    CleanTextFixpoint(t);
  }

  /** A text that already has the shape `clean_text` produces is left alone. */
  lemma {:induction false} CleanTextFixpoint(t: string)
    requires t == [] || (!IsSpace(t[0]) && !IsSpace(t[|t| - 1]))
    requires NoAdjacentSpace(t) && OnlyPlainSpaces(t)
    ensures CleanText(t) == t
  {
    var c := CollapseWhitespace(t);
    CollapseOfCollapsed(t, c);
    NewlinePassesFixed(c, SqueezeNewlines(DropPageNumbers(c)));
    StripNoop(t);
  }

  /** `clean_text` changes only whitespace: the non-whitespace characters
      survive, in order. */
  lemma {:induction false} CleanTextKeepsContent(s: string)
    ensures NonSpace(CleanText(s)) == NonSpace(s)
  {
    CleanTextIsStripOfCollapse(s);
    CollapseKeepsContent(s);
    StripKeepsContent(CollapseWhitespace(s));
  }

  /** Because the two newline passes never match, `clean_text` is `strip`
      after whitespace collapsing. */
  lemma {:induction false} CleanTextIsStripOfCollapse(s: string)
    ensures CleanText(s) == Strip(CollapseWhitespace(s))
  {
    PageNumberPassesInert(s);
  }

  lemma {:induction false} StripKeepsContent(c: string)
    ensures NonSpace(Strip(c)) == NonSpace(c)
  {
    StripDecompose(c);
    var i := StripStart(c);
    var r := Strip(c);
    BlankAround(c[..i], r, c[i + |r|..]);
  }

  /** Whitespace around a text does not change its non-whitespace content. */
  lemma {:induction false} BlankAround(a: string, m: string, b: string)
    requires IsBlank(a) && IsBlank(b)
    ensures NonSpace(a + m + b) == NonSpace(m)
  {
    NonSpaceConcat(a, m);
    NonSpaceConcat(a + m, b);
    NonSpaceOfBlank(a);
    NonSpaceOfBlank(b);
  }

  lemma {:induction false} CollapseKeepsContent(s: string)
    ensures NonSpace(CollapseWhitespace(s)) == NonSpace(s)
  {
    CollapseContent(s, CollapseWhitespace(s));
  }

  lemma {:induction false} CollapseContent(s: string, r: string)
    requires r == CollapseWhitespace(s)
    ensures NonSpace(r) == NonSpace(s)
    decreases |s|
  {
    if |s| > 0 {
      if IsSpace(s[0]) {
        StripLeftShorter(s);
        var rest := StripLeft(s);
        var c := CollapseWhitespace(rest);
        CollapseContent(rest, c);
        var n := |s| - |rest|;
        BlankPrefix(s, n);
        SpaceRunContent(s, n, rest, c);
        assert r == " " + c;
      } else {
        var c := CollapseWhitespace(s[1..]);
        CollapseContent(s[1..], c);
        CharContent(s, c);
        assert r == [s[0]] + c;
      }
    }
  }

  /** A whitespace run collapsed to one space keeps the content. */
  lemma {:induction false} SpaceRunContent(s: string, n: nat, rest: string, c: string)
    requires n <= |s| && rest == s[n..] && IsBlank(s[..n])
    requires NonSpace(c) == NonSpace(rest)
    ensures NonSpace(" " + c) == NonSpace(s)
  {
    assert s == s[..n] + rest;
    NonSpaceConcat(s[..n], rest);
    NonSpaceOfBlank(s[..n]);
    NonSpaceConcat(" ", c);
    assert NonSpace(" ") == [];
  }

  /** A kept first character keeps the content. */
  lemma {:induction false} CharContent(s: string, c: string)
    requires |s| > 0 && NonSpace(c) == NonSpace(s[1..])
    ensures NonSpace([s[0]] + c) == NonSpace(s)
  {
    NonSpaceConcat([s[0]], c);
    assert s == [s[0]] + s[1..];
    NonSpaceConcat([s[0]], s[1..]);
  }

  lemma {:induction false} NonSpaceConcat(a: string, b: string)
    ensures NonSpace(a + b) == NonSpace(a) + NonSpace(b)
    decreases |a|
  {
    if |a| > 0 {
      assert (a + b)[1..] == a[1..] + b;
      NonSpaceConcat(a[1..], b);
    } else {
      assert a + b == b;
    }
  }

  lemma {:induction false} NonSpaceOfBlank(a: string)
    requires IsBlank(a)
    ensures NonSpace(a) == []
    decreases |a|
  {
    if |a| > 0 {
      NonSpaceOfBlank(a[1..]);
    }
  }

  /** A non-empty whitespace run in front of a text that does not start with
      whitespace collapses to a single space. */
  lemma {:induction false} CollapseBlankPrefix(g: string, y: string)
    requires |g| > 0 && IsBlank(g)
    requires y == [] || !IsSpace(y[0])
    ensures CollapseWhitespace(g + y) == " " + CollapseWhitespace(y)
  {
    assert (g + y)[0] == g[0];
    StripLeftBlankPrefix(g, y);
    StripLeftKeeps(y);
  }

  /** Collapsing works piece by piece across a boundary that is not inside a
      whitespace run. */
  lemma {:induction false} CollapseAppend(x: string, y: string)
    requires x == [] || !IsSpace(x[|x| - 1])
    ensures CollapseWhitespace(x + y) == CollapseWhitespace(x) + CollapseWhitespace(y)
    decreases |x|
  {
    if x == [] {
      assert x + y == y;
    } else if IsSpace(x[0]) {
      NotBlankAt(x, |x| - 1);
      StripLeftShorter(x);
      var rest := StripLeft(x);
      StripLeftLast(x, rest);
      CollapseSpaceStep(x, y, rest);
      CollapseAppend(rest, y);
      ConcatAssoc(" ", CollapseWhitespace(rest), CollapseWhitespace(y));
    } else {
      CollapseCharStep(x, y);
      CollapseAppend(x[1..], y);
      ConcatAssoc([x[0]], CollapseWhitespace(x[1..]), CollapseWhitespace(y));
    }
  }

  /** One step of collapsing a text, and the same text followed by more,
      that starts with whitespace and is not blank. */
  lemma {:induction false} CollapseSpaceStep(x: string, y: string, rest: string)
    requires |x| > 0 && IsSpace(x[0]) && !IsBlank(x)
    requires rest == StripLeft(x)
    ensures CollapseWhitespace(x + y) == " " + CollapseWhitespace(rest + y)
    ensures CollapseWhitespace(x) == " " + CollapseWhitespace(rest)
  {
    StripLeftAppend(x, y);
    assert (x + y)[0] == x[0];
  }

  /** One step of collapsing a text, and the same text followed by more,
      that starts with something other than whitespace. */
  lemma {:induction false} CollapseCharStep(x: string, y: string)
    requires |x| > 0 && !IsSpace(x[0])
    ensures CollapseWhitespace(x + y) == [x[0]] + CollapseWhitespace(x[1..] + y)
    ensures CollapseWhitespace(x) == [x[0]] + CollapseWhitespace(x[1..])
  {
    assert (x + y)[0] == x[0];
    assert (x + y)[1..] == x[1..] + y;
  }

  /** A text that ends with something other than whitespace still does after
      collapsing. */
  lemma {:induction false} CollapseLast(x: string)
    requires |x| > 0 && !IsSpace(x[|x| - 1])
    ensures var c := CollapseWhitespace(x); |c| > 0 && !IsSpace(c[|c| - 1])
  {
    var init := x[..|x| - 1];
    var last := [x[|x| - 1]];
    SliceJoin(x, |x| - 1);
    assert x[|x| - 1..] == last;
    if init == [] || !IsSpace(init[|init| - 1]) {
      CollapseAppend(init, last);
      CollapseOne(x[|x| - 1]);
    } else {
      // The text ends in whitespace then one last character.
      var keep := StripRight(init);
      var run := init[|keep|..];
      SliceJoin(init, |keep|);
      BlankSuffix(init, |keep|);
      assert |run| > 0;
      ConcatAssoc(keep, run, last);
      CollapseAppend(keep, run + last);
      CollapseBlankPrefix(run, last);
      CollapseOne(x[|x| - 1]);
    }
  }

  lemma {:induction false} CollapseOne(c: char)
    requires !IsSpace(c)
    ensures CollapseWhitespace([c]) == [c]
  {
    assert [c][1..] == [];
  }

  /** `clean_text` keeps words apart: a whitespace gap between two non-blank
      texts becomes exactly one space between their cleaned forms. */
  lemma {:induction false} CleanTextJoin(a: string, g: string, b: string)
    requires !IsBlank(a) && !IsBlank(b)
    requires |g| > 0 && IsBlank(g)
    ensures CleanText(a + g + b) == CleanText(a) + " " + CleanText(b)
  {
    var left := StripRight(a);
    var trail := a[|left|..];
    var right := StripLeft(b);
    var lead := b[..|b| - |right|];
    SplitAtStrips(a, b, left, trail, right, lead);
    var gap := trail + g + lead;
    BlankConcat3(trail, g, lead);
    Regroup(left, trail, g, lead, right);
    var x := CollapseWhitespace(left);
    var y := CollapseWhitespace(right);
    CollapseAppend(left, gap + right);
    CollapseBlankPrefix(gap, right);
    CollapseLast(left);
    StripAroundSpace(x, y);
    CleanTextIsStripOfCollapse(a + g + b);
    CleanedLeft(a, left, trail, x);
    CleanedRight(b, right, lead, y);
    ConcatAssoc(Strip(x), " ", Strip(y));
  }

  /** In particular one whitespace character between two non-blank texts
      becomes one plain space: words are never run together. */
  lemma {:induction false} CleanTextSeparatesWords(a: string, w: char, b: string)
    requires IsSpace(w) && !IsBlank(a) && !IsBlank(b)
    ensures CleanText(a + [w] + b) == CleanText(a) + " " + CleanText(b)
  {
    CleanTextJoin(a, [w], b);
  }

  /** A non-blank text is what `rstrip` keeps followed by trailing whitespace,
      and what `lstrip` keeps preceded by leading whitespace. */
  lemma {:induction false} SplitAtStrips(a: string, b: string, left: string, trail: string,
                                         right: string, lead: string)
    requires !IsBlank(a) && !IsBlank(b)
    requires left == StripRight(a) && trail == a[|left|..]
    requires right == StripLeft(b) && lead == b[..|b| - |right|]
    ensures a == left + trail && IsBlank(trail) && |left| > 0 && !IsSpace(left[|left| - 1])
    ensures b == lead + right && IsBlank(lead) && |right| > 0 && !IsSpace(right[0])
  {
    SplitAtRightStrip(a, left, trail);
    SplitAtLeftStrip(b, right, lead);
  }

  lemma {:induction false} SplitAtRightStrip(a: string, left: string, trail: string)
    requires !IsBlank(a)
    requires left == StripRight(a) && trail == a[|left|..]
    ensures a == left + trail && IsBlank(trail) && |left| > 0 && !IsSpace(left[|left| - 1])
  {
    BlankSuffix(a, |left|);
    SliceJoin(a, |left|);
    var k :| 0 <= k < |a| && !IsSpace(a[k]);
    assert k < |left|;
  }

  lemma {:induction false} SplitAtLeftStrip(b: string, right: string, lead: string)
    requires !IsBlank(b)
    requires right == StripLeft(b) && lead == b[..|b| - |right|]
    ensures b == lead + right && IsBlank(lead) && |right| > 0 && !IsSpace(right[0])
  {
    BlankPrefix(b, |b| - |right|);
    SliceJoin(b, |b| - |right|);
    var k :| 0 <= k < |b| && !IsSpace(b[k]);
    assert k >= |b| - |right|;
  }

  lemma {:induction false} BlankConcat3(a: string, b: string, c: string)
    requires IsBlank(a) && IsBlank(b) && IsBlank(c)
    ensures IsBlank(a + b + c)
  {
  }

  /** The cleaned left text: its trailing whitespace collapses to at most one
      space, which strip then drops. */
  lemma {:induction false} CleanedLeft(a: string, left: string, trail: string, x: string)
    requires a == left + trail && IsBlank(trail)
    requires |left| > 0 && !IsSpace(left[|left| - 1])
    requires x == CollapseWhitespace(left)
    ensures CleanText(a) == Strip(x)
  {
    CleanTextIsStripOfCollapse(a);
    CollapseAppend(left, trail);
    BlankCollapse(trail);
    if trail == [] {
      ConcatEmpty(x);
    } else {
      CollapseLast(left);
      StripTrailingSpace(x);
    }
  }

  /** Whitespace alone collapses to nothing when empty and to one space
      otherwise. */
  lemma {:induction false} BlankCollapse(t: string)
    requires IsBlank(t)
    ensures CollapseWhitespace(t) == if t == [] then [] else " "
  {
    if t != [] {
      ConcatEmpty(t);
      CollapseBlankPrefix(t, []);
    }
  }

  /** The cleaned right text: its leading whitespace collapses to at most one
      space, which strip then drops. */
  lemma {:induction false} CleanedRight(b: string, right: string, lead: string, y: string)
    requires b == lead + right && IsBlank(lead)
    requires |right| > 0 && !IsSpace(right[0])
    requires y == CollapseWhitespace(right)
    ensures CleanText(b) == Strip(y)
  {
    CleanTextIsStripOfCollapse(b);
    if lead == [] {
      assert b == right;
    } else {
      CollapseBlankPrefix(lead, right);
      StripLeadingSpace(y);
    }
  }

  /** A text whose whitespace is already single plain spaces is a fixpoint of
      whitespace collapsing. */
  lemma {:induction false} CollapseFixpoint(t: string)
    requires NoAdjacentSpace(t) && OnlyPlainSpaces(t)
    ensures CollapseWhitespace(t) == t
  {
    CollapseOfCollapsed(t, CollapseWhitespace(t));
  }

  lemma {:induction false} CollapseOfCollapsed(t: string, r: string)
    requires NoAdjacentSpace(t) && OnlyPlainSpaces(t)
    requires r == CollapseWhitespace(t)
    ensures r == t
    decreases |t|
  {
    if |t| > 0 {
      var tail := t[1..];
      TailKeepsShape(t);
      var c := CollapseWhitespace(tail);
      CollapseOfCollapsed(tail, c);
      if IsSpace(t[0]) {
        assert !SpacePairAt(t, 0);
        assert tail == [] || !IsSpace(tail[0]) by {
          assert |t| == 1 || !IsSpace(t[1]);
          assert tail == [] || tail[0] == t[1];
        }
        assert StripLeft(tail) == tail;
        assert StripLeft(t) == StripLeft(tail);
        CollapseSpaceHead(t, r);
        assert CollapseWhitespace(StripLeft(t)) == c;
        assert t[0] == ' ';
        SameHead(t, r, c);
      } else {
        assert r == [t[0]] + c;
        assert t == [t[0]] + tail;
      }
    }
  }

  /** A text opening with whitespace collapses to one space and the
      collapsed rest. */
  lemma {:induction false} CollapseSpaceHead(t: string, r: string)
    requires |t| > 0 && IsSpace(t[0]) && r == CollapseWhitespace(t)
    ensures r == " " + CollapseWhitespace(StripLeft(t))
  {
  }

  lemma {:induction false} SameHead(t: string, r: string, c: string)
    requires |t| > 0 && t[0] == ' ' && r == " " + c && c == t[1..]
    ensures r == t
  {
    assert t == [t[0]] + t[1..];
  }

  /** The tail of a collapsed text is collapsed. */
  lemma {:induction false} TailKeepsShape(t: string)
    requires |t| > 0 && NoAdjacentSpace(t) && OnlyPlainSpaces(t)
    ensures NoAdjacentSpace(t[1..]) && OnlyPlainSpaces(t[1..])
  {
    SliceKeepsShape(t, 1, |t|, t[1..]);
  }

  // ---------------------------------------------------------------------------
  // format_citation, format_citations_list
  // ---------------------------------------------------------------------------

  /** A page reference as the callers pass it: missing or None, an integer,
      or a text label such as "N/A". */
  datatype PageValue = Absent | Number(n: int) | Label(text: string)

  /** Python truthiness of the page argument. */
  predicate Truthy(p: PageValue) {
    match p
    case Absent => false
    case Number(n) => n != 0
    case Label(t) => t != ""
  }

  /** `f"{page}"` for a present page. */
  function Render(p: PageValue): string {
    match p
    case Absent => "None"
    case Number(n) => IntToString(n)
    case Label(t) => t
  }

  /** `f"**{book_name}**"`. */
  function Bold(book: string): string {
    "**" + book + "**"
  }

  /** `format_citation`: the bold book name, followed by the page only when
      the page argument is truthy. */
  function FormatCitation(book: string, page: PageValue): (r: string)
    ensures |r| >= |Bold(book)| && r[..|Bold(book)|] == Bold(book)
    ensures r == Bold(book) <==> !Truthy(page)
    ensures Truthy(page) ==> r[|Bold(book)|..] == " (Page " + Render(page) + ")"
  {
    if Truthy(page) then Bold(book) + " (Page " + Render(page) + ")" else Bold(book)
  }

  /** A None page, a zero page and an empty label all give the bare bold name. */
  lemma {:induction false} FalsyPagesAgree(book: string)
    ensures FormatCitation(book, Absent) == Bold(book)
    ensures FormatCitation(book, Number(0)) == Bold(book)
    ensures FormatCitation(book, Label("")) == Bold(book)
  {
  }

  /** One retrieved source: `book` is None when the key is missing. */
  datatype Source = Source(book: Option<string>, page: PageValue)

  /** `source.get('book', 'Unknown')`. */
  function BookOf(src: Source): string {
    match src.book
    case None => "Unknown"
    case Some(b) => b
  }

  /** Line `i` (0-based) of the citation list: `f"{i+1}. {format_citation(...)}"`. */
  function CitationLine(i: nat, src: Source): (r: string)
    ensures |r| > |NatToString(i + 1)| + 2
    ensures r[..|NatToString(i + 1)| + 2] == NatToString(i + 1) + ". "
  {
    NatToString(i + 1) + ". " + FormatCitation(BookOf(src), src.page)
  }

  function CitationLines(sources: seq<Source>): (lines: seq<string>)
    ensures |lines| == |sources|
    ensures forall i :: 0 <= i < |sources| ==> lines[i] == CitationLine(i, sources[i])
  {
    seq(|sources|, i requires 0 <= i < |sources| => CitationLine(i, sources[i]))
  }

  /** `format_citations_list`: numbered citation lines joined by newlines. */
  function FormatCitationsList(sources: seq<Source>): (r: string)
    ensures r == "" <==> sources == []
    ensures r == [] || r[|r| - 1] != '\n'
  {
    if |sources| == 0 then ""
    else
      var lines := CitationLines(sources);
      var j := Join(lines, "\n");
      CitationsListEnd(sources, lines, j);
      j
  }

  /** A formatted citation ends with `*` or with `)`. */
  lemma {:induction false} CitationLineEnd(i: nat, src: Source)
    ensures var c := CitationLine(i, src); c[|c| - 1] == '*' || c[|c| - 1] == ')'
  {
    var book, page := BookOf(src), src.page;
    var f := FormatCitation(book, page);
    assert CitationLine(i, src) == NatToString(i + 1) + ". " + f;
    if Truthy(page) {
      assert f == Bold(book) + " (Page " + Render(page) + ")";
    } else {
      assert f == "**" + book + "**";
    }
  }

  lemma {:induction false} CitationsListEnd(sources: seq<Source>, lines: seq<string>, j: string)
    requires |sources| > 0 && lines == CitationLines(sources) && j == Join(lines, "\n")
    ensures |j| > 0 && j[|j| - 1] != '\n'
  {
    CitationLinesNonEmpty(sources, lines);
    LastCitationLineEnd(sources, lines);
    JoinEndsWithoutNewline(lines, j);
  }

  lemma {:induction false} CitationLinesNonEmpty(sources: seq<Source>, lines: seq<string>)
    requires lines == CitationLines(sources)
    ensures |lines| == |sources|
    ensures forall k :: 0 <= k < |lines| ==> |lines[k]| > 0
  {
    forall k | 0 <= k < |lines| ensures |lines[k]| > 0 {
      assert lines[k] == CitationLine(k, sources[k]);
    }
  }

  lemma {:induction false} LastCitationLineEnd(sources: seq<Source>, lines: seq<string>)
    requires |sources| > 0 && lines == CitationLines(sources)
    ensures var p := lines[|lines| - 1]; |p| > 0 && p[|p| - 1] != '\n'
  {
    var n := |sources| - 1;
    assert lines[n] == CitationLine(n, sources[n]);
    CitationLineEnd(n, sources[n]);
  }

  /** A join of non-empty parts, the last not ending in a newline, does not
      end in a newline. */
  lemma {:induction false} JoinEndsWithoutNewline(parts: seq<string>, j: string)
    requires |parts| > 0 && forall k :: 0 <= k < |parts| ==> |parts[k]| > 0
    requires var p := parts[|parts| - 1]; p[|p| - 1] != '\n'
    requires j == Join(parts, "\n")
    ensures |j| > 0 && j[|j| - 1] != '\n'
  {
    JoinEndsWithLastPart(parts, "\n", j);
  }

  /** A join of non-empty parts ends with the end of the last part. */
  lemma {:induction false} JoinEndsWithLastPart(parts: seq<string>, sep: string, j: string)
    requires |parts| > 0 && forall k :: 0 <= k < |parts| ==> |parts[k]| > 0
    requires j == Join(parts, sep)
    ensures |j| > 0 && j[|j| - 1] == parts[|parts| - 1][|parts[|parts| - 1]| - 1]
    decreases |parts|
  {
    if |parts| > 1 {
      var rest := Join(parts[1..], sep);
      JoinEndsWithLastPart(parts[1..], sep, rest);
      assert j == parts[0] + sep + rest;
      assert j[|j| - 1] == rest[|rest| - 1];
    }
  }

  /** When no book name or page label contains a newline, splitting the list
      at newlines gives back one line per source, line i numbered i+1. */
  lemma {:induction false} CitationsListLines(sources: seq<Source>)
    requires |sources| > 0
    requires forall i :: 0 <= i < |sources| ==> '\n' !in CitationLine(i, sources[i])
    ensures Split(FormatCitationsList(sources), "\n") == CitationLines(sources)
  {
    var lines := CitationLines(sources);
    SplitJoin(lines, '\n');
  }

  /** A source without a book name is cited as the book "Unknown". */
  lemma {:induction false} MissingBookUnknown(i: nat, p: PageValue)
    ensures CitationLine(i, Source(None, p)) == NatToString(i + 1) + ". " + FormatCitation("Unknown", p)
  {
  }

  /** A single source is listed alone, numbered 1. */
  lemma {:induction false} CitationsListOne(s: Source)
    ensures FormatCitationsList([s]) == "1. " + FormatCitation(BookOf(s), s.page)
  {
    assert CitationLines([s]) == [CitationLine(0, s)];
    assert NatToString(1) == "1";
  }

  /** One more source adds one line at the end, after a newline, numbered one
      past the sources before it; the earlier lines are unchanged. */
  lemma {:induction false} CitationsListSnoc(sources: seq<Source>, s: Source)
    requires |sources| > 0
    ensures FormatCitationsList(sources + [s])
            == FormatCitationsList(sources) + "\n" + CitationLine(|sources|, s)
  {
    var lines := CitationLines(sources);
    var line := CitationLine(|sources|, s);
    CitationLinesSnoc(sources, s);
    JoinSnoc(lines, line, "\n");
    assert FormatCitationsList(sources) == Join(lines, "\n");
    assert FormatCitationsList(sources + [s]) == Join(lines + [line], "\n");
  }

  lemma {:induction false} CitationLinesSnoc(sources: seq<Source>, s: Source)
    ensures CitationLines(sources + [s]) == CitationLines(sources) + [CitationLine(|sources|, s)]
  {
    var all := sources + [s];
    var longer := CitationLines(all);
    var extended := CitationLines(sources) + [CitationLine(|sources|, s)];
    assert |longer| == |extended|;
    forall i | 0 <= i < |all| ensures longer[i] == extended[i] {
      if i < |sources| {
        assert all[i] == sources[i];
        assert extended[i] == CitationLines(sources)[i];
      } else {
        assert all[i] == s;
      }
    }
    assert longer == extended;
  }

  // ---------------------------------------------------------------------------
  // validate_pdf, get_timestamp, truncate_text, extract_book_name
  // ---------------------------------------------------------------------------

  /** `file_path.lower().endswith('.pdf')`. */
  function ValidatePdf(path: string): (r: bool)
    ensures r <==> |path| >= 4 && path[|path| - 4] == '.'
                   && (path[|path| - 3] == 'p' || path[|path| - 3] == 'P')
                   && (path[|path| - 2] == 'd' || path[|path| - 2] == 'D')
                   && (path[|path| - 1] == 'f' || path[|path| - 1] == 'F')
  {
    var low := Lower(path);
    assert |path| >= 4 ==> low[|low| - 4..] == [low[|low| - 4], low[|low| - 3], low[|low| - 2], low[|low| - 1]];
    EndsWith(low, ".pdf")
  }

  /** A wall-clock reading, as `datetime.now()` would give. */
  datatype DateTime = DateTime(year: nat, month: nat, day: nat, hour: nat, minute: nat, second: nat)

  predicate ValidDateTime(t: DateTime) {
    && 1 <= t.year <= 9999 && 1 <= t.month <= 12 && 1 <= t.day <= 31
    && t.hour < 24 && t.minute < 60 && t.second < 60
  }

  /** Zero-padded decimal rendering, as `%m`, `%d`, `%H`, `%M`, `%S` (width 2)
      and `%Y` (width 4) produce. */
  function Pad(n: nat, width: nat): (r: string)
    ensures |r| == (if |NatToString(n)| < width then width else |NatToString(n)|)
    ensures forall k :: 0 <= k < |r| ==> IsDigit(r[k])
  {
    var ds := NatToString(n);
    if |ds| < width then seq(width - |ds|, _ => '0') + ds else ds
  }

  /** `get_timestamp`: `strftime("%Y-%m-%d %H:%M:%S")`. */
  function Timestamp(t: DateTime): string {
    Pad(t.year, 4) + "-" + Pad(t.month, 2) + "-" + Pad(t.day, 2) + " "
    + Pad(t.hour, 2) + ":" + Pad(t.minute, 2) + ":" + Pad(t.second, 2)
  }

  /** The fixed layout of a timestamp: 19 characters, separators at fixed
      places, digits everywhere else. */
  lemma {:induction false} TimestampLayout(t: DateTime)
    requires ValidDateTime(t)
    ensures var s := Timestamp(t);
            && |s| == 19
            && s[4] == '-' && s[7] == '-' && s[10] == ' ' && s[13] == ':' && s[16] == ':'
            && forall k :: 0 <= k < 19 && k !in {4, 7, 10, 13, 16} ==> IsDigit(s[k])
  {
    PadWidth(t.year, 4);
    PadWidth(t.month, 2);
    PadWidth(t.day, 2);
    PadWidth(t.hour, 2);
    PadWidth(t.minute, 2);
    PadWidth(t.second, 2);
    StampShape(Pad(t.year, 4), Pad(t.month, 2), Pad(t.day, 2), Pad(t.hour, 2), Pad(t.minute, 2), Pad(t.second, 2),
               Timestamp(t));
  }

  /** Six digit fields of widths 4, 2, 2, 2, 2, 2 joined by `-`, `-`, a space,
      `:` and `:` lay out as a timestamp. */
  lemma {:induction false} StampShape(y: string, mo: string, d: string, h: string, mi: string, se: string, s: string)
    requires |y| == 4 && |mo| == 2 && |d| == 2 && |h| == 2 && |mi| == 2 && |se| == 2
    requires forall k :: 0 <= k < |y| ==> IsDigit(y[k])
    requires forall k :: 0 <= k < |mo| ==> IsDigit(mo[k])
    requires forall k :: 0 <= k < |d| ==> IsDigit(d[k])
    requires forall k :: 0 <= k < |h| ==> IsDigit(h[k])
    requires forall k :: 0 <= k < |mi| ==> IsDigit(mi[k])
    requires forall k :: 0 <= k < |se| ==> IsDigit(se[k])
    requires s == y + "-" + mo + "-" + d + " " + h + ":" + mi + ":" + se
    ensures |s| == 19
    ensures s[4] == '-' && s[7] == '-' && s[10] == ' ' && s[13] == ':' && s[16] == ':'
    ensures forall k :: 0 <= k < 19 && k !in {4, 7, 10, 13, 16} ==> IsDigit(s[k])
  {
    // The timestamp built one field at a time; each index step below looks
    // through a single concatenation.
    var p1 := y + "-";
    var p2 := p1 + mo;
    var p3 := p2 + "-";
    var p4 := p3 + d;
    var p5 := p4 + " ";
    var p6 := p5 + h;
    var p7 := p6 + ":";
    var p8 := p7 + mi;
    var p9 := p8 + ":";
    assert s == p9 + se;
    assert s[16] == p9[16] && s[13] == p9[13] == p8[13] == p7[13];
    assert s[10] == p9[10] == p8[10] == p7[10] == p6[10] == p5[10];
    assert s[7] == p9[7] == p8[7] == p7[7] == p6[7] == p5[7] == p4[7] == p3[7];
    assert s[4] == p9[4] == p8[4] == p7[4] == p6[4] == p5[4] == p4[4] == p3[4] == p2[4] == p1[4];
    forall k | 0 <= k < 19 && k !in {4, 7, 10, 13, 16} ensures IsDigit(s[k]) {
      if k >= 17 {
        assert s[k] == se[k - 17];
      } else {
        assert s[k] == p9[k] == p8[k];
        if k >= 14 {
          assert p8[k] == mi[k - 14];
        } else {
          assert p8[k] == p7[k] == p6[k];
          if k >= 11 {
            assert p6[k] == h[k - 11];
          } else {
            assert p6[k] == p5[k] == p4[k];
            if k >= 8 {
              assert p4[k] == d[k - 8];
            } else {
              assert p4[k] == p3[k] == p2[k];
              if k >= 5 {
                assert p2[k] == mo[k - 5];
              } else {
                assert p2[k] == p1[k] == y[k];
              }
            }
          }
        }
      }
    }
  }

  lemma {:induction false} PadWidth(n: nat, width: nat)
    requires width == 2 || width == 4
    requires width == 2 ==> n < 100
    requires width == 4 ==> n < 10000
    ensures |Pad(n, width)| == width
  {
    NatToStringLength(n);
  }

  lemma {:induction false} NatToStringLength(n: nat)
    ensures n < 10 ==> |NatToString(n)| == 1
    ensures n < 100 ==> |NatToString(n)| <= 2
    ensures n < 1000 ==> |NatToString(n)| <= 3
    ensures n < 10000 ==> |NatToString(n)| <= 4
    decreases n
  {
    if n >= 10 {
      NatToStringLength(n / 10);
      assert n < 100 ==> n / 10 < 10;
      assert n < 1000 ==> n / 10 < 100;
      assert n < 10000 ==> n / 10 < 1000;
    }
  }

  /** `truncate_text`: the text itself when it fits, otherwise
      `text[:max_length-3] + "..."` with Python's slice rules. */
  function TruncateText(text: string, maxLength: int): (r: string)
    ensures |text| <= maxLength ==> r == text
    ensures 3 <= maxLength < |text| ==>
              |r| == maxLength && r == text[..maxLength - 3] + "..."
    ensures maxLength < |text| ==> EndsWith(r, "...")
  {
    if |text| <= maxLength then text else SliceTo(text, maxLength - 3) + "..."
  }

  /** Truncation is idempotent for limits of at least three characters. */
  lemma {:induction false} TruncateIdempotent(text: string, maxLength: int)
    requires maxLength >= 3
    ensures TruncateText(TruncateText(text, maxLength), maxLength) == TruncateText(text, maxLength)
  {
  }

  /** Below three characters the negative slice bound keeps all but the last
      few characters, so the result is longer than the limit. */
  lemma {:induction false} TruncateBelowThree(text: string, maxLength: int)
    requires maxLength < 3 && maxLength < |text| && |text| + maxLength >= 3
    ensures var r := TruncateText(text, maxLength);
            r == text[..|text| + maxLength - 3] + "..." && |r| > maxLength
  {
  }

  /** The last index of character `c` in `s` (`rfind`). */
  function LastIndexOf(s: string, c: char): (r: Option<nat>)
    ensures r.Some? ==> r.value < |s| && s[r.value] == c
    ensures r.Some? ==> forall k :: r.value < k < |s| ==> s[k] != c
    ensures r.None? ==> c !in s
    decreases |s|
  {
    if |s| == 0 then None
    else if s[|s| - 1] == c then Some(|s| - 1)
    else LastIndexOf(s[..|s| - 1], c)
  }

  /** Path components as `pathlib` keeps them: empty and "." parts dropped. */
  function Components(parts: seq<string>): (r: seq<string>)
    ensures forall k :: 0 <= k < |r| ==> r[k] != "" && r[k] != "." && r[k] in parts
    decreases |parts|
  {
    if |parts| == 0 then []
    else (if parts[0] == "" || parts[0] == "." then [] else [parts[0]]) + Components(parts[1..])
  }

  /** `PurePosixPath(path).name`: the last component, or "" when there is none. */
  function FileName(path: string): (r: string)
    ensures '/' !in r
  {
    var parts := Split(path, "/");
    var comps := Components(parts);
    if |comps| == 0 then ""
    else
      var name := comps[|comps| - 1];
      CharOccurs(name, '/');
      name
  }

  /** `PurePath.stem`: the name without its last suffix, where a suffix is a
      dot that is neither the first nor the last character. */
  function Stem(name: string): (r: string)
    ensures |r| <= |name| && r == name[..|r|]
  {
    match LastIndexOf(name, '.')
    case Some(i) => if 0 < i < |name| - 1 then name[..i] else name
    case None => name
  }

  /** `extract_book_name`: `Path(file_path).stem`. */
  function ExtractBookName(path: string): (r: string)
    ensures '/' !in r
  {
    Stem(FileName(path))
  }

  /** `Path(dir + "/" + n + ".pdf").stem == n` for a name without slashes. */
  lemma {:induction false} BookNameOfPdfPath(dir: string, n: string)
    requires n != [] && '/' !in n
    ensures ExtractBookName(dir + "/" + n + ".pdf") == n
  {
    var name := n + ".pdf";
    assert '/' !in name by {
      assert forall k :: 0 <= k < |name| ==> name[k] == (if k < |n| then n[k] else ".pdf"[k - |n|]);
    }
    assert dir + "/" + n + ".pdf" == dir + "/" + name;
    FileNameOfPath(dir, name);
    StemOfPdfName(n);
  }

  /** The name of `dir + "/" + name` is `name` when `name` is a proper component. */
  lemma {:induction false} FileNameOfPath(dir: string, name: string)
    requires name != "" && name != "." && '/' !in name
    ensures FileName(dir + "/" + name) == name
  {
    var path := dir + "/" + name;
    assert path == dir + ['/'] + name;
    SplitConcatChar(dir, '/', name);
    NoCharNoOccurrence(name, '/');
    assert Split(name, "/") == [name];
    ComponentsConcat(Split(dir, "/"), [name]);
  }

  lemma {:induction false} StemOfPdfName(n: string)
    requires n != []
    ensures Stem(n + ".pdf") == n
  {
    var name := n + ".pdf";
    LastIndexOfAppend(n, '.', '.');
    LastIndexOfAppend(n + ".", 'p', '.');
    LastIndexOfAppend(n + ".p", 'd', '.');
    LastIndexOfAppend(n + ".pd", 'f', '.');
    assert n + ".pdf" == n + ".pd" + ['f'];
    assert n + ".pd" == n + ".p" + ['d'];
    assert n + ".p" == n + "." + ['p'];
    assert n + "." == n + ['.'];
    assert name[..|n|] == n;
  }

  lemma {:induction false} LastIndexOfAppend(s: string, last: char, c: char)
    ensures LastIndexOf(s + [last], c) == if last == c then Some(|s|) else LastIndexOf(s, c)
  {
    assert (s + [last])[..|s|] == s;
  }

  lemma {:induction false} ComponentsConcat(a: seq<string>, b: seq<string>)
    ensures Components(a + b) == Components(a) + Components(b)
    decreases |a|
  {
    if |a| > 0 {
      assert (a + b)[1..] == a[1..] + b;
      ComponentsConcat(a[1..], b);
    } else {
      assert a + b == b;
    }
  }
}

=== FILE: text.dfy ===
/**
 The slice of Python's `str` semantics that the application relies on:
 `str.isspace`, `strip`, `find`/`in`, `split(sep)`, `"sep".join`, `int()`,
 slicing with possibly negative bounds, single-character `replace`, ASCII
 `lower` and `endswith`. Strings are `seq<char>`; characters are Unicode
 scalar values, as in Python 3.
 */
module Text {

  datatype Option<+T> = None | Some(value: T)

  /** The characters for which Python's `str.isspace()` is true; the regular
      expression class `\s` and `str.strip()` use the same set: tab through
      carriage return, the four separators U+001C..U+001F, space, U+0085,
      U+00A0, U+1680, U+2000..U+200A, U+2028, U+2029, U+202F, U+205F and
      U+3000. */
  predicate IsSpace(c: char) {
    || c == ' '
    || '\t' <= c <= '\r'
    || '\U{1C}' <= c <= '\U{1F}'
    || c == '\U{85}' || c == '\U{A0}' || c == '\U{1680}'
    || '\U{2000}' <= c <= '\U{200A}'
    || c == '\U{2028}' || c == '\U{2029}' || c == '\U{202F}' || c == '\U{205F}' || c == '\U{3000}'
  }

  /** ASCII decimal digits (the model's `\d`). */
  predicate IsDigit(c: char) {
    '0' <= c <= '9'
  }

  /** True when `s.strip()` is the empty string, i.e. `s` is falsy after stripping. */
  predicate IsBlank(s: string) {
    forall i :: 0 <= i < |s| ==> IsSpace(s[i])
  }

  // ---------------------------------------------------------------------------
  // strip
  // ---------------------------------------------------------------------------

  /** `s.lstrip()`: drops the leading run of whitespace. */
  function StripLeft(s: string): (r: string)
    ensures |r| <= |s| && r == s[|s| - |r|..]
    ensures forall k :: 0 <= k < |s| - |r| ==> IsSpace(s[k])
    ensures r == [] || !IsSpace(r[0])
    decreases |s|
  {
    if |s| > 0 && IsSpace(s[0]) then
      var r := StripLeft(s[1..]);
      assert s[1..][|s| - 1 - |r|..] == s[|s| - |r|..];
      assert forall k :: 1 <= k < |s| - |r| ==> s[1..][k - 1] == s[k];
      r
    else s
  }

  /** `lstrip` of a text that starts with whitespace removes something. */
  lemma {:induction false} StripLeftShorter(s: string)
    requires |s| > 0 && IsSpace(s[0])
    ensures |StripLeft(s)| < |s|
  {
  }

  /** `s.rstrip()`: drops the trailing run of whitespace. */
  function StripRight(s: string): (r: string)
    ensures |r| <= |s| && r == s[..|r|]
    ensures forall k :: |r| <= k < |s| ==> IsSpace(s[k])
    ensures r == [] || !IsSpace(r[|r| - 1])
    decreases |s|
  {
    if |s| > 0 && IsSpace(s[|s| - 1]) then StripRight(s[..|s| - 1]) else s
  }

  /** Where `s.strip()` starts: the length of the leading whitespace run. */
  function StripStart(s: string): (i: nat)
    ensures i <= |s|
  {
    |s| - |StripLeft(s)|
  }

  /** `s.strip()`: the slice of `s` between its leading and trailing whitespace. */
  function Strip(s: string): (r: string)
    ensures r == [] || (!IsSpace(r[0]) && !IsSpace(r[|r| - 1]))
    ensures r == [] <==> IsBlank(s)
    ensures StripStart(s) + |r| <= |s| && r == s[StripStart(s)..StripStart(s) + |r|]
  {
    var l := StripLeft(s);
    var r := StripRight(l);
    StripEnds(l, r);
    StripEmpty(s, l, r);
    PrefixOfSuffix(s, |s| - |l|, l, r);
    r
  }

  /** The ends of what is left after `lstrip` then `rstrip` are not whitespace. */
  lemma {:induction false} StripEnds(l: string, r: string)
    requires l == [] || !IsSpace(l[0])
    requires |r| <= |l| && r == l[..|r|]
    requires r == [] || !IsSpace(r[|r| - 1])
    ensures r == [] || (!IsSpace(r[0]) && !IsSpace(r[|r| - 1]))
  {
    if r != [] {
      assert r[0] == l[0];
    }
  }

  /** A prefix of a suffix is a slice. */
  lemma {:induction false} PrefixOfSuffix<T>(s: seq<T>, i: nat, l: seq<T>, r: seq<T>)
    requires i + |l| == |s| && l == s[i..]
    requires |r| <= |l| && r == l[..|r|]
    ensures i + |r| <= |s| && r == s[i..i + |r|]
  {
  }

  /** Nothing is left after stripping exactly when the text is all whitespace. */
  lemma {:induction false} StripEmpty(s: string, l: string, r: string)
    requires |l| <= |s| && l == s[|s| - |l|..]
    requires forall k :: 0 <= k < |s| - |l| ==> IsSpace(s[k])
    requires l == [] || !IsSpace(l[0])
    requires |r| <= |l| && r == l[..|r|]
    requires forall k :: |r| <= k < |l| ==> IsSpace(l[k])
    ensures r == [] <==> IsBlank(s)
  {
    var i := |s| - |l|;
    if r != [] {
      assert s[i] == l[0] == r[0];
    }
  }

  /** What `strip()` removes is whitespace, on both sides. */
  lemma {:induction false} StripRemovesOnlySpace(s: string)
    ensures forall k :: 0 <= k < StripStart(s) ==> IsSpace(s[k])
    ensures forall k :: StripStart(s) + |Strip(s)| <= k < |s| ==> IsSpace(s[k])
  {
    var l := StripLeft(s);
    var r := StripRight(l);
    var i := |s| - |l|;
    assert r == Strip(s);
    forall k | i + |r| <= k < |s| ensures IsSpace(s[k]) {
      SuffixIndex(s, i, k);
    }
  }

  /** `s` is its leading whitespace, then `strip(s)`, then its trailing whitespace. */
  lemma {:induction false} StripDecompose(s: string)
    ensures var i := StripStart(s); var r := Strip(s);
            && s == s[..i] + r + s[i + |r|..]
            && IsBlank(s[..i]) && IsBlank(s[i + |r|..])
  {
    var i := StripStart(s);
    var r := Strip(s);
    SplitAround(s, i, |r|);
    StripOuterBlank(s);
  }

  lemma {:induction false} StripOuterBlank(s: string)
    ensures IsBlank(s[..StripStart(s)]) && IsBlank(s[StripStart(s) + |Strip(s)|..])
  {
    var i := StripStart(s);
    var j := i + |Strip(s)|;
    StripRemovesOnlySpace(s);
    BlankPrefix(s, i);
    BlankSuffix(s, j);
  }

  lemma {:induction false} BlankPrefix(s: string, i: nat)
    requires i <= |s|
    requires forall k :: 0 <= k < i ==> IsSpace(s[k])
    ensures IsBlank(s[..i])
  {
    forall k | 0 <= k < i ensures IsSpace(s[..i][k]) {
      assert s[..i][k] == s[k];
    }
  }

  lemma {:induction false} BlankSuffix(s: string, j: nat)
    requires j <= |s|
    requires forall k :: j <= k < |s| ==> IsSpace(s[k])
    ensures IsBlank(s[j..])
  {
    forall k | 0 <= k < |s| - j ensures IsSpace(s[j..][k]) {
      assert s[j..][k] == s[j + k];
    }
  }

  lemma {:induction false} SuffixIndex(s: string, i: nat, k: nat)
    requires i <= k < |s|
    ensures s[i..][k - i] == s[k]
  {
  }

  /** Stripping a string that has no whitespace at either end changes nothing. */
  lemma {:induction false} StripNoop(s: string)
    requires s == [] || (!IsSpace(s[0]) && !IsSpace(s[|s| - 1]))
    ensures Strip(s) == s
  {
  }

  /** `strip()` is idempotent. */
  lemma {:induction false} StripIdempotent(s: string)
    ensures Strip(Strip(s)) == Strip(s)
  {
    StripNoop(Strip(s));
  }

  /** `lstrip` of a text that starts with something other than whitespace
      stops inside it: the text after it is kept whole. */
  lemma {:induction false} StripLeftAppend(x: string, y: string)
    requires !IsBlank(x)
    ensures StripLeft(x + y) == StripLeft(x) + y
    decreases |x|
  {
    assert (x + y)[0] == x[0];
    if IsSpace(x[0]) {
      assert (x + y)[1..] == x[1..] + y;
      assert !IsBlank(x[1..]) by {
        var k :| 0 <= k < |x| && !IsSpace(x[k]);
        assert x[1..][k - 1] == x[k];
      }
      StripLeftAppend(x[1..], y);
    }
  }

  /** Leading whitespace vanishes under `lstrip`. */
  lemma {:induction false} StripLeftBlankPrefix(t: string, y: string)
    requires IsBlank(t)
    ensures StripLeft(t + y) == StripLeft(y)
    decreases |t|
  {
    if |t| > 0 {
      assert (t + y)[0] == t[0];
      assert (t + y)[1..] == t[1..] + y;
      assert IsBlank(t[1..]) by {
        forall k | 0 <= k < |t| - 1 ensures IsSpace(t[1..][k]) {
          assert t[1..][k] == t[k + 1];
        }
      }
      StripLeftBlankPrefix(t[1..], y);
    } else {
      assert t + y == y;
    }
  }

  /** `rstrip` of a text that ends with something other than whitespace
      stops inside it: the text before it is kept whole. */
  lemma {:induction false} StripRightAppend(x: string, y: string)
    requires !IsBlank(y)
    ensures StripRight(x + y) == x + StripRight(y)
    decreases |y|
  {
    var xy := x + y;
    assert xy[|xy| - 1] == y[|y| - 1];
    if IsSpace(y[|y| - 1]) {
      var y' := y[..|y| - 1];
      assert xy[..|xy| - 1] == x + y';
      assert !IsBlank(y') by {
        var k :| 0 <= k < |y| && !IsSpace(y[k]);
        assert k < |y| - 1;
        assert y'[k] == y[k];
      }
      StripRightAppend(x, y');
    }
  }

  /** Trailing whitespace vanishes under `rstrip`. */
  lemma {:induction false} StripRightBlankSuffix(x: string, t: string)
    requires IsBlank(t)
    ensures StripRight(x + t) == StripRight(x)
    decreases |t|
  {
    if |t| > 0 {
      var xt := x + t;
      var t' := t[..|t| - 1];
      assert xt[|xt| - 1] == t[|t| - 1];
      assert xt[..|xt| - 1] == x + t';
      assert IsBlank(t') by {
        forall k | 0 <= k < |t'| ensures IsSpace(t'[k]) {
          assert t'[k] == t[k];
        }
      }
      StripRightBlankSuffix(x, t');
    } else {
      assert x + t == x;
    }
  }

  /** Two texts, the first ending and the second starting with something
      other than whitespace, joined by a space strip as a whole to the first's
      stripped form, the space and the second's stripped form. */
  lemma {:induction false} StripAroundSpace(x: string, y: string)
    requires |x| > 0 && !IsSpace(x[|x| - 1])
    requires |y| > 0 && !IsSpace(y[0])
    ensures Strip(x + (" " + y)) == Strip(x) + (" " + Strip(y))
  {
    var l := StripLeft(x);
    LeftOfJoin(x, y);
    RightOfJoin(l, y);
    StripRightKeeps(l);
    StripLeftKeeps(y);
    StripIsRightOfLeft(x + (" " + y));
    StripIsRightOfLeft(x);
    StripIsRightOfLeft(y);
  }

  lemma {:induction false} LeftOfJoin(x: string, y: string)
    requires |x| > 0 && !IsSpace(x[|x| - 1])
    ensures StripLeft(x + (" " + y)) == StripLeft(x) + (" " + y)
    ensures var l := StripLeft(x); l != [] && !IsSpace(l[|l| - 1])
  {
    NotBlankAt(x, |x| - 1);
    StripLeftAppend(x, " " + y);
    StripLeftLast(x, StripLeft(x));
  }

  lemma {:induction false} RightOfJoin(l: string, y: string)
    requires |y| > 0 && !IsSpace(y[0])
    ensures StripRight(l + (" " + y)) == l + (" " + StripRight(y))
  {
    NotBlankAt(y, 0);
    NotBlankAt(" " + y, 1);
    StripRightAppend(l, " " + y);
    StripRightAppend(" ", y);
  }

  /** `lstrip` of a text that ends with something other than whitespace
      keeps that last character. */
  lemma {:induction false} StripLeftLast(x: string, l: string)
    requires |x| > 0 && !IsSpace(x[|x| - 1])
    requires l == StripLeft(x)
    ensures l != [] && l[|l| - 1] == x[|x| - 1]
  {
    assert l[|l| - 1] == x[|x| - |l|..][|l| - 1];
  }

  lemma {:induction false} NotBlankAt(s: string, k: nat)
    requires k < |s| && !IsSpace(s[k])
    ensures !IsBlank(s)
  {
  }

  /** `strip()` is `lstrip()` followed by `rstrip()`. */
  lemma {:induction false} StripIsRightOfLeft(s: string)
    ensures Strip(s) == StripRight(StripLeft(s))
  {
  }

  lemma {:induction false} StripRightKeeps(s: string)
    requires s == [] || !IsSpace(s[|s| - 1])
    ensures StripRight(s) == s
  {
  }

  lemma {:induction false} StripLeftKeeps(s: string)
    requires s == [] || !IsSpace(s[0])
    ensures StripLeft(s) == s
  {
  }

  /** A single space after a text that ends with something other than
      whitespace does not change its strip. */
  lemma {:induction false} StripTrailingSpace(x: string)
    requires |x| > 0 && !IsSpace(x[|x| - 1])
    ensures Strip(x + " ") == Strip(x)
  {
    assert !IsBlank(x);
    StripLeftAppend(x, " ");
    StripRightBlankSuffix(StripLeft(x), " ");
  }

  /** A single space before a text does not change its strip. */
  lemma {:induction false} StripLeadingSpace(y: string)
    ensures Strip(" " + y) == Strip(y)
  {
    StripLeftBlankPrefix(" ", y);
  }

  // ---------------------------------------------------------------------------
  // find, in
  // ---------------------------------------------------------------------------

  /** `pat` occurs in `s` starting at index `i`. */
  predicate OccursAt(s: string, pat: string, i: int) {
    0 <= i && i + |pat| <= |s| && s[i..i + |pat|] == pat
  }

  /** `s.find(pat)` for a non-empty pattern: the first occurrence, or None for -1. */
  function IndexOf(s: string, pat: string): (r: Option<nat>)
    requires |pat| > 0
    ensures r.Some? ==> OccursAt(s, pat, r.value)
    ensures forall i :: OccursAt(s, pat, i) ==> r.Some? && r.value <= i
    decreases |s|
  {
    if |s| < |pat| then None
    else if s[..|pat|] == pat then Some(0)
    else
      ShiftDown(s, pat);
      match IndexOf(s[1..], pat)
      case None => None
      case Some(j) =>
        ShiftUp(s, pat, j);
        Some(j + 1)
  }

  /** An occurrence after the first character is one in the tail. */
  lemma {:induction false} ShiftDown(s: string, pat: string)
    requires |s| > 0
    ensures forall i :: OccursAt(s, pat, i) && i > 0 ==> OccursAt(s[1..], pat, i - 1)
  {
    forall i | OccursAt(s, pat, i) && i > 0 ensures OccursAt(s[1..], pat, i - 1) {
      assert s[1..][i - 1..i - 1 + |pat|] == s[i..i + |pat|];
    }
  }

  /** An occurrence in the tail is one in the whole, one further on. */
  lemma {:induction false} ShiftUp(s: string, pat: string, j: nat)
    requires |s| > 0 && OccursAt(s[1..], pat, j)
    ensures OccursAt(s, pat, j + 1)
  {
    assert s[1..][j..j + |pat|] == s[j + 1..j + 1 + |pat|];
  }

  /** An occurrence inside a prefix is one in the whole. */
  lemma {:induction false} PrefixOccurrences(s: string, pat: string, i: nat)
    requires i <= |s|
    ensures forall j :: OccursAt(s[..i], pat, j) ==> OccursAt(s, pat, j)
  {
    forall j | OccursAt(s[..i], pat, j) ensures OccursAt(s, pat, j) {
      assert s[..i][j..j + |pat|] == s[j..j + |pat|];
    }
  }

  /** Python's `pat in s` for a non-empty pattern. */
  predicate Contains(s: string, pat: string)
    requires |pat| > 0
  {
    IndexOf(s, pat).Some?
  }

  /** A pattern holding a character the text lacks does not occur in it. */
  lemma {:induction false} MissingCharNotContained(s: string, pat: string, j: nat)
    requires j < |pat| && pat[j] !in s
    ensures !Contains(s, pat)
  {
    forall i | 0 <= i && i + |pat| <= |s| ensures !OccursAt(s, pat, i) {
      assert s[i..i + |pat|][j] == s[i + j];
    }
  }

  /** `s.split(sep, 1)[1]`: what follows the first occurrence of `sep`. */
  function AfterFirst(s: string, sep: string): (r: string)
    requires |sep| > 0 && Contains(s, sep)
    ensures |r| < |s|
    ensures s == s[..IndexOf(s, sep).value] + sep + r
  {
    var i := IndexOf(s, sep).value;
    assert s == s[..i] + s[i..i + |sep|] + s[i + |sep|..];
    s[i + |sep|..]
  }

  // ---------------------------------------------------------------------------
  // split, join
  // ---------------------------------------------------------------------------

  /** `s.split(sep)` for a non-empty separator: cuts at every occurrence of
      `sep`, scanning left to right without overlaps. */
  function Split(s: string, sep: string): (r: seq<string>)
    requires |sep| > 0
    ensures |r| >= 1
    ensures forall k :: 0 <= k < |r| ==> !Contains(r[k], sep)
    ensures r[0] == s <==> !Contains(s, sep)
    decreases |s|
  {
    match IndexOf(s, sep)
    case None => [s]
    case Some(i) =>
      PrefixOccurrences(s, sep, i);
      assert !Contains(s[..i], sep);
      [s[..i]] + Split(s[i + |sep|..], sep)
  }

  /** `sep.join(parts)`. */
  function Join(parts: seq<string>, sep: string): string
    decreases |parts|
  {
    if |parts| == 0 then ""
    else if |parts| == 1 then parts[0]
    else parts[0] + sep + Join(parts[1..], sep)
  }

  /** Joining the pieces of a split with the same separator gives back the text. */
  lemma {:induction false} JoinSplit(s: string, sep: string)
    requires |sep| > 0
    ensures Join(Split(s, sep), sep) == s
    decreases |s|
  {
    if IndexOf(s, sep).Some? {
      var i := IndexOf(s, sep).value;
      var rest := s[i + |sep|..];
      var tail := Split(rest, sep);
      assert Split(s, sep) == [s[..i]] + tail;
      JoinSplit(rest, sep);
      JoinCons(s[..i], tail, sep);
      SplitAround(s, i, |sep|);
    }
  }

  /** Joining a non-empty list after a first part. */
  lemma {:induction false} JoinCons(head: string, tail: seq<string>, sep: string)
    requires |tail| > 0
    ensures Join([head] + tail, sep) == head + sep + Join(tail, sep)
  {
    assert ([head] + tail)[1..] == tail;
  }

  /** Joining a non-empty list with one more part at the end. */
  lemma {:induction false} JoinSnoc(init: seq<string>, last: string, sep: string)
    requires |init| > 0
    ensures Join(init + [last], sep) == Join(init, sep) + sep + last
    decreases |init|
  {
    if |init| == 1 {
      assert init + [last] == [init[0], last];
    } else {
      assert (init + [last])[1..] == init[1..] + [last];
      JoinSnoc(init[1..], last, sep);
    }
  }

  lemma {:induction false} ConcatAssoc<T>(a: seq<T>, b: seq<T>, c: seq<T>)
    ensures a + (b + c) == (a + b) + c
  {
  }

  /** Regrouping a text split as `l t`, a gap `g`, and `d r`, around the
      middle `t g d`. */
  lemma {:induction false} Regroup<T>(l: seq<T>, t: seq<T>, g: seq<T>, d: seq<T>, r: seq<T>)
    ensures (l + t) + g + (d + r) == l + ((t + g + d) + r)
  {
  }

  lemma {:induction false} ConcatEmpty<T>(s: seq<T>)
    ensures s + [] == s
  {
  }

  lemma {:induction false} SliceJoin<T>(s: seq<T>, i: nat)
    requires i <= |s|
    ensures s[..i] + s[i..] == s
  {
  }

  lemma {:induction false} SplitAround(s: string, i: nat, n: nat)
    requires i + n <= |s|
    ensures s == s[..i] + s[i..i + n] + s[i + n..]
  {
  }

  /** Splitting at a separator character that none of the parts contains
      recovers the parts. */
  lemma {:induction false} SplitJoin(parts: seq<string>, c: char)
    requires |parts| > 0
    requires forall k :: 0 <= k < |parts| ==> c !in parts[k]
    ensures Split(Join(parts, [c]), [c]) == parts
    decreases |parts|
  {
    var s := Join(parts, [c]);
    if |parts| == 1 {
      NoCharNoOccurrence(parts[0], c);
    } else {
      var rest := Join(parts[1..], [c]);
      assert s == parts[0] + [c] + rest;
      NoCharNoOccurrence(parts[0], c);
      assert OccursAt(s, [c], |parts[0]|) by {
        assert s[|parts[0]|..|parts[0]| + 1] == [c];
      }
      forall i | 0 <= i < |parts[0]| ensures !OccursAt(s, [c], i) {
        assert s[i] == parts[0][i];
      }
      assert IndexOf(s, [c]) == Some(|parts[0]|);
      assert s[..|parts[0]|] == parts[0];
      assert s[|parts[0]| + 1..] == rest;
      SplitJoin(parts[1..], c);
    }
  }

  /** A string without the character `c` has no occurrence of `[c]`. */
  lemma {:induction false} NoCharNoOccurrence(s: string, c: char)
    requires c !in s
    ensures IndexOf(s, [c]) == None
  {
    forall i | 0 <= i < |s| ensures !OccursAt(s, [c], i) {
      assert s[i..i + 1][0] == s[i];
    }
  }

  /** A character that occurs in a string occurs as a one-character pattern. */
  lemma {:induction false} CharOccurs(s: string, c: char)
    ensures c in s <==> Contains(s, [c])
  {
    if c in s {
      var i :| 0 <= i < |s| && s[i] == c;
      assert OccursAt(s, [c], i);
    } else {
      NoCharNoOccurrence(s, c);
    }
  }

  /** Splitting at a one-character separator works piecewise around an
      occurrence of that character. */
  lemma {:induction false} SplitConcatChar(a: string, c: char, b: string)
    ensures Split(a + [c] + b, [c]) == Split(a, [c]) + Split(b, [c])
    decreases |a|
  {
    if c in a {
      CharOccurs(a, c);
      var i := IndexOf(a, [c]).value;
      var rest := a[i + 1..];
      SplitConcatCharFirst(a, c, b, i);
      SplitConcatChar(rest, c, b);
      ConsChain(Split(a + [c] + b, [c]), [a[..i]], Split(rest + [c] + b, [c]),
                Split(rest, [c]), Split(b, [c]), Split(a, [c]));
    } else {
      SplitConcatCharLast(a, c, b);
    }
  }

  /** Regrouping `x + (u + w)` as `(x + u) + w`, with names for the parts. */
  lemma {:induction false} ConsChain<T>(p: seq<T>, x: seq<T>, q: seq<T>, u: seq<T>, w: seq<T>, v: seq<T>)
    requires p == x + q && q == u + w && v == x + u
    ensures p == v + w
  {
  }

  lemma {:induction false} SplitConcatCharFirst(a: string, c: char, b: string, i: nat)
    requires IndexOf(a, [c]) == Some(i)
    ensures Split(a + [c] + b, [c]) == [a[..i]] + Split(a[i + 1..] + [c] + b, [c])
    ensures Split(a, [c]) == [a[..i]] + Split(a[i + 1..], [c])
  {
    var s := a + [c] + b;
    assert OccursAt(s, [c], i) by { assert s[i..i + 1] == a[i..i + 1]; }
    assert IndexOf(s, [c]) == Some(i) by {
      forall j | OccursAt(s, [c], j) && j < i ensures false {
        assert s[j..j + 1] == a[j..j + 1];
        assert OccursAt(a, [c], j);
      }
    }
    assert s[..i] == a[..i];
    assert s[i + 1..] == a[i + 1..] + [c] + b;
  }

  lemma {:induction false} SplitConcatCharLast(a: string, c: char, b: string)
    requires c !in a
    ensures Split(a + [c] + b, [c]) == Split(a, [c]) + Split(b, [c])
  {
    var s := a + [c] + b;
    NoCharNoOccurrence(a, c);
    assert OccursAt(s, [c], |a|) by { assert s[|a|..|a| + 1] == [c]; }
    assert IndexOf(s, [c]) == Some(|a|) by {
      forall j | 0 <= j < |a| ensures !OccursAt(s, [c], j) {
        assert s[j..j + 1] == a[j..j + 1];
      }
    }
    assert s[..|a|] == a;
    assert s[|a| + 1..] == b;
  }

  /** Splitting `a + sep + b` when the first occurrence of `sep` is the one
      that follows `a`. */
  lemma {:induction false} SplitAtFirst(a: string, sep: string, b: string)
    requires |sep| > 0
    requires IndexOf(a + sep + b, sep) == Some(|a|)
    ensures Split(a + sep + b, sep) == [a] + Split(b, sep)
  {
    var s := a + sep + b;
    assert s[..|a|] == a;
    assert s[|a| + |sep|..] == b;
  }

  // ---------------------------------------------------------------------------
  // int(), str(int)
  // ---------------------------------------------------------------------------

  function DigitChar(d: nat): (c: char)
    requires d < 10
    ensures IsDigit(c)
  {
    ['0', '1', '2', '3', '4', '5', '6', '7', '8', '9'][d]
  }

  function DigitValue(c: char): (d: nat)
    requires IsDigit(c)
    ensures d < 10 && DigitChar(d) == c
  {
    (c as int - '0' as int) as nat
  }

  /** `str(n)` for a natural number: decimal digits without leading zeros. */
  function NatToString(n: nat): (r: string)
    ensures |r| > 0
    ensures forall k :: 0 <= k < |r| ==> IsDigit(r[k])
    decreases n
  {
    if n < 10 then [DigitChar(n)] else NatToString(n / 10) + [DigitChar(n % 10)]
  }

  /** `str(n)` for any integer. */
  function IntToString(n: int): (r: string)
    ensures |r| > 0
    ensures n >= 0 ==> r == NatToString(n)
    ensures n < 0 ==> r == "-" + NatToString(-n)
  {
    if n < 0 then "-" + NatToString(-n) else NatToString(n)
  }

  /** The value of a non-empty string of decimal digits. */
  function DecimalValue(ds: string): nat
    requires forall k :: 0 <= k < |ds| ==> IsDigit(ds[k])
    decreases |ds|
  {
    if |ds| == 0 then 0
    else DecimalValue(ds[..|ds| - 1]) * 10 + DigitValue(ds[|ds| - 1])
  }

  /** Digits with single underscores between them, as `int()` accepts. */
  predicate WellGrouped(s: string) {
    && |s| > 0
    && IsDigit(s[0]) && IsDigit(s[|s| - 1])
    && (forall k :: 0 <= k < |s| ==> IsDigit(s[k]) || s[k] == '_')
    && (forall k :: 0 <= k < |s| - 1 ==> !(s[k] == '_' && s[k + 1] == '_'))
  }

  function RemoveUnderscores(s: string): (r: string)
    requires forall k :: 0 <= k < |s| ==> IsDigit(s[k]) || s[k] == '_'
    ensures forall k :: 0 <= k < |r| ==> IsDigit(r[k])
    decreases |s|
  {
    if |s| == 0 then []
    else (if s[0] == '_' then [] else [s[0]]) + RemoveUnderscores(s[1..])
  }

  /** The unsigned part of `int()`. */
  function ParseDigits(s: string): (r: Option<nat>)
    ensures r.Some? <==> WellGrouped(s)
  {
    if WellGrouped(s) then Some(DecimalValue(RemoveUnderscores(s))) else None
  }

  /** Python's `int(s)` in base 10: surrounding whitespace, an optional sign,
      and digits grouped by single underscores. None stands for `ValueError`. */
  function ParseInt(s: string): (r: Option<int>)
    ensures r.Some? ==> !IsBlank(s)
    ensures IsBlank(s) ==> r == None
  {
    var t := Strip(s);
    if |t| > 0 && (t[0] == '+' || t[0] == '-') then
      match ParseDigits(t[1..])
      case None => None
      case Some(n) =>
        var v: int := if t[0] == '-' then -(n as int) else n;
        Some(v)
    else
      match ParseDigits(t)
      case None => None
      case Some(n) => Some(n)
  }

  lemma {:induction false} DecimalValueOfNatToString(n: nat)
    ensures DecimalValue(NatToString(n)) == n
    decreases n
  {
    var s := NatToString(n);
    if n >= 10 {
      DecimalValueOfNatToString(n / 10);
      assert s[..|s| - 1] == NatToString(n / 10);
    }
  }

  lemma {:induction false} RemoveUnderscoresOfDigits(s: string)
    requires forall k :: 0 <= k < |s| ==> IsDigit(s[k])
    ensures RemoveUnderscores(s) == s
    decreases |s|
  {
    if |s| > 0 {
      RemoveUnderscoresOfDigits(s[1..]);
    }
  }

  lemma {:induction false} ParseDigitsOfNatToString(m: nat)
    ensures ParseDigits(NatToString(m)) == Some(m)
  {
    RemoveUnderscoresOfDigits(NatToString(m));
    DecimalValueOfNatToString(m);
  }

  /** `int(str(n)) == n`. */
  lemma {:induction false} ParseIntOfIntToString(n: int)
    ensures ParseInt(IntToString(n)) == Some(n)
  {
    var s := IntToString(n);
    if n < 0 {
      ParseIntOfNegative(-n, s);
    } else {
      ParseIntOfNatural(n, s);
    }
  }

  lemma {:induction false} ParseIntOfNatural(m: nat, s: string)
    requires s == NatToString(m)
    ensures ParseInt(s) == Some(m)
  {
    assert IsDigit(s[0]) && IsDigit(s[|s| - 1]);
    StripNoop(s);
    assert Strip(s) == s;
    assert s[0] != '+' && s[0] != '-';
    ParseDigitsOfNatToString(m);
  }

  lemma {:induction false} ParseIntOfNegative(m: nat, s: string)
    requires m > 0 && s == "-" + NatToString(m)
    ensures ParseInt(s) == Some(-(m as int))
  {
    assert !IsSpace(s[0]);
    assert !IsSpace(s[|s| - 1]) by { assert IsDigit(s[|s| - 1]); }
    StripNoop(s);
    ParseDigitsOfNatToString(m);
    assert s[1..] == NatToString(m);
  }

  // ---------------------------------------------------------------------------
  // slicing, replace, lower, endswith
  // ---------------------------------------------------------------------------

  /** Python's normalisation of a slice bound `k` against a length. */
  function SliceIndex(len: nat, k: int): (r: nat)
    ensures r <= len
    ensures 0 <= k <= len ==> r == k
  {
    if k < 0 then (if len + k < 0 then 0 else len + k)
    else if k > len then len
    else k
  }

  /** `s[:k]`. */
  function SliceTo(s: string, k: int): (r: string)
    ensures 0 <= k <= |s| ==> r == s[..k]
  {
    s[..SliceIndex(|s|, k)]
  }

  /** `s[k:]`. */
  function SliceFrom(s: string, k: int): (r: string)
    ensures 0 <= k <= |s| ==> r == s[k..]
  {
    s[SliceIndex(|s|, k)..]
  }

  /** `s.replace(a, b)` for one-character strings `a` and `b`. */
  function ReplaceChar(s: string, a: char, b: char): (r: string)
    ensures |r| == |s|
    ensures forall k :: 0 <= k < |s| ==> r[k] == (if s[k] == a then b else s[k])
  {
    seq(|s|, k requires 0 <= k < |s| => if s[k] == a then b else s[k])
  }

  /** Replacing one character commutes with concatenation. */
  lemma {:induction false} ReplaceCharConcat(s: string, t: string, a: char, b: char)
    ensures ReplaceChar(s + t, a, b) == ReplaceChar(s, a, b) + ReplaceChar(t, a, b)
  {
  }

  /** Lower-casing of one character, ASCII letters only. */
  function LowerChar(c: char): char {
    if 'A' <= c <= 'Z' then (c as int + 32) as char else c
  }

  /** Upper-casing of one character, ASCII letters only. */
  function UpperChar(c: char): char {
    if 'a' <= c <= 'z' then (c as int - 32) as char else c
  }

  /** ASCII letters, the cased characters of the model. */
  predicate IsLetter(c: char) {
    'a' <= c <= 'z' || 'A' <= c <= 'Z'
  }

  /** `s.lower()` restricted to ASCII letters. */
  function Lower(s: string): (r: string)
    ensures |r| == |s|
  {
    seq(|s|, k requires 0 <= k < |s| => LowerChar(s[k]))
  }

  /** `s.endswith(suffix)`. */
  predicate EndsWith(s: string, suffix: string) {
    |suffix| <= |s| && s[|s| - |suffix|..] == suffix
  }
}

=== FILE: tracker.dfy ===
/**
 The book tracker: which PDF books were processed, keyed by bare file name,
 with the MD5 digest of each file's contents at processing time.

 The tracker is a Python dict, so it remembers insertion order; it is modelled
 as the key order next to a map. Reading and writing the JSON file, the clock
 and the MD5 computation are outside the model: a file carries its digest, and
 the time of processing is a parameter.
 */
module Tracker {
  import opened Text
  import opened Helpers

  /** A file as the tracker sees it: its path, the MD5 hex digest of its
      contents and its size in bytes. */
  datatype DiskFile = DiskFile(path: string, digest: string, size: nat)

  /** `file_path.name`, the key a book is tracked under. */
  function Name(f: DiskFile): string {
    FileName(f.path)
  }

  /** One entry. Entries read back from the JSON file may lack keys, so the
      two that are read back, the hash and the chunk count, are optional. */
  datatype Record = Record(filePath: string, fileHash: Option<string>, chunkCount: Option<int>,
                           processedDate: string, fileSize: nat)

  /** `get('file_hash', '')` */
  function StoredHash(r: Record): string {
    match r.fileHash case None => "" case Some(h) => h
  }

  /** `get('chunk_count', 0)` */
  function StoredChunks(r: Record): int {
    match r.chunkCount case None => 0 case Some(c) => c
  }

  /** The dict: its keys in insertion order and its entries. */
  datatype Tracker = Tracker(keys: seq<string>, entries: map<string, Record>)

  predicate Distinct(keys: seq<string>) {
    forall i, j :: 0 <= i < j < |keys| ==> keys[i] != keys[j]
  }

  /** The keys are listed once each, and exactly the keys of the entries. */
  predicate Valid(t: Tracker) {
    && Distinct(t.keys)
    && t.entries.Keys == set k | k in t.keys
  }

  /** The empty tracker, as `clear_all` leaves it and a missing file starts it. */
  function Empty(): (t: Tracker)
    ensures Valid(t) && t.keys == [] && t.entries == map[]
  {
    Tracker([], map[])
  }

  /** `is_processed`: the file's name is tracked and its current digest equals
      the stored one. */
  predicate IsProcessed(t: Tracker, f: DiskFile) {
    Name(f) in t.entries && f.digest == StoredHash(t.entries[Name(f)])
  }

  /** The record `mark_as_processed` writes. */
  function NewRecord(f: DiskFile, chunkCount: int, now: string): Record {
    Record(f.path, Some(f.digest), Some(chunkCount), now, f.size)
  }

  /** `mark_as_processed`: store a fresh record under the file's name; a name
      already tracked keeps its place in the key order, a new one goes last. */
  function Mark(t: Tracker, f: DiskFile, chunkCount: int, now: string): (r: Tracker)
    requires Valid(t)
    ensures Valid(r)
    ensures Name(f) in r.entries && r.entries[Name(f)] == NewRecord(f, chunkCount, now)
    ensures forall k :: k != Name(f) ==>
              (k in r.entries <==> k in t.entries) && (k in t.entries ==> r.entries[k] == t.entries[k])
    ensures |r.keys| == if Name(f) in t.entries then |t.keys| else |t.keys| + 1
    ensures r.keys[..|t.keys|] == t.keys
  {
    var name := Name(f);
    var keys := if name in t.entries then t.keys else t.keys + [name];
    assert keys[..|t.keys|] == t.keys;
    Tracker(keys, t.entries[name := NewRecord(f, chunkCount, now)])
  }

  /** After marking a file, the same file counts as processed. */
  lemma {:induction false} MarkThenProcessed(t: Tracker, f: DiskFile, chunkCount: int, now: string)
    requires Valid(t)
    ensures IsProcessed(Mark(t, f, chunkCount, now), f)
  {
  }

  /** Tracking is by bare name: after marking `f`, any file with the same name
      counts as processed exactly when its digest equals `f`'s, wherever it
      lives, and files with other names are judged as before. */
  lemma {:induction false} MarkSharesName(t: Tracker, f: DiskFile, g: DiskFile, chunkCount: int, now: string)
    requires Valid(t)
    ensures Name(g) == Name(f) ==> (IsProcessed(Mark(t, f, chunkCount, now), g) <==> g.digest == f.digest)
    ensures Name(g) != Name(f) ==> (IsProcessed(Mark(t, f, chunkCount, now), g) <==> IsProcessed(t, g))
  {
  }

  /** A later mark of a file with the same name overwrites the earlier one
      completely: the result is as if only the later mark had happened. */
  lemma {:induction false} MarkOverwrites(t: Tracker, f: DiskFile, g: DiskFile, c1: int, c2: int, now1: string, now2: string)
    requires Valid(t) && Name(f) == Name(g)
    ensures Mark(Mark(t, f, c1, now1), g, c2, now2) == Mark(t, g, c2, now2)
  {
    var once := Mark(t, f, c1, now1);
    assert Name(g) in once.entries;
    assert once.entries[Name(g) := NewRecord(g, c2, now2)] == t.entries[Name(g) := NewRecord(g, c2, now2)];
  }

  /** `get_processed_books`: the tracked names in insertion order. */
  function ProcessedBooks(t: Tracker): (r: seq<string>)
    requires Valid(t)
    ensures forall k :: k in r <==> k in t.entries
    ensures Distinct(r)
  {
    t.keys
  }

  /** `get_book_info`: the record, or None for the empty dict returned for an
      untracked name. */
  function BookInfo(t: Tracker, name: string): (r: Option<Record>)
    ensures r.Some? <==> name in t.entries
    ensures r.Some? ==> r.value == t.entries[name]
  {
    if name in t.entries then Some(t.entries[name]) else None
  }

  /** The keys with `name` taken out. */
  function Without(keys: seq<string>, name: string): (r: seq<string>)
    ensures forall k :: k in r <==> k in keys && k != name
    ensures |r| <= |keys|
  {
    if |keys| == 0 then []
    else if keys[0] == name then Without(keys[1..], name)
    else [keys[0]] + Without(keys[1..], name)
  }

  lemma {:induction false} WithoutAt(keys: seq<string>, i: nat)
    requires Distinct(keys) && i < |keys|
    ensures Without(keys, keys[i]) == keys[..i] + keys[i + 1..]
    decreases |keys|
  {
    if i > 0 {
      WithoutAt(keys[1..], i - 1);
      assert keys[1..][i - 1] == keys[i];
      assert keys[1..][..i - 1] + keys[1..][i..] == keys[1..i] + keys[i + 1..];
      assert keys[..i] + keys[i + 1..] == [keys[0]] + (keys[1..i] + keys[i + 1..]);
    } else {
      WithoutAbsent(keys[1..], keys[0]);
    }
  }

  lemma {:induction false} WithoutAbsent(keys: seq<string>, name: string)
    requires name !in keys
    ensures Without(keys, name) == keys
    decreases |keys|
  {
    if |keys| > 0 {
      WithoutAbsent(keys[1..], name);
      assert keys == [keys[0]] + keys[1..];
    }
  }

  /** Taking a listed name out of distinct keys removes its one position and
      keeps the others distinct. */
  lemma {:induction false} WithoutListed(keys: seq<string>, name: string)
    requires Distinct(keys) && name in keys
    ensures Distinct(Without(keys, name))
    ensures exists i :: 0 <= i < |keys| && keys[i] == name && Without(keys, name) == keys[..i] + keys[i + 1..]
  {
    var i :| 0 <= i < |keys| && keys[i] == name;
    WithoutAt(keys, i);
    var r := Without(keys, name);
    forall a, b | 0 <= a < b < |r| ensures r[a] != r[b] {
      var a' := if a < i then a else a + 1;
      var b' := if b < i then b else b + 1;
      assert r[a] == keys[a'] && r[b] == keys[b'];
    }
  }

  /** `remove_book`: drop the name, leaving every other entry and the order of
      the other keys as they were; an untracked name changes nothing. */
  function RemoveBook(t: Tracker, name: string): (r: Tracker)
    requires Valid(t)
    ensures Valid(r)
    ensures name !in r.entries
    ensures forall k :: k != name ==>
              (k in r.entries <==> k in t.entries) && (k in t.entries ==> r.entries[k] == t.entries[k])
    ensures name !in t.entries ==> r == t
    ensures name in t.entries ==>
              exists i :: 0 <= i < |t.keys| && t.keys[i] == name && r.keys == t.keys[..i] + t.keys[i + 1..]
  {
    if name in t.entries then
      WithoutListed(t.keys, name);
      Tracker(Without(t.keys, name), t.entries - {name})
    else t
  }

  /** `clear_all`. */
  function ClearAll(): (r: Tracker)
    ensures Valid(r) && r.keys == [] && r.entries == map[]
  {
    Empty()
  }

  /** `get_book_info` after `mark_as_processed`: the marked name reads back
      the new record; every other name reads back what it did before. */
  lemma {:induction false} BookInfoAfterMark(t: Tracker, f: DiskFile, chunkCount: int, now: string, name: string)
    requires Valid(t)
    ensures BookInfo(Mark(t, f, chunkCount, now), name)
            == if name == Name(f) then Some(NewRecord(f, chunkCount, now)) else BookInfo(t, name)
  {
  }

  /** `get_book_info` after `remove_book`: the removed name reads back
      nothing; every other name reads back what it did before. */
  lemma {:induction false} BookInfoAfterRemove(t: Tracker, removed: string, name: string)
    requires Valid(t)
    ensures BookInfo(RemoveBook(t, removed), name) == if name == removed then None else BookInfo(t, name)
  {
  }

  /** After `clear_all` no name has a record. */
  lemma {:induction false} BookInfoAfterClear(name: string)
    ensures BookInfo(ClearAll(), name) == None
  {
  }

  /** A name has a record exactly when `get_processed_books` lists it, and
      `is_processed` is the record's stored hash compared with the digest. */
  lemma {:induction false} BookInfoAgrees(t: Tracker, f: DiskFile, name: string)
    requires Valid(t)
    ensures BookInfo(t, name).Some? <==> name in ProcessedBooks(t)
    ensures IsProcessed(t, f) <==> BookInfo(t, Name(f)).Some? && StoredHash(BookInfo(t, Name(f)).value) == f.digest
  {
  }

  // ---------------------------------------------------------------------------
  // Statistics
  // ---------------------------------------------------------------------------

  datatype Stats = Stats(totalBooksProcessed: nat, totalChunks: int, books: seq<string>)

  /** The sum of the chunk counts of the listed keys, a missing count as 0. */
  function SumChunks(keys: seq<string>, entries: map<string, Record>): int
    decreases |keys|
  {
    if |keys| == 0 then 0
    else Contribution(keys[0], entries) + SumChunks(keys[1..], entries)
  }

  /** What one key adds to the sum: its stored count, or 0 when untracked. */
  function Contribution(k: string, entries: map<string, Record>): int {
    if k in entries then StoredChunks(entries[k]) else 0
  }

  /** `get_stats`: the number of tracked books, the sum of their stored chunk
      counts, and their names in insertion order. */
  function GetStats(t: Tracker): (s: Stats)
    requires Valid(t)
    ensures s.totalBooksProcessed == |t.entries|
    ensures s.totalChunks == SumChunks(t.keys, t.entries)
    ensures s.books == t.keys
  {
    KeyCount(t);
    Stats(|t.keys|, SumChunks(t.keys, t.entries), t.keys)
  }

  /** A valid tracker lists as many keys as it has entries. */
  lemma {:induction false} KeyCount(t: Tracker)
    requires Valid(t)
    ensures |t.keys| == |t.entries|
  {
    DistinctCard(t.keys);
    assert t.entries.Keys == set k | k in t.keys;
  }

  lemma {:induction false} DistinctCard(keys: seq<string>)
    requires Distinct(keys)
    ensures |set k | k in keys| == |keys|
    decreases |keys|
  {
    if |keys| > 0 {
      DistinctCard(keys[1..]);
      assert (set k | k in keys) == (set k | k in keys[1..]) + {keys[0]};
      assert keys[0] !in keys[1..] by {
        forall j | 0 <= j < |keys[1..]| ensures keys[1..][j] != keys[0] {
          assert keys[1..][j] == keys[j + 1];
        }
      }
    }
  }

  lemma {:induction false} SumFrame(keys: seq<string>, e: map<string, Record>, e2: map<string, Record>)
    requires forall i :: 0 <= i < |keys| ==> (keys[i] in e <==> keys[i] in e2)
    requires forall i :: 0 <= i < |keys| && keys[i] in e ==> e[keys[i]] == e2[keys[i]]
    ensures SumChunks(keys, e) == SumChunks(keys, e2)
    decreases |keys|
  {
    if |keys| > 0 {
      SumFrame(keys[1..], e, e2);
    }
  }

  lemma {:induction false} SumAppend(keys: seq<string>, k: string, e: map<string, Record>)
    ensures SumChunks(keys + [k], e) == SumChunks(keys, e) + (if k in e then StoredChunks(e[k]) else 0)
    decreases |keys|
  {
    if |keys| > 0 {
      assert (keys + [k])[1..] == keys[1..] + [k];
      SumAppend(keys[1..], k, e);
    } else {
      assert keys + [k] == [k];
    }
  }

  /** Replacing the record of a key listed once changes the sum by the
      difference of the two counts. */
  lemma {:induction false} SumUpdate(keys: seq<string>, e: map<string, Record>, name: string, rec: Record)
    requires Distinct(keys) && name in keys && name in e
    ensures SumChunks(keys, e[name := rec]) == SumChunks(keys, e) - StoredChunks(e[name]) + StoredChunks(rec)
    decreases |keys|
  {
    if keys[0] == name {
      assert name !in keys[1..] by {
        forall j | 0 <= j < |keys[1..]| ensures keys[1..][j] != name {
          assert keys[1..][j] == keys[j + 1];
        }
      }
      SumFrame(keys[1..], e[name := rec], e);
    } else {
      assert name in keys[1..];
      assert Distinct(keys[1..]) by {
        forall a, b | 0 <= a < b < |keys[1..]| ensures keys[1..][a] != keys[1..][b] {
          assert keys[1..][a] == keys[a + 1] && keys[1..][b] == keys[b + 1];
        }
      }
      SumUpdate(keys[1..], e, name, rec);
    }
  }

  /** Marking a new name adds one book and its chunk count; re-marking a
      tracked name replaces its old count. */
  lemma {:induction false} StatsAfterMark(t: Tracker, f: DiskFile, chunkCount: int, now: string)
    requires Valid(t)
    ensures var before := GetStats(t);
      var after := GetStats(Mark(t, f, chunkCount, now));
      && (Name(f) !in t.entries ==>
            after.totalBooksProcessed == before.totalBooksProcessed + 1
            && after.totalChunks == before.totalChunks + chunkCount)
      && (Name(f) in t.entries ==>
            after.totalBooksProcessed == before.totalBooksProcessed
            && after.totalChunks == before.totalChunks - StoredChunks(t.entries[Name(f)]) + chunkCount)
  {
    var name := Name(f);
    var e2 := t.entries[name := NewRecord(f, chunkCount, now)];
    if name !in t.entries {
      SumFrame(t.keys, t.entries, e2);
      SumAppend(t.keys, name, e2);
    } else {
      SumUpdate(t.keys, t.entries, name, NewRecord(f, chunkCount, now));
    }
  }

  /** Taking out the record of a key listed once subtracts its count. */
  lemma {:induction false} SumRemove(keys: seq<string>, e: map<string, Record>, i: nat)
    requires Distinct(keys) && i < |keys| && keys[i] in e
    ensures SumChunks(keys[..i] + keys[i + 1..], e - {keys[i]}) == SumChunks(keys, e) - StoredChunks(e[keys[i]])
    decreases |keys|
  {
    var name := keys[i];
    var rest := keys[..i] + keys[i + 1..];
    assert name !in rest by {
      forall j | 0 <= j < |rest| ensures rest[j] != name {
        if j < i { assert rest[j] == keys[j]; } else { assert rest[j] == keys[j + 1]; }
      }
    }
    SumFrame(rest, e - {name}, e);
    SumSplitOut(keys, e, i);
  }

  lemma {:induction false} SumSplitOut(keys: seq<string>, e: map<string, Record>, i: nat)
    requires i < |keys|
    ensures SumChunks(keys, e) == SumChunks(keys[..i] + keys[i + 1..], e) + Contribution(keys[i], e)
    decreases |keys|
  {
    if i > 0 {
      SumSplitOut(keys[1..], e, i - 1);
      assert keys[1..][i - 1] == keys[i];
      assert keys[1..][..i - 1] + keys[1..][i..] == keys[1..i] + keys[i + 1..];
      assert (keys[..i] + keys[i + 1..])[1..] == keys[1..i] + keys[i + 1..];
      assert (keys[..i] + keys[i + 1..])[0] == keys[0];
    } else {
      assert keys[..0] + keys[1..] == keys[1..];
    }
  }

  /** The sum does not depend on the order of the keys: two orders of the
      same distinct keys give the same total. */
  lemma {:induction false} SumOrderFree(a: seq<string>, b: seq<string>, e: map<string, Record>)
    requires Distinct(a) && Distinct(b)
    requires forall k :: k in a <==> k in b
    ensures SumChunks(a, e) == SumChunks(b, e)
    decreases |a|
  {
    if |a| == 0 {
      DistinctCard(a);
      DistinctCard(b);
      assert (set k | k in a) == (set k | k in b);
    } else {
      var x := a[0];
      assert x in b;
      var i :| 0 <= i < |b| && b[i] == x;
      var b' := b[..i] + b[i + 1..];
      WithoutAt(b, i);
      WithoutListed(b, x);
      assert Distinct(a[1..]) by {
        forall m, n | 0 <= m < n < |a[1..]| ensures a[1..][m] != a[1..][n] {
          assert a[1..][m] == a[m + 1] && a[1..][n] == a[n + 1];
        }
      }
      forall k ensures k in a[1..] <==> k in b' {
        if k in a[1..] {
          var j :| 0 <= j < |a[1..]| && a[1..][j] == k;
          assert a[j + 1] == k;
        }
      }
      SumOrderFree(a[1..], b', e);
      SumSplitOut(b, e, i);
    }
  }

  /** The total chunk count depends only on the entries, not on the order the
      names were inserted in. */
  lemma {:induction false} StatsOrderFree(t1: Tracker, t2: Tracker)
    requires Valid(t1) && Valid(t2) && t1.entries == t2.entries
    ensures GetStats(t1).totalChunks == GetStats(t2).totalChunks
    ensures GetStats(t1).totalBooksProcessed == GetStats(t2).totalBooksProcessed
  {
    forall k ensures k in t1.keys <==> k in t2.keys {
      assert k in t1.keys <==> k in t1.entries.Keys;
      assert k in t2.keys <==> k in t2.entries.Keys;
    }
    SumOrderFree(t1.keys, t2.keys, t1.entries);
  }

  /** A record read back without a `chunk_count` counts as 0: replacing a
      tracked record by one without a count takes that record's count out of
      the total. */
  lemma {:induction false} MissingCountIsZero(t: Tracker, name: string, rec: Record)
    requires Valid(t) && name in t.entries && rec.chunkCount.None?
    ensures Valid(Tracker(t.keys, t.entries[name := rec]))
    ensures GetStats(Tracker(t.keys, t.entries[name := rec])).totalChunks
            == GetStats(t).totalChunks - StoredChunks(t.entries[name])
  {
    assert t.entries[name := rec].Keys == t.entries.Keys;
    SumUpdate(t.keys, t.entries, name, rec);
  }

  /** Removing a tracked book subtracts one book and its chunk count. */
  lemma {:induction false} StatsAfterRemove(t: Tracker, name: string)
    requires Valid(t)
    ensures var before := GetStats(t);
      var after := GetStats(RemoveBook(t, name));
      && (name !in t.entries ==> after == before)
      && (name in t.entries ==>
            after.totalBooksProcessed == before.totalBooksProcessed - 1
            && after.totalChunks == before.totalChunks - StoredChunks(t.entries[name]))
  {
    if name in t.entries {
      var r := RemoveBook(t, name);
      var i :| 0 <= i < |t.keys| && t.keys[i] == name && r.keys == t.keys[..i] + t.keys[i + 1..];
      SumRemove(t.keys, t.entries, i);
    }
  }

  /** After `clear_all` the statistics report no books and no chunks. */
  lemma {:induction false} StatsAfterClear()
    ensures GetStats(ClearAll()) == Stats(0, 0, [])
  {
  }

  // ---------------------------------------------------------------------------
  // New books in a directory
  // ---------------------------------------------------------------------------

  /** `glob("*.pdf")`: the names that end in `.pdf`, case-sensitively. */
  predicate IsPdfName(name: string) {
    EndsWith(name, ".pdf")
  }

  /** The PDFs of a directory listing, in listing order. */
  function PdfFiles(files: seq<DiskFile>): (r: seq<DiskFile>)
    ensures forall f :: f in r <==> f in files && IsPdfName(Name(f))
    ensures |r| <= |files|
  {
    if |files| == 0 then []
    else (if IsPdfName(Name(files[0])) then [files[0]] else []) + PdfFiles(files[1..])
  }

  /** The PDF filter works file by file: the PDFs of a listing are the PDFs
      of its first part followed by those of its second, in listing order. */
  lemma {:induction false} PdfFilesAppend(a: seq<DiskFile>, b: seq<DiskFile>)
    ensures PdfFiles(a + b) == PdfFiles(a) + PdfFiles(b)
    decreases |a|
  {
    if |a| > 0 {
      var head := if IsPdfName(Name(a[0])) then [a[0]] else [];
      assert (a + b)[0] == a[0];
      assert (a + b)[1..] == a[1..] + b;
      assert PdfFiles(a + b) == head + PdfFiles(a[1..] + b);
      PdfFilesAppend(a[1..], b);
      assert PdfFiles(a) == head + PdfFiles(a[1..]);
    } else {
      assert a + b == b;
    }
  }

  /** A single file is kept exactly when its name ends in `.pdf`. */
  lemma {:induction false} PdfFilesOne(f: DiskFile)
    ensures PdfFiles([f]) == if IsPdfName(Name(f)) then [f] else []
  {
    assert [f][1..] == [];
  }

  /** The files of the list that are not processed, in order. */
  function Unprocessed(t: Tracker, files: seq<DiskFile>): (r: seq<DiskFile>)
    ensures forall f :: f in r <==> f in files && !IsProcessed(t, f)
    ensures |r| <= |files|
  {
    if |files| == 0 then []
    else (if IsProcessed(t, files[0]) then [] else [files[0]]) + Unprocessed(t, files[1..])
  }

  /** The filter of unprocessed files works file by file. */
  lemma {:induction false} UnprocessedAppend(t: Tracker, a: seq<DiskFile>, b: seq<DiskFile>)
    ensures Unprocessed(t, a + b) == Unprocessed(t, a) + Unprocessed(t, b)
    decreases |a|
  {
    if |a| > 0 {
      var head := if IsProcessed(t, a[0]) then [] else [a[0]];
      assert (a + b)[0] == a[0];
      assert (a + b)[1..] == a[1..] + b;
      assert Unprocessed(t, a + b) == head + Unprocessed(t, a[1..] + b);
      assert Unprocessed(t, a) == head + Unprocessed(t, a[1..]);
      UnprocessedAppend(t, a[1..], b);
    } else {
      assert a + b == b;
    }
  }

  /** A single file is kept exactly when it is not processed. */
  lemma {:induction false} UnprocessedOne(t: Tracker, f: DiskFile)
    ensures Unprocessed(t, [f]) == if IsProcessed(t, f) then [] else [f]
  {
    assert [f][1..] == [];
  }

  /** `get_new_books`: a missing directory (None) gives no books; otherwise
      the directory's PDFs that are not processed. */
  function GetNewBooks(t: Tracker, dir: Option<seq<DiskFile>>): (r: seq<DiskFile>)
    ensures dir.None? ==> r == []
    ensures dir.Some? ==> forall f :: f in r <==> f in dir.value && IsPdfName(Name(f)) && !IsProcessed(t, f)
  {
    match dir
    case None => []
    case Some(files) => Unprocessed(t, PdfFiles(files))
  }

  /** The new books of a listing are the new books of its first part
      followed by those of its second: order and repetitions are kept. */
  lemma {:induction false} NewBooksAppend(t: Tracker, a: seq<DiskFile>, b: seq<DiskFile>)
    ensures GetNewBooks(t, Some(a + b)) == GetNewBooks(t, Some(a)) + GetNewBooks(t, Some(b))
  {
    PdfFilesAppend(a, b);
    UnprocessedAppend(t, PdfFiles(a), PdfFiles(b));
  }

  /** A single file is a new book exactly when it is a PDF that is not processed. */
  lemma {:induction false} NewBooksOne(t: Tracker, f: DiskFile)
    ensures GetNewBooks(t, Some([f])) == if IsPdfName(Name(f)) && !IsProcessed(t, f) then [f] else []
  {
    PdfFilesOne(f);
    UnprocessedOne(t, f);
    assert Unprocessed(t, []) == [];
  }
}
